=== FILE: README.md ===
# gridder core in Dafny

A model of the decision logic of gridder, a spot grid-trading bot for
BTC/FDUSD that can hedge with Deribit options. It is written as pure Dafny
functions, with proofs of what the code promises. The modules follow the
repository's files:

- `Grid` (src/grid_calculator.py): the price ladder.
  - Prices are rounded half-up to the price tick.
  - The walk descends from the top of the range to its bottom, always by at least one tick.
  - Each level gets a base and a quote size.
  - The cumulative base and quote balance columns are filled in, and the funds needed are taken from them.
  - The entry level is selected.
  - The N buy and sell levels nearest a price are chosen.
- `Bot` (src/trader_bot.py): the decision rules of `TraderBot`.
  - The funds check.
  - The simulated balances of test mode.
  - The inference of test-mode fills from the change in the BTC balance.
  - Idempotent placement of missing test orders.
  - Live-mode price clamping and client ids.
  - The daily-ROI take-profit trigger.

  The open orders, trade counters and last trade form a `BotState` record that these functions thread through.
- `Trades` (src/trader_bot.py): the average-cost realised PnL of `calculate_spot_realized_pnl`.
- `Fifo` (src/helpers/calculators.py): the first-in-first-out lot matcher. It is related to the average-cost formula.
- `Book` (src/deribit_integration.py): the volume-weighted walk over an option order book that `price_for_volume` performs.
- `Schema` (src/table_schema_manager.py): table fields, defaults, formatting and validation.
- `Migrate` (src/migrate_tables.py): the per-record merge, and the per-file and per-table rewrite decision.
- `Stamps`, `Jsonl` and `Store` (src/database.py): the append-only JSON Lines store of `SimulativeDatabase`.
  - The directory is an abstract map from file names to lines.
  - The clock readings, the reported file size and write or rename failures are inputs.
  - Modelled: record construction, the day-file naming rule, rename-only rotation, and reading with filtering and sorting.
- `Config` (src/config_validator.py): the five-stage validator, applied to the decoded configuration object.
- `Common` and `Sorting`: sums, filters, string order, and an insertion sort.
  - The sort is stable, as Python's `sorted` and `list.sort` are.

Python floats are modelled as exact reals, and `Decimal(str(x))` as the
exact value of `x`. Exceptions the code raises on the inputs it models are `Result` errors; trade rows are typed, so the errors of malformed rows are left out (see below). The
operating system's directory order is an arbitrary listing, passed as an
input.

Where the code differs from what its names, comments and examples suggest, the model follows the code:

- A level's quote balance sums the levels strictly below it, not at or below.
- The average-cost example (buy 1 at 100 and at 120, sell 1 at 130 and at 110) gives 20, not 10.
- A line of a table file that does not decode ends the reading of that file. It is not merely skipped.
- Reads filter by `bot_name` only; there is no `bot_run` filter.

## Model

| member | source | states |
|---|---|---|
| Grid.RoundHalfUpBounds | src/grid_calculator.py:26 | Half-up rounding lands within half a unit of its argument, and a tie goes away from zero. |
| Grid.RoundHalfUpUnique | src/grid_calculator.py:26 | Those bounds determine the rounded integer uniquely. |
| Grid.RoundToTick | src/grid_calculator.py:22-26 | `round_to_tick`: `value / tick` rounded half-up, times the tick. Its contract is given by `Grid.RoundToTickBounds` and `Grid.RoundToTickUnique`. |
| Grid.RoundToTickBounds | src/grid_calculator.py:22-26 | `round_to_tick(v, t)` with `t > 0` lies within half a tick of `v`, exact halves rounding up for `v >= 0`. |
| Grid.RoundToTickUnique | src/grid_calculator.py:22-26 | For a positive tick, any multiple of the tick lying within half a tick of `v` (the upper end of the window counting for `v >= 0`, the lower end for `v < 0`) is the result of `round_to_tick`. |
| Grid.RoundToTickOfMultiple | src/grid_calculator.py:42 | Re-rounding a price that is already on the tick grid leaves it unchanged. |
| Grid.NextTicks | src/grid_calculator.py:56-59 | One step of the walk, in ticks, always ends strictly below where it started. |
| Grid.NextPriceStep | src/grid_calculator.py:56-60 | The real-valued step (rounded `current * (1 - diff%)`, forced to `current - tick` when not lower) is the tick-count step, and it lowers the price by at least one tick. |
| Grid.WalkTicks | src/grid_calculator.py:41-60 | The walk visits tick counts from its start while they stay at or above the bottom: it is non-empty exactly when the start is not below the bottom, starts at the start, stays in range and strictly decreases, so it terminates. |
| Grid.EffectiveSizeTick | src/grid_calculator.py:13 | A missing or zero size tick falls back to 1e-6; any other size tick is used as given. |
| Grid.WalkRows | src/grid_calculator.py:41-60 | The loop appends exactly one row per visited price, in walk order; it fails with a zero-price error exactly when the walk reaches price 0, where the base size would divide by zero. |
| Grid.CalculateGridOrders | src/grid_calculator.py:28-72 | An empty walk (pandas cannot sort the empty table) and a zero price are the only errors, each iff its condition. Otherwise the result is the sorted, balanced table of the walk's rows with the column maxima as funds. |
| Grid.CalculateBalances | src/grid_calculator.py:74-92 | The two running-total loops give each row the base sizes of all rows above it and the quote sizes of all rows below it. |
| Grid.FillBaseColumn | src/grid_calculator.py:82-85 | The downward loop gives every level, as its base balance, the sum of the base sizes of the levels above it, and keeps the rest of each level. |
| Grid.FillQuoteColumn | src/grid_calculator.py:87-90 | The upward loop then gives every level, as its quote balance, the sum of the quote sizes of the levels below it. |
| Grid.WithBalancesSteps | src/grid_calculator.py:74-92 | Balancing keeps each row's price and sizes. The top row's base balance and the bottom row's quote balance are 0. Each step up removes that level's base size from the base column and adds the level below's quote size to the quote column. |
| Grid.BalancesMonotone | src/grid_calculator.py:82-90 | With non-negative sizes the base column is non-increasing and the quote column non-decreasing up the table. |
| Grid.BalancesNonNegative | src/grid_calculator.py:82-90 | With non-negative sizes neither balance column has a negative entry. |
| Grid.RawLevelSizes | src/grid_calculator.py:44-47 | At a positive price the base size is non-negative and its quote value lies within half a size tick (at that price) of the configured quote size. |
| Grid.LadderLevels | src/grid_calculator.py:44-63 | Level `i` of the ladder is the `i`-th lowest visited price, carrying the sizes computed at that price. |
| Grid.LadderIsReversedWalk | src/grid_calculator.py:62-64 | Sorting the rows of the descending walk by price is reversing them. |
| Grid.LadderShape | src/grid_calculator.py:29-63 | The ladder has one level per visited price. Prices rise by at least one tick per level, so they are distinct. The highest price is the rounded top of the range and none lies outside the rounded range. |
| Grid.LadderFunds | src/grid_calculator.py:98-106 | On a range above zero, the funds needed are the bottom level's base balance (the base sizes of every other level) and the top level's quote balance (the quote sizes of every other level). These are the column maxima. |
| Grid.LadderColumns | src/grid_calculator.py:74-92 | On the ladder `calculate_grid_orders` builds over a range above zero, both balance columns are never negative, the base column never rises and the quote column never falls going up the levels. |
| Grid.FindEntryIndex | src/grid_calculator.py:94-96 | The entry index is the first level whose price is closest to the entry price. |
| Grid.OrdersForPriceRangeSpec | src/grid_calculator.py:108-113 | On an ascending table the buys are the at most N levels strictly below the price nearest to it, and the sells the at most N strictly above nearest to it, each ascending. A level at the price is in neither. |
| Grid.OrdersForPriceRange | src/grid_calculator.py:108-113 | `get_orders_for_price_range`: the last N levels below the price and the first N above it. Its contract is given by `Grid.OrdersForPriceRangeSpec`. |
| Bot.VerifyFunds | src/trader_bot.py:100-113 | Test mode always passes. Live mode passes iff BTC is at least the base needed and FDUSD at least the quote needed, a missing asset counting as 0. |
| Bot.MissingAssetFails | src/trader_bot.py:105-108 | In live mode a missing asset fails the check whenever a positive amount of it is needed. |
| Bot.FundsCoverEveryLevel | src/trader_bot.py:100-113 | When the funds needed are the maxima of the balance columns, the live check passes iff the BTC held covers every level's base balance and the FDUSD held covers every level's quote balance. |
| Bot.LadderFundable | src/trader_bot.py:100-113 | For the ladder `calculate_grid_orders` builds, the live check passes exactly when the account can fund every level of the grid. |
| Bot.SimulatedBalances | src/trader_bot.py:139-162 | The simulated balances hold exactly BTC and FDUSD, both never negative. |
| Bot.SimulatedBelowLadder | src/trader_bot.py:144-146 | Below the lowest level the bot holds the base needed and no quote. |
| Bot.SimulatedAboveLadder | src/trader_bot.py:147-149 | Above the highest level the bot holds no base and the quote needed. |
| Bot.SimulatedAtLevel | src/trader_bot.py:150-162 | Inside the ladder the bot holds the balances of the last level priced at or below the current price. |
| Bot.SimulatedBtcNonIncreasing | src/trader_bot.py:139-162 | On a ladder with a falling base column covered by the base needed, simulated BTC never rises with the price. |
| Bot.FillWithoutChange | src/trader_bot.py:235-239 | Without previous balances, or with BTC unchanged, nothing fills and the state is unchanged. |
| Bot.FillOnRise | src/trader_bot.py:241-260 | A BTC rise fills exactly the open BUYs above the bid, highest first. The others stay open in order, the buy counter grows by the number filled, and the last trade is the record of the last fill processed, which is the cheapest. |
| Bot.FillOnFall | src/trader_bot.py:261-279 | A BTC fall fills exactly the open SELLs below the ask, lowest first. The others stay open, the sell counter grows by the number filled, and the last trade is the record of the last fill processed, which is the dearest. |
| Bot.FillIgnoresDeltaSize | src/trader_bot.py:239-241 | Only the sign of the BTC change matters, not its size. |
| Bot.FillStep | src/trader_bot.py:235-279 | The fill step of test mode with its trade save repaired, reached with previous balances once the `save_run_config` call at :73 and the statistics save are repaired too: fills inferred from the sign of the BTC change, counted, and removed from the open orders. Its contract is given by `Bot.FillWithoutChange`, `Bot.FillOnRise` and `Bot.FillOnFall`. |
| Bot.FillStepAsWritten | src/trader_bot.py:241-279 | The same fill step, but removing every open order that shares an id with a fill, as the removal at lines 259 and 278 does. It is related to `Bot.FillStep` by `Bot.AsWrittenAgreesOnDistinctIds` and `Bot.AsWrittenDropsUnfilledOrder`. |
| Bot.RemoveByIdDropsIds | src/trader_bot.py:259 | Removing by id drops every open order that shares an id with a filled one. |
| Bot.AsWrittenAgreesOnDistinctIds | src/trader_bot.py:241-279 | With distinct order ids, removal by id removes exactly the filled orders. |
| Bot.AsWrittenDropsUnfilledOrder | src/trader_bot.py:259 | Two orders with one millisecond id: once :73 and the trade and statistics saves are repaired, removal by id after the BUY fills also removes the unfilled SELL. |
| Bot.NewOrders | src/trader_bot.py:322-334 | One NEW order is appended per level placed. |
| Bot.NewOrdersFromWanted | src/trader_bot.py:287-293 | Every order appended for a side comes from a wanted candidate of that side, at its price and base size, without a client id. |
| Bot.WantedGetOrders | src/trader_bot.py:287-293 | Every wanted candidate gets an order. |
| Bot.PlaceCandidatesSpec | src/trader_bot.py:286-293 | Placing the chosen buys and sells keeps the open orders as a prefix and no counter changes. Each appended order has no client id and comes from a candidate of its side whose (price, side) is not open and whose price is not the last trade's, at its price and size. Every such candidate gets an order. |
| Bot.PlaceTestOrdersSpec | src/trader_bot.py:283-293 | Placement keeps the open orders as a prefix and changes no counter or last trade. It appends one order per candidate level unless that level's (price, side) is open or its price is the last trade's. |
| Bot.PlaceTestOrdersIdempotent | src/trader_bot.py:283-293 | A second placement with the same ladder, mid price and last trade appends nothing. |
| Bot.PlaceTestOrders | src/trader_bot.py:283-293 | Test placement: the chosen buys and sells around the mid price, skipping open (price, side) pairs and the last trade's price. Its contract is given by `Bot.PlaceTestOrdersSpec` and `Bot.PlaceTestOrdersIdempotent`. |
| Bot.ManageTestMode | src/trader_bot.py:233-293 | The test-mode branch with its trade save repaired and only the filled orders removed (not every order sharing their ids): the fill step, then placement around the mid price. `Bot.AsWrittenAgreesWithoutFills` relates it to the branch as written. |
| Bot.ManageTestModeAsWritten | src/trader_bot.py:233-293 | The test-mode branch as written: given previous balances, the first fill raises in the save after its counter was incremented, so nothing is removed or placed; without them it only places orders. Its contract is given by `Bot.AsWrittenFillStalls` and `Bot.NoPreviousBalancesPlaces`. |
| Bot.SameMillisecondSharesId | src/trader_bot.py:326 | Orders placed while the millisecond clock stands still share one order id. |
| Bot.AsWrittenFillStalls | src/trader_bot.py:241-260 | Given previous balances showing a rise, the branch as written counts a filled BUY on every call, never removes it and places nothing; the corrected step removes it and counts it once. |
| Bot.NoPreviousBalancesPlaces | src/trader_bot.py:235 | Without previous balances the branch as written infers no fill and only places orders around the mid price. |
| Bot.LoopStepAsWritten | src/trader_bot.py:115-130 | One test-mode pass of `_trading_loop` as written (reached once the `save_run_config` call at :73 is repaired): the order step, then `_check_pnl` once a minute has passed, and the check time and balances stored only when neither raised. Its contract is given by `Bot.AsWrittenNeverFills`. |
| Bot.LoopStep | src/trader_bot.py:115-130 | The same pass with both saves repaired. Its contract is given by `Bot.RepairedLoopFillsOnRise`. |
| Bot.AsWrittenNeverFills | src/trader_bot.py:54-56 | With the call at :73 repaired so that the loop starts, from the start-up memory (last check one minute back, no balances), the loop as written keeps that memory forever: no fill is inferred, the trade counters and last trade never change, and open orders are only added. |
| Bot.RepairedLoopFillsOnRise | src/trader_bot.py:124-129 | With both saves repaired, the second pass after a rise in BTC counts an open BUY above the bid, while the loop as written counts nothing. |
| Bot.RepairedFirstPass | src/trader_bot.py:124-129 | The first repaired pass fills nothing, keeps the open orders as a prefix and stores its balances. |
| Bot.RepairedPassFills | src/trader_bot.py:235-260 | A repaired pass after a rise in BTC counts an open BUY above the bid. |
| Bot.AsWrittenAgreesWithoutFills | src/trader_bot.py:235-293 | When nothing fills, the branch as written and the corrected branch agree. |
| Bot.LiveSideSpec | src/trader_bot.py:207-221 | Each live order sent for a side comes from a candidate whose client id `bot_name_price` is not open, at its send price and size. Every such candidate with a non-zero send price is sent. |
| Bot.LiveSideSound | src/trader_bot.py:207-221 | Every live order sent for a side has that side, a client id that was not open, a non-zero price, and comes from a candidate at its send price and size. |
| Bot.LiveSideComplete | src/trader_bot.py:207-221 | Every candidate whose client id is not open and whose send price is not zero is sent under that id. |
| Bot.LiveNeverCrosses | src/trader_bot.py:213-221 | Live orders never cross the book: a BUY goes at or below the bid and its grid price, and a SELL at or above the ask and its grid price. No order reuses an open client id. |
| Bot.LivePlacement | src/trader_bot.py:207-221 | The live placement decision over the buy and sell candidates. Its contract is given by `Bot.LiveSideSpec` and `Bot.LiveNeverCrosses`. |
| Bot.SendPriceBounds | src/trader_bot.py:214-217 | The send price is `min(grid, bid)` for a BUY and `max(grid, ask)` for a SELL. |
| Bot.RefPriceSpec | src/trader_bot.py:200-201 | The live reference price is that of the first level whose base balance the held BTC covers. There is none exactly when no level qualifies. |
| Bot.RunningDays | src/trader_bot.py:359 | Running days are exactly 1 while under one whole day has elapsed, and the elapsed whole days from then on. |
| Bot.DailyRoiSpec | src/trader_bot.py:360-363 | The daily ROI is 0 without a positive investment. Otherwise, times the investment and the running days, it gives back the total PnL, so it has the PnL's sign. |
| Bot.CheckPnlSpec | src/trader_bot.py:386-388 | A check stops the bot exactly when the daily ROI meets the target, and never restarts it. |
| Bot.CheckPnl | src/trader_bot.py:386-388 | `_check_pnl` and `_enter_take_profit_mode`: the running flag after a check. Its contract is given by `Bot.CheckPnlSpec`. |
| Bot.CheckPnlAsWritten | src/trader_bot.py:365-388 | `_check_pnl` as written: the statistics save raises before the comparison, so the flag never changes. Its contract is given by `Bot.AsWrittenNeverTakesProfit`. |
| Bot.MonitorStopsAtTarget | src/trader_bot.py:90-92 | The loop stops at the first ROI meeting the target, after exactly that many checks, and otherwise runs through all of them. |
| Bot.AsWrittenNeverTakesProfit | src/trader_bot.py:365-388 | As written the loop never stops on the ROI; corrected, any ROI meeting the target stops it. |
| Bot.Monitor | src/trader_bot.py:90-92 | The `while self.running` loop over a sequence of checks. Its contract is given by `Bot.MonitorStopsAtTarget`. |
| Bot.MonitorAsWritten | src/trader_bot.py:90-92 | The same loop over `_check_pnl` as written. Its contract is given by `Bot.AsWrittenNeverTakesProfit`. |
| Trades.TotalsPermutation | src/trader_bot.py:413-417 | The four buy/sell totals do not depend on the order of the trades. |
| Trades.AvgCostUnsorted | src/trader_bot.py:405-421 | The realised PnL is the average-cost formula applied to the totals of the trades, sorted or not. |
| Trades.AvgCostOrderIndependent | src/trader_bot.py:409-421 | Trade lists with the same trades give the same PnL. |
| Trades.AvgCostOneSided | src/trader_bot.py:418-420 | Without any buy or without any sell the PnL is 0. |
| Trades.AvgCostBalanced | src/trader_bot.py:421 | When as much was sold as bought, the PnL is the sale proceeds less the purchase cost. |
| Trades.SideIgnoresCase | src/trader_bot.py:413-417 | For every trade, it is a buy iff its side is "buy" spelled in any mix of upper and lower case letters, and a sell iff its side is "sell" spelled so. Two sides that lower-case alike are classified alike. |
| Trades.AvgCostExample | src/trader_bot.py:404-421 | Buying 1 at 100 and at 120 and selling 1 at 130 and at 110 realises 20. |
| Trades.AvgCostPnl | src/trader_bot.py:404-421 | `calculate_spot_realized_pnl`: 0 without trades, otherwise the average-cost formula over the trades sorted by timestamp. Its contract is given by `Trades.AvgCostUnsorted`, `Trades.AvgCostOneSided` and `Trades.AvgCostBalanced`. |
| Fifo.CloseSpec | src/helpers/calculators.py:30-40 | Closing a sell consumes the oldest lots first and closes at most its quantity. Lots stay positive, and the open quantity falls by the matched amount. The PnL is the matched quantity at the sell price less what the consumed lots cost. Quantity is left unclosed only when no lot is left. |
| Fifo.SellWithoutLots | src/helpers/calculators.py:30-41 | A sell that meets no open lot realises nothing; its quantity is ignored. |
| Fifo.SellWithinOldestLot | src/helpers/calculators.py:33-38 | A sell the oldest lot covers only reduces that lot and realises the price difference on its whole quantity. |
| Fifo.RunInvariant | src/helpers/calculators.py:23-40 | Over positive-quantity trades the lot queue stays positive, the open quantity is bought minus matched, and the PnL is matched sales less the cost of closed lots. |
| Fifo.MatchedBounds | src/helpers/calculators.py:28-40 | The matched quantity never exceeds what was bought or what was sold, the open quantity is bought minus matched, and every lot left is positive. |
| Fifo.FullCover | src/helpers/calculators.py:28-40 | When every sell was covered and no lot is left, the PnL is total sell quote minus total buy quote. |
| Fifo.FifoMatchesAvgCost | src/helpers/calculators.py:10-42 | In that case the FIFO PnL equals the bot's average-cost PnL. |
| Fifo.FifoSortedInput | src/helpers/calculators.py:19 | The result depends only on the timestamp-sorted trades. |
| Fifo.FifoSkipsOtherSides | src/helpers/calculators.py:24-30 | Trades whose side is neither buy nor sell have no effect. |
| Fifo.FifoPnl | src/helpers/calculators.py:10-42 | The FIFO `calculate_spot_realized_pnl`: 0 without trades, otherwise the lot matcher over the timestamp-sorted trades. Its contract is given by `Fifo.RunInvariant`, `Fifo.FifoSortedInput` and `Fifo.FifoMatchesAvgCost`. |
| Book.PriceForVolumeSide | src/deribit_integration.py:66-69 | A sell walks the bids; any other side walks the asks. |
| Book.NonPositiveVolume | src/deribit_integration.py:74-86 | A requested volume at or below 0 takes no level and prices at 0. |
| Book.WalkTaken | src/deribit_integration.py:74-80 | The walk takes each level in book order, never more than it offers, and looks at every level while volume is still wanted. |
| Book.InsufficientLiquidity | src/deribit_integration.py:82-84 | When the book offers less than the request, the price is 0. |
| Book.VwapWithinConsumed | src/deribit_integration.py:78-86 | A filled request is priced at the volume-weighted average of the consumed levels, between their lowest and highest price. |
| Book.FirstLevelCovers | src/deribit_integration.py:74-86 | When the best level alone covers the request, the price is that level's. |
| Book.PriceForVolume | src/deribit_integration.py:63-88 | `price_for_volume` on a given order book. Its contract is given by `Book.PriceForVolumeSide`, `Book.WalkTaken`, `Book.InsufficientLiquidity` and `Book.VwapWithinConsumed`. |
| Schema.GetFields | src/table_schema_manager.py:41-46 | The field names in declaration order, none for an unknown table. |
| Schema.GetDefaultsSpec | src/table_schema_manager.py:48-53 | The defaults have exactly the schema's fields as keys, each with its declared default and a bare field with `None`. |
| Schema.TradesFields | src/table_schema_manager.py:6-14 | The `trades` fields in order; `timestamp` and `price` default to `None`, `quantity` to 0.0 and `bot_name` to "unknown". |
| Schema.FormatData | src/table_schema_manager.py:55-59 | The formatted record's keys are exactly the schema fields. |
| Schema.FormatDataValues | src/table_schema_manager.py:55-59 | Each field takes the data's value when present and its default otherwise; other keys are dropped. |
| Schema.FormatIdempotent | src/table_schema_manager.py:55-59 | Formatting a formatted record changes nothing. |
| Schema.ValidateFormatted | src/table_schema_manager.py:55-64 | Formatted records always validate. |
| Schema.ValidateMeansNoDefaults | src/table_schema_manager.py:55-64 | A record validates exactly when formatting takes nothing from the defaults. |
| Schema.UnknownTable | src/table_schema_manager.py:41-64 | An unknown table has no fields: formatting gives the empty record and every record validates. |
| Schema.SchemasDistinct | src/table_schema_manager.py:5-38 | Every table's schema declares each field name once. |
| Migrate.MigrateRecord | src/migrate_tables.py:21-23 | The merged record keeps every original key with its value, adds exactly the missing schema fields, and gives each its default. |
| Migrate.ChangedIffMissing | src/migrate_tables.py:24-25 | A record changes exactly when some schema field is missing, that is when it does not validate. |
| Migrate.MigrateIdempotent | src/migrate_tables.py:21-25 | Migrating a migrated record changes nothing and counts as unchanged. |
| Migrate.MigrateLinesSpec | src/migrate_tables.py:17-27 | A file migrates iff every line is blank or a JSON object. The records keep their number and order, each is merged, and the file counts as changed iff some record changed. |
| Migrate.MigrateLinesOk | src/migrate_tables.py:17-27 | A file's lines migrate without error exactly when every line is blank or a JSON object. |
| Migrate.MigrateLinesRecords | src/migrate_tables.py:17-27 | The migrated records are the file's records in order, each merged with the schema defaults. |
| Migrate.MigrateLines | src/migrate_tables.py:17-27 | The loop over one file's lines. Its contract is given by `Migrate.MigrateLinesSpec`. |
| Migrate.MigrateFileSpec | src/migrate_tables.py:29-32 | A file is rewritten only when some record changed. The rewrite holds the merged records in order, and afterwards every record validates. |
| Migrate.MigrateFileOfMigrated | src/migrate_tables.py:24-32 | A file whose records all validate is not rewritten. |
| Migrate.MigrateFile | src/migrate_tables.py:17-32 | One file of `migrate_table`: the new lines when some record changed, nothing otherwise. Its contract is given by `Migrate.MigrateFileSpec`. |
| Migrate.MigrateTableSpec | src/migrate_tables.py:10-32 | Only the table's listed files are touched. After a migration without error, all of them hold only valid records. |
| Migrate.MigrateTableIdempotent | src/migrate_tables.py:10-32 | Migrating a table again after a completed migration changes nothing. |
| Migrate.MigratedTableStays | src/migrate_tables.py:10-32 | A directory whose table files are migrated is left alone. |
| Migrate.MigrateTable | src/migrate_tables.py:10-32 | `migrate_table` over a listing of the directory. Its contract is given by `Migrate.MigrateTableSpec` and `Migrate.MigrateTableIdempotent`. |
| Stamps.PadRoundTrip | src/database.py:41-54 | Zero-padded fields read back as their numbers. |
| Stamps.DayStampSpec | src/database.py:41-54 | The day stamp is eight digits reading back as year, month and day, and the second stamp starts with it. |
| Stamps.IsoStampChronological | src/database.py:17 | Record stamps written with their fraction compare as strings exactly as the instants compare. |
| Stamps.AsWrittenStampsMisorder | src/database.py:17 | As written, a stamp on a whole second sorts after the stamp one microsecond later. |
| Stamps.WholeSecondSortsLate | src/database.py:17 | For any two instants in one second, the first on the whole second and the second after it, the stamp as written sorts strictly after the later one's. |
| Stamps.IsoStampAsWritten | src/database.py:17 | `datetime.utcnow().isoformat() + "Z"`. Its contract is given by `Stamps.AsWrittenDropsZeroFraction`. |
| Stamps.AsWrittenDropsZeroFraction | src/database.py:17 | The stamp as written equals the full-fraction stamp except on a whole second, where it leaves out ".000000" before the `Z`. |
| Store.MakeRecord | src/database.py:19-23 | A saved record has every data key with its value, plus `timestamp` and `bot_name` unless the data sets them. |
| Store.SaveToDb | src/database.py:16-38 | `save_to_db`: append the stamped record to the day file, then rotate above 5 MB. Its contract is given by `Store.SaveFailureRaises`, `Store.SaveAppendsToDayFile` and `Store.SaveKeepsEveryLine`. |
| Store.FileNames | src/database.py:40-55 | The day file and the rotated file are files of the table, and they never coincide. |
| Store.SaveFailureRaises | src/database.py:27-38 | A save fails exactly when the write raises, and then it re-raises. |
| Store.SaveAppendsToDayFile | src/database.py:25-32 | At or under 5 MB a save appends the record, stamped as `isoformat() + "Z"` writes it, to the day file of the current UTC date, creating it if needed, and changes no other file. |
| Store.RotateOnlyRenames | src/database.py:51-65 | Rotation only renames the day file to the second-stamped name, replacing any file there. Without a day file, or when the rename fails, nothing changes. |
| Store.SaveKeepsEveryLine | src/database.py:16-65 | A save loses no line: across any listings before and after, the table's lines gain exactly the saved record, provided rotation does not land on an existing file. |
| Store.RotationReplacesExistingTarget | src/database.py:60-62 | When the rotated name is already taken, the rename replaces that file and its lines are gone. |
| Store.ListingsGatherSame | src/database.py:70-71 | Any two listings of a directory gather the same records, in some order. |
| Store.RenameGathersSame | src/database.py:60-71 | Renaming a table file to a free name of the same table, with the listing changed accordingly, collects the same records in the same order. |
| Store.RotateGathersSame | src/database.py:51-71 | Whatever the listings before and after, a rotation onto a free name collects the same records, in some order. |
| Store.FileRecordsAppend | src/database.py:74-82 | Reading two runs of lines in one file yields the first run's records, then the second's unless a line of the first ends the file. |
| Store.RotationKeepsReads | src/database.py:51-84 | Rotation never hides a record from reads: the same records are collected and the read succeeds iff it did before. |
| Store.ReadTableErrors | src/database.py:84 | A read fails exactly when some record lacks a timestamp (reported first), or there are several records and some timestamp is not a string. |
| Store.ReadTableSorted | src/database.py:84 | A successful read returns a permutation of the collected records, sorted by timestamp string. |
| Store.ReadTableOfBot | src/database.py:79-80 | With a bot name, every record read is an object of that bot. |
| Store.MalformedEndsFile | src/database.py:74-82 | A line that does not decode ends its file: earlier records are kept and later lines are not read. |
| Store.BlankSkipped | src/database.py:77 | Blank lines are skipped. |
| Store.BrokenFileStaysLocal | src/database.py:70-82 | A broken file hides only its own later lines; other files read as before. |
| Store.AsWrittenReadsOutOfOrder | src/database.py:84 | Records saved at 00:00:05 and one microsecond later are read back in reverse order. |
| Store.ReadsInSaveOrder | src/database.py:84 | With the fraction always written, records are read back in save order. |
| Store.ReadTable | src/database.py:67-84 | `read_table` over a listing of the directory. Its contract is given by `Store.ReadTableErrors`, `Store.ReadTableSorted`, `Store.ReadTableOfBot` and `Store.RotationKeepsReads`. |
| Config.MissingFields | src/config_validator.py:59-69 | The missing-fields stage reports exactly the absent fields not excused in test mode, in declaration order. |
| Config.TypeErrorFields | src/config_validator.py:71-80 | The type stage reports exactly the present fields of the wrong type, in declaration order. |
| Config.ValidateConfig | src/config_validator.py:50-57 | A configuration that passes is returned unchanged. |
| Config.StagesMeanRules | src/config_validator.py:59-116 | Each stage passes exactly when its rule holds: presence, types, ranges and positivity. |
| Config.ValidateConfigOk | src/config_validator.py:40-57 | The validator accepts exactly the configurations that meet every rule. |
| Config.FirstFailingStage | src/config_validator.py:50-54 | The stages run in order: each error kind is reported exactly when every earlier rule holds and its own fails. |
| Config.MissingErrorLists | src/config_validator.py:62-69 | The missing-fields error lists exactly the absent fields test mode does not excuse. |
| Config.TypeErrorLists | src/config_validator.py:74-80 | A type error lists exactly the present fields of the wrong type, and comes only when nothing is missing. |
| Config.RangeErrorNamesFirst | src/config_validator.py:87-98 | A range error names the first of down range, up range, step and ROI target whose rule fails. |
| Config.NotPositiveNamesFirst | src/config_validator.py:100-116 | A positivity error names the first listed field at or below 0, or `grid_max_open_orders` once all listed fields are positive. |
| Config.FloatGivenAsInt | src/config_validator.py:76 | A float field given as a JSON integer is a type error. |
| Config.BoolPassesIntCheck | src/config_validator.py:76 | `true` and `false` pass the `int` check; only `true` is a positive `grid_max_open_orders`. |
| Config.CredentialsOptionalInTest | src/config_validator.py:62-69 | In test mode dropping the credentials adds no missing field. |
| Config.CredentialsRequiredInLive | src/config_validator.py:62-69 | In live mode an absent credential is a missing-field error. |
| Sorting.SortSorted | src/database.py:84 | The model of `sorted` returns its input ordered by any total preorder key comparison. |
| Sorting.SortIdempotent | src/database.py:84 | Sorting a sorted result again changes nothing. |

## Left out

- Exchange and option I/O is not modelled: the Binance and Deribit HTTP clients, order submission, order books fetched over the network, `_get_current_bid_ask` (src/trader_bot.py:164-170), options PnL (src/trader_bot.py:443-472), and closing positions and shutdown (src/trader_bot.py:486-526). They are calls into services; the model takes their results as inputs.
- The bid/ask fallback at src/trader_bot.py:170 returns one float where the caller unpacks two; it is not modelled.
- The live branch of `_manage_grid_orders` passes a fourth argument to the three-parameter `get_orders_for_price_range` (src/trader_bot.py:202-204), so as written it raises before placing anything. `Bot.LivePlacement` models the placement decision the branch evidently intends, with the buy and sell candidates as inputs. The trade save at src/trader_bot.py:231 has the same extra-argument defect as the test-mode saves.
- `post_only`, `time_in_force` and the exchange response of a live `_place_order` (src/trader_bot.py:337-347) are not modelled.
- `start()` as written never reaches its trading loop: it calls `self.database.save_run_config` (src/trader_bot.py:73), which `SimulativeDatabase` (src/database.py:9-84) does not define. The `AttributeError` is raised after the funds check and outside the `try` around the loop, and the program's entry point logs it and exits. The trading-loop members (`Bot.LoopStepAsWritten`, `Bot.RunAsWritten`, `Bot.AsWrittenNeverFills`, `Bot.MonitorAsWritten`) therefore describe the loop once that call is repaired, and `start()` itself is not modelled.
- The run-configuration save, the unrealised spot PnL (src/trader_bot.py:390-397), boundary crossing, and the commented-out code of `calculate_spot_realized_pnl` are outside the core.
- Clocks: `time.time()` is the `clock` parameter of test placement, `datetime.utcnow()` readings are `SaveEnv` fields and the `now` of a loop `Reading`, and running days are an input.
- Bot.AsWrittenNeverFills: requires every loop reading to be no earlier than the start time, that is, a clock that does not go back past the start.
- The trading loop model covers the test-mode pass only; `_check_boundary_crossing` only logs, and the live pass is `Bot.LivePlacement`.
- Trades.AvgCostPnl: trade rows are typed, so the errors of a malformed row are not modelled: a missing `side` or `timestamp` key, a non-string side, or a `price`, `quantity` or `timestamp` of `None` (the schema default) that makes `float(...)` or the timestamp sort raise (src/trader_bot.py:409-417).
- Fifo.FifoPnl: the same malformed-row errors are not modelled for the FIFO calculator (src/helpers/calculators.py:18-26).
- Logging, `time.sleep` and threading are not modelled.
- Floating point rounding of Python floats is not modelled; all arithmetic is on exact reals.
- Grid.CalculateGridOrders: requires a positive price tick. A zero tick raises in `Decimal` division and a negative one never ends the loop; exchanges always report a positive tick.
- Store.ReadTable: treats several records whose timestamps are all numbers, or all mutually comparable lists, as incomparable, although Python would sort them. `save_to_db` always writes string timestamps.
- Key order of rewritten JSON objects, and the text of a JSON line, are not modelled; a line is modelled as what `json.loads` makes of it.
- Years below 1000 (`isoformat` pads them, `strftime` may not) are excluded by `Stamps.ValidDateTime`.
- NaN and infinities in configuration values are not modelled.
- Reading and decoding the configuration file (src/config_validator.py:41-48) is not modelled, and neither is a top level that is not an object. The model starts from the decoded object.
- Configuration keys other than the twenty the validator knows are not modelled, because no stage looks at them.
- `migrate_all_tables` (src/migrate_tables.py:35-37) is not modelled separately: it calls `migrate_table` once per schema table.
- `src/logger.py`, `src/ui_data_reader.py`, the Flask/Streamlit reporting and the options optimiser are not part of this model.

## Findings

| source | as written | input that shows it | evidently intended | confidence | as-written member | corrected member |
|---|---|---|---|---|---|---|
| src/trader_bot.py:326, src/trader_bot.py:259, src/trader_bot.py:278 | test orders take `int(time.time() * 1000)` as id, and a fill removes every open order with its id. The removal is reached only once the `save_run_config` call at src/trader_bot.py:73 (which raises before the loop starts), the trade save at :257 and :277 (third row) and the statistics save at :365 (fourth row) are all repaired: the statistics save keeps the loop from ever storing previous balances, and the trade save raises before the removal | a BUY at 105 and a SELL at 110 placed in one millisecond (id 7); BTC rises with bid 100, so with :73 and both saves repaired the BUY fills and the SELL is dropped too | remove only the orders that filled | not executed | Bot.FillStepAsWritten, Bot.AsWrittenDropsUnfilledOrder | Bot.FillStep, Bot.FillOnRise, Bot.AsWrittenAgreesOnDistinctIds |
| src/database.py:17, src/database.py:84 | record stamps are `isoformat() + "Z"`, which drops the fraction when the microsecond is 0 | records saved at 2024-01-01 00:00:05.000000 and 00:00:05.000001 read back in reverse order, because `"...05Z"` sorts after `"...05.000001Z"` | stamps that sort as the instants do, e.g. `isoformat(timespec="microseconds")` | not executed | Stamps.IsoStampAsWritten, Store.SaveToDb, Stamps.AsWrittenStampsMisorder, Store.AsWrittenReadsOutOfOrder | Stamps.IsoStamp, Stamps.IsoStampChronological, Store.ReadsInSaveOrder |
| src/trader_bot.py:257, src/trader_bot.py:277, src/database.py:16 | test fills are saved with `save_to_db(table, data, bot_name, bot_run)`, one argument more than `save_to_db` takes, so the first fill raises `TypeError` after its counter was incremented | masked as written: the loop is never reached, because :73 raises first, and even then it never stores previous balances (fourth row); once :73 and the statistics save are repaired, an open BUY above the bid and a rise in BTC make every loop count it again, it never leaves the open orders and no order is placed | save the fill, remove the order and go on to placement | not executed | Bot.ManageTestModeAsWritten, Bot.AsWrittenFillStalls, Bot.AsWrittenNeverFills | Bot.ManageTestMode, Bot.FillOnRise, Bot.AsWrittenAgreesWithoutFills |
| src/trader_bot.py:365-388, src/database.py:16 | `_check_pnl` saves its statistics with the same extra argument, raising before the ROI is compared with the target | once the `save_run_config` call at src/trader_bot.py:73 is repaired (as written `start()` raises there before the loop), a run whose daily ROI reaches the target keeps running | enter take-profit mode once the daily ROI meets the target | not executed | Bot.CheckPnlAsWritten, Bot.MonitorAsWritten, Bot.AsWrittenNeverTakesProfit | Bot.CheckPnl, Bot.CheckPnlSpec, Bot.MonitorStopsAtTarget |

=== FILE: book.dfy ===
/**
 * `DeribitIntegration.price_for_volume` (src/deribit_integration.py): the
 * average price of filling `volume` contracts against one side of an option
 * order book. The book is an input; fetching it over HTTP is not modelled.
 */
module Book {
  import opened Common

  datatype BookLevel = BookLevel(price: real, volume: real)

  datatype OrderBook = OrderBook(bids: seq<BookLevel>, asks: seq<BookLevel>)

  /** Where the walk over the levels stopped: the volume still wanted, the
      cost accumulated and how many levels it looked at. */
  datatype WalkState = WalkState(remaining: real, cost: real, used: nat)

  /** Selling walks the bids; any other side walks the asks. */
  function SideLevels(book: OrderBook, side: string): seq<BookLevel>
  {
    if side == "sell" then book.bids else book.asks
  }

  /** The `for price, available_volume in orders` loop: each level, while
      volume is still wanted, contributes the smaller of what is wanted and
      what it offers, at its price. */
  function Walk(levels: seq<BookLevel>, remaining: real, cost: real, used: nat): WalkState
    decreases |levels|
  {
    if |levels| == 0 || remaining <= 0.0 then WalkState(remaining, cost, used)
    else
      var take := MinReal(remaining, levels[0].volume);
      Walk(levels[1..], remaining - take, cost + Spend(take, levels[0].price), used + 1)
  }

  /** What taking `take` contracts at `price` costs. */
  function Spend(take: real, price: real): real
  {
    take * price
  }

  /** The walk started with the full volume and nothing spent. */
  function Fill(levels: seq<BookLevel>, volume: real): WalkState
  {
    Walk(levels, volume, 0.0, 0)
  }

  /** The execution price for `volume` on the given levels: 0 when the
      levels cannot fill it, otherwise the cost over the volume (0 for a
      non-positive volume). */
  function ExecutionPrice(levels: seq<BookLevel>, volume: real): real
  {
    var w := Fill(levels, volume);
    if w.remaining > 0.0 then 0.0
    else if volume > 0.0 then w.cost / volume
    else 0.0
  }

  /** `price_for_volume(instrument, volume, side)` on a given book. */
  function PriceForVolume(book: OrderBook, volume: real, side: string): real
  {
    ExecutionPrice(SideLevels(book, side), volume)
  }

  function VolumeOf(l: BookLevel): real
  {
    l.volume
  }

  predicate NonNegativeVolumes(levels: seq<BookLevel>)
  {
    forall i :: 0 <= i < |levels| ==> levels[i].volume >= 0.0
  }

  /** A sell is priced off the bids and any other side off the asks. */
  lemma PriceForVolumeSide(book: OrderBook, volume: real, side: string)
    ensures side == "sell" ==> PriceForVolume(book, volume, side) == ExecutionPrice(book.bids, volume)
    ensures side != "sell" ==> PriceForVolume(book, volume, side) == ExecutionPrice(book.asks, volume)
  {
  }

  /** Asking for no volume, or a negative one, prices at 0. */
  lemma NonPositiveVolume(levels: seq<BookLevel>, volume: real)
    requires volume <= 0.0
    ensures Fill(levels, volume).used == 0
    ensures ExecutionPrice(levels, volume) == 0.0
  {
  }

  /** With non-negative level volumes, the walk never overshoots: what is
      still wanted stays between zero and the request, and what was taken is
      at most what the levels looked at offered. */
  lemma {:induction false} WalkTaken(levels: seq<BookLevel>, remaining: real, cost: real, used: nat)
    requires NonNegativeVolumes(levels) && remaining >= 0.0
    ensures var w := Walk(levels, remaining, cost, used);
      && 0.0 <= w.remaining <= remaining
      && used <= w.used <= used + |levels|
      && remaining - w.remaining <= SumBy(levels[..w.used - used], VolumeOf)
      && (w.remaining > 0.0 ==> w.used == used + |levels|)
  {
    if |levels| > 0 && remaining > 0.0 {
      var take := MinReal(remaining, levels[0].volume);
      WalkTaken(levels[1..], remaining - take, cost + Spend(take, levels[0].price), used + 1);
      var w := Walk(levels, remaining, cost, used);
      var n := w.used - used;
      assert levels[..n][1..] == levels[1..][..n - 1];
    }
  }

  /** When the offered volume falls short of the request, the price is 0. */
  lemma InsufficientLiquidity(levels: seq<BookLevel>, volume: real)
    requires NonNegativeVolumes(levels)
    requires SumBy(levels, VolumeOf) < volume
    ensures ExecutionPrice(levels, volume) == 0.0
  {
    SumByNonNegative(levels, VolumeOf);
    WalkTaken(levels, volume, 0.0, 0);
    var w := Fill(levels, volume);
    if w.remaining <= 0.0 {
      assert w.used == |levels| || w.used < |levels|;
      PrefixSumAtMost(levels, w.used);
    }
  }

  /** A prefix of non-negative volumes offers no more than all of them. */
  lemma PrefixSumAtMost(levels: seq<BookLevel>, n: nat)
    requires NonNegativeVolumes(levels) && n <= |levels|
    ensures SumBy(levels[..n], VolumeOf) <= SumBy(levels, VolumeOf)
  {
    assert levels == levels[..n] + levels[n..];
    SumByAppend(levels[..n], levels[n..], VolumeOf);
    SumByNonNegative(levels[n..], VolumeOf);
  }

  /** The cost added by the walk lies between the volume taken valued at the
      lowest and at the highest price of the first `m` levels, when the walk
      looks at no more than those. */
  lemma {:induction false} WalkCostBounds(levels: seq<BookLevel>, remaining: real, cost: real,
                                         used: nat, m: nat, lo: real, hi: real)
    requires NonNegativeVolumes(levels) && remaining >= 0.0
    requires Walk(levels, remaining, cost, used).used <= used + m
    requires forall i :: 0 <= i < m && i < |levels| ==> lo <= levels[i].price <= hi
    ensures var w := Walk(levels, remaining, cost, used);
      CostWithin(lo, hi, remaining - w.remaining, w.cost - cost)
  {
    if |levels| > 0 && remaining > 0.0 {
      var take := MinReal(remaining, levels[0].volume);
      var r2 := remaining - take;
      var c2 := cost + Spend(take, levels[0].price);
      WalkStep(levels, remaining, cost, used, take, r2, c2);
      WalkTaken(levels[1..], r2, c2, used + 1);
      assert lo <= levels[0].price <= hi;
      WalkCostBounds(levels[1..], r2, c2, used + 1, m - 1, lo, hi);
      ScaledBetween(take, levels[0].price, lo, hi);
      var w := Walk(levels, remaining, cost, used);
      CombineBounds(lo, hi, take, r2 - w.remaining, Spend(take, levels[0].price), w.cost - c2);
    }
  }

  /** `spent` for `taken` contracts is between their value at `lo` and at `hi`. */
  predicate CostWithin(lo: real, hi: real, taken: real, spent: real)
  {
    lo * taken <= spent <= hi * taken
  }

  lemma CombineBounds(lo: real, hi: real, x: real, y: real, a: real, b: real)
    requires CostWithin(lo, hi, x, a) && CostWithin(lo, hi, y, b)
    ensures CostWithin(lo, hi, x + y, a + b)
  {
  }

  /** One step of the walk, with its new state named. */
  lemma WalkStep(levels: seq<BookLevel>, remaining: real, cost: real, used: nat,
                 take: real, r2: real, c2: real)
    requires |levels| > 0 && remaining > 0.0
    requires take == MinReal(remaining, levels[0].volume)
    requires r2 == remaining - take && c2 == cost + Spend(take, levels[0].price)
    ensures Walk(levels, remaining, cost, used) == Walk(levels[1..], r2, c2, used + 1)
  {
  }

  lemma ScaledBetween(x: real, p: real, lo: real, hi: real)
    requires x >= 0.0 && lo <= p <= hi
    ensures CostWithin(lo, hi, x, Spend(x, p))
  {
  }

  /** A filled request is priced at the volume-weighted average of the
      levels it consumed, so between their lowest and highest price. */
  lemma VwapWithinConsumed(levels: seq<BookLevel>, volume: real, lo: real, hi: real)
    requires NonNegativeVolumes(levels) && volume > 0.0
    requires Fill(levels, volume).remaining <= 0.0
    requires forall i :: 0 <= i < Fill(levels, volume).used && i < |levels| ==> lo <= levels[i].price <= hi
    ensures lo <= ExecutionPrice(levels, volume) <= hi
  {
    WalkTaken(levels, volume, 0.0, 0);
    WalkCostBounds(levels, volume, 0.0, 0, Fill(levels, volume).used, lo, hi);
    var w := Fill(levels, volume);
    assert w.remaining == 0.0;
    QuotientBetween(w.cost, volume, lo, hi);
  }

  lemma QuotientBetween(c: real, v: real, lo: real, hi: real)
    requires v > 0.0 && lo * v <= c <= hi * v
    ensures lo <= c / v <= hi
  {
  }

  /** When the best level alone covers the request, the price is that level's. */
  lemma FirstLevelCovers(levels: seq<BookLevel>, volume: real)
    requires |levels| > 0 && 0.0 < volume <= levels[0].volume
    ensures ExecutionPrice(levels, volume) == levels[0].price
  {
    assert MinReal(volume, levels[0].volume) == volume;
    WalkStep(levels, volume, 0.0, 0, volume, 0.0, Spend(volume, levels[0].price));
  }
}

=== FILE: bot.dfy ===
/**
 * The decision rules of `TraderBot` (src/trader_bot.py), as pure functions
 * of the ladder, the open orders, the balances and the best bid and ask:
 * the funds check, the simulated balances of test mode, the test-mode fill
 * inference and order placement, the live-mode placement decision and the
 * daily-ROI take-profit trigger. The bot's open orders, trade counters and
 * last trade form the state record `BotState`.
 */
module Bot {
  import opened Common
  import opened Sorting
  import opened Grid

  /** An account balance dictionary, asset to amount. */
  type Balances = map<string, real>

  /** `balances.get(asset, 0)`. */
  function Get(b: Balances, asset: string): real
  {
    if asset in b then b[asset] else 0.0
  }

  // ---------------------------------------------------------------------------
  // Funds check
  // ---------------------------------------------------------------------------

  /** `_verify_sufficient_funds`: test mode always passes; live mode needs
      at least the ladder's base and quote funds, a missing asset counting
      as zero. */
  function VerifyFunds(testMode: bool, balances: Balances, baseNeeded: real, quoteNeeded: real): (ok: bool)
    ensures testMode ==> ok
    ensures !testMode ==> (ok <==> Get(balances, "BTC") >= baseNeeded && Get(balances, "FDUSD") >= quoteNeeded)
  {
    if testMode then true
    else !(Get(balances, "BTC") < baseNeeded || Get(balances, "FDUSD") < quoteNeeded)
  }

  /** With the needed funds taken as the column maxima, the live check
      passes exactly when the account covers the balances of every level. */
  lemma FundsCoverEveryLevel(balances: Balances, ladder: Ladder)
    requires |ladder.levels| > 0
    requires ladder.baseNeeded == MaxOf(BaseColumn(ladder.levels))
    requires ladder.quoteNeeded == MaxOf(QuoteColumn(ladder.levels))
    ensures var levels := ladder.levels;
      VerifyFunds(false, balances, ladder.baseNeeded, ladder.quoteNeeded) <==>
        && (forall i :: 0 <= i < |levels| ==> Get(balances, "BTC") >= levels[i].baseBalance)
        && (forall i :: 0 <= i < |levels| ==> Get(balances, "FDUSD") >= levels[i].quoteBalance)
  {
    var levels := ladder.levels;
    var bc, qc := BaseColumn(levels), QuoteColumn(levels);
    assert forall i :: 0 <= i < |levels| ==> bc[i] == levels[i].baseBalance && qc[i] == levels[i].quoteBalance;
    var ib :| 0 <= ib < |bc| && bc[ib] == ladder.baseNeeded;
    var iq :| 0 <= iq < |qc| && qc[iq] == ladder.quoteNeeded;
  }

  /** For the ladder `calculate_grid_orders` builds, the funds check passes
      exactly when the account can fund every level of the grid. */
  lemma LadderFundable(cfg: GridConfig, t: real, st: real, balances: Balances)
    requires t > 0.0 && st > 0.0 && cfg.orderSizeQuote >= 0.0
    requires MinTicks(cfg, t) > 0 && |GridWalk(cfg, t)| > 0
    ensures 0 !in GridWalk(cfg, t)
    ensures var ladder := LadderOf(GridWalk(cfg, t), t, cfg.orderSizeQuote, st);
      var levels := ladder.levels;
      VerifyFunds(false, balances, ladder.baseNeeded, ladder.quoteNeeded) <==>
        && (forall i :: 0 <= i < |levels| ==> Get(balances, "BTC") >= levels[i].baseBalance)
        && (forall i :: 0 <= i < |levels| ==> Get(balances, "FDUSD") >= levels[i].quoteBalance)
  {
    LadderFunds(cfg, t, st);
    FundsCoverEveryLevel(balances, LadderOf(GridWalk(cfg, t), t, cfg.orderSizeQuote, st));
  }

  /** A live account without the asset cannot fund a ladder that needs it. */
  lemma MissingAssetFails(balances: Balances, baseNeeded: real, quoteNeeded: real)
    requires ("BTC" !in balances && baseNeeded > 0.0) || ("FDUSD" !in balances && quoteNeeded > 0.0)
    ensures !VerifyFunds(false, balances, baseNeeded, quoteNeeded)
  {
  }

  // ---------------------------------------------------------------------------
  // Simulated balances
  // ---------------------------------------------------------------------------

  function AtOrBelow(price: real): Level -> bool
  {
    (l: Level) => l.price <= price
  }

  /** The expected base and quote balances before clamping: everything in
      base below the ladder, everything in quote above it, and otherwise the
      balance columns of the last level priced at or below `price`. */
  function ExpectedBalances(levels: seq<Level>, baseNeeded: real, quoteNeeded: real, price: real): (real, real)
  {
    if |levels| > 0 && price < MinOf(PriceColumn(levels)) then (baseNeeded, 0.0)
    else if |levels| > 0 && price > MaxOf(PriceColumn(levels)) then (0.0, quoteNeeded)
    else LastColumns(levels, price)
  }

  /** The balance columns of the last level priced at or below `price`. */
  function LastColumns(levels: seq<Level>, price: real): (real, real)
  {
    var at := Filter(levels, AtOrBelow(price));
    if |at| == 0 then (0.0, 0.0) else (at[|at| - 1].baseBalance, at[|at| - 1].quoteBalance)
  }

  /** `_calculate_simulated_balances`: both assets, never negative. */
  function SimulatedBalances(levels: seq<Level>, baseNeeded: real, quoteNeeded: real, price: real): (b: Balances)
    ensures b.Keys == {"BTC", "FDUSD"}
    ensures b["BTC"] >= 0.0 && b["FDUSD"] >= 0.0
  {
    var e := ExpectedBalances(levels, baseNeeded, quoteNeeded, price);
    map["BTC" := MaxReal(0.0, e.0), "FDUSD" := MaxReal(0.0, e.1)]
  }

  /** Below every level the bot holds the whole base and no quote. */
  lemma SimulatedBelowLadder(levels: seq<Level>, baseNeeded: real, quoteNeeded: real, price: real)
    requires |levels| > 0
    requires forall i :: 0 <= i < |levels| ==> price < levels[i].price
    ensures SimulatedBalances(levels, baseNeeded, quoteNeeded, price)
         == map["BTC" := MaxReal(0.0, baseNeeded), "FDUSD" := 0.0]
  {
    var m := MinOf(PriceColumn(levels));
    var i :| 0 <= i < |levels| && PriceColumn(levels)[i] == m;
    assert price < levels[i].price;
  }

  /** Above every level the bot holds no base and the whole quote. */
  lemma SimulatedAboveLadder(levels: seq<Level>, baseNeeded: real, quoteNeeded: real, price: real)
    requires |levels| > 0
    requires forall i :: 0 <= i < |levels| ==> price > levels[i].price
    ensures SimulatedBalances(levels, baseNeeded, quoteNeeded, price)
         == map["BTC" := 0.0, "FDUSD" := MaxReal(0.0, quoteNeeded)]
  {
    var m := MaxOf(PriceColumn(levels));
    var i :| 0 <= i < |levels| && PriceColumn(levels)[i] == m;
    assert price > levels[i].price;
    assert PriceColumn(levels)[0] == levels[0].price;
  }

  /** Within the ladder the bot holds the balances of level `j`, the last
      level priced at or below `price`. */
  lemma SimulatedAtLevel(levels: seq<Level>, baseNeeded: real, quoteNeeded: real, price: real, j: int)
    requires 0 <= j < |levels| && levels[j].price <= price
    requires forall k :: j < k < |levels| ==> levels[k].price > price
    requires exists k :: 0 <= k < |levels| && levels[k].price >= price
    ensures SimulatedBalances(levels, baseNeeded, quoteNeeded, price)
         == map["BTC" := MaxReal(0.0, levels[j].baseBalance), "FDUSD" := MaxReal(0.0, levels[j].quoteBalance)]
  {
    ExpectedAtLevel(levels, baseNeeded, quoteNeeded, price, j);
  }

  /** The expected balances there are the columns of level `j`. */
  lemma ExpectedAtLevel(levels: seq<Level>, baseNeeded: real, quoteNeeded: real, price: real, j: int)
    requires 0 <= j < |levels| && levels[j].price <= price
    requires forall k :: j < k < |levels| ==> levels[k].price > price
    requires exists k :: 0 <= k < |levels| && levels[k].price >= price
    ensures ExpectedBalances(levels, baseNeeded, quoteNeeded, price) == (levels[j].baseBalance, levels[j].quoteBalance)
  {
    InsideLadder(levels, baseNeeded, quoteNeeded, price, j);
    LastColumnsAt(levels, price, j);
  }

  /** Between the lowest and highest level the expected balances are the
      columns of the last level at or below `price`. */
  lemma InsideLadder(levels: seq<Level>, baseNeeded: real, quoteNeeded: real, price: real, j: int)
    requires 0 <= j < |levels| && levels[j].price <= price
    requires exists k :: 0 <= k < |levels| && levels[k].price >= price
    ensures ExpectedBalances(levels, baseNeeded, quoteNeeded, price) == LastColumns(levels, price)
  {
    var k :| 0 <= k < |levels| && levels[k].price >= price;
    var prices := PriceColumn(levels);
    assert prices[j] == levels[j].price;
    assert prices[k] == levels[k].price;
    assert !(price < MinOf(prices)) && !(price > MaxOf(prices));
  }

  /** The last level at or below `price` is level `j` when every later
      level is above it. */
  lemma LastColumnsAt(levels: seq<Level>, price: real, j: int)
    requires 0 <= j < |levels| && levels[j].price <= price
    requires forall k :: j < k < |levels| ==> levels[k].price > price
    ensures LastColumns(levels, price) == (levels[j].baseBalance, levels[j].quoteBalance)
  {
    FilterLastAt(levels, AtOrBelow(price), j);
  }

  /** The base column of a ladder falls as the price rises, and the funds
      needed cover it. */
  predicate BaseFalling(levels: seq<Level>, baseNeeded: real)
  {
    && (forall i, j :: 0 <= i < j < |levels| ==> levels[j].baseBalance <= levels[i].baseBalance)
    && (forall i :: 0 <= i < |levels| ==> levels[i].baseBalance <= baseNeeded)
  }

  /** On such a ladder the simulated base balance never rises with the price. */
  lemma SimulatedBtcNonIncreasing(levels: seq<Level>, baseNeeded: real, quoteNeeded: real, p1: real, p2: real)
    requires BaseFalling(levels, baseNeeded) && p1 <= p2
    ensures SimulatedBalances(levels, baseNeeded, quoteNeeded, p2)["BTC"]
         <= SimulatedBalances(levels, baseNeeded, quoteNeeded, p1)["BTC"]
  {
    if |levels| > 0 {
      var lo := MinOf(PriceColumn(levels));
      var hi := MaxOf(PriceColumn(levels));
      if p1 < lo {
        BtcFromBelowLadder(levels, baseNeeded, quoteNeeded, p1, p2);
      } else if p2 <= hi {
        BtcInsideLadder(levels, baseNeeded, quoteNeeded, p1, p2);
      } else {
        assert ExpectedBalances(levels, baseNeeded, quoteNeeded, p2).0 == 0.0;
      }
    }
  }

  /** From below the ladder the bot holds the most base it ever holds. */
  lemma BtcFromBelowLadder(levels: seq<Level>, baseNeeded: real, quoteNeeded: real, p1: real, p2: real)
    requires BaseFalling(levels, baseNeeded) && |levels| > 0 && p1 < MinOf(PriceColumn(levels))
    ensures SimulatedBalances(levels, baseNeeded, quoteNeeded, p2)["BTC"]
         <= SimulatedBalances(levels, baseNeeded, quoteNeeded, p1)["BTC"]
  {
    assert ExpectedBalances(levels, baseNeeded, quoteNeeded, p1) == (baseNeeded, 0.0);
    ExpectedBaseBound(levels, baseNeeded, quoteNeeded, p2);
  }

  /** Within the ladder the base balance follows the falling base column. */
  lemma BtcInsideLadder(levels: seq<Level>, baseNeeded: real, quoteNeeded: real, p1: real, p2: real)
    requires BaseFalling(levels, baseNeeded) && p1 <= p2 && |levels| > 0
    requires MinOf(PriceColumn(levels)) <= p1 && p2 <= MaxOf(PriceColumn(levels))
    ensures SimulatedBalances(levels, baseNeeded, quoteNeeded, p2)["BTC"]
         <= SimulatedBalances(levels, baseNeeded, quoteNeeded, p1)["BTC"]
  {
    var prices := PriceColumn(levels);
    var i :| 0 <= i < |levels| && prices[i] == MinOf(prices);
    var k :| 0 <= k < |levels| && prices[k] == MaxOf(prices);
    assert levels[i].price <= p1 && levels[k].price >= p2;
    InsideLadder(levels, baseNeeded, quoteNeeded, p1, i);
    InsideLadder(levels, baseNeeded, quoteNeeded, p2, i);
    LastAtOrBelowFalls(levels, baseNeeded, p1, p2, i);
    BtcFollowsExpected(levels, baseNeeded, quoteNeeded, p1, p2);
  }

  /** The simulated base balance is the clamped expected one, so it keeps
      the order of the expected ones. */
  lemma BtcFollowsExpected(levels: seq<Level>, baseNeeded: real, quoteNeeded: real, p1: real, p2: real)
    requires ExpectedBalances(levels, baseNeeded, quoteNeeded, p2).0 <= ExpectedBalances(levels, baseNeeded, quoteNeeded, p1).0
    ensures SimulatedBalances(levels, baseNeeded, quoteNeeded, p2)["BTC"]
         <= SimulatedBalances(levels, baseNeeded, quoteNeeded, p1)["BTC"]
  {
    var e1 := ExpectedBalances(levels, baseNeeded, quoteNeeded, p1);
    var e2 := ExpectedBalances(levels, baseNeeded, quoteNeeded, p2);
    assert SimulatedBalances(levels, baseNeeded, quoteNeeded, p1)["BTC"] == MaxReal(0.0, e1.0);
    assert SimulatedBalances(levels, baseNeeded, quoteNeeded, p2)["BTC"] == MaxReal(0.0, e2.0);
  }

  /** The last level at or below a higher price holds no more base than the
      last level at or below a lower one. */
  lemma LastAtOrBelowFalls(levels: seq<Level>, baseNeeded: real, p1: real, p2: real, i: int)
    requires BaseFalling(levels, baseNeeded) && p1 <= p2
    requires 0 <= i < |levels| && levels[i].price <= p1
    ensures LastColumns(levels, p2).0 <= LastColumns(levels, p1).0
  {
    var j1 := LastAtOrBelowAt(levels, p1, i);
    var j2 := LastAtOrBelowAt(levels, p2, i);
    LastColumnsAt(levels, p1, j1);
    LastColumnsAt(levels, p2, j2);
    assert levels[j1].price <= p2;
    assert j1 <= j2;
  }

  /** The position of the last level at or below `price`, given one level
      that is. */
  lemma LastAtOrBelowAt(levels: seq<Level>, price: real, i: int) returns (j: int)
    requires 0 <= i < |levels| && levels[i].price <= price
    ensures var at := Filter(levels, AtOrBelow(price));
      && |at| > 0 && 0 <= j < |levels| && levels[j] == at[|at| - 1] && levels[j].price <= price
      && forall k :: j < k < |levels| ==> levels[k].price > price
  {
    FilterMembers(levels, AtOrBelow(price));
    assert levels[i] in Filter(levels, AtOrBelow(price));
    FilterLastIndex(levels, AtOrBelow(price));
    var at := Filter(levels, AtOrBelow(price));
    j :| 0 <= j < |levels| && levels[j] == at[|at| - 1] && AtOrBelow(price)(levels[j])
         && forall k :: j < k < |levels| ==> !AtOrBelow(price)(levels[k]);
  }

  /** The expected base balance is at most the base funds when the ladder's
      column is. */
  lemma ExpectedBaseBound(levels: seq<Level>, baseNeeded: real, quoteNeeded: real, price: real)
    requires BaseFalling(levels, baseNeeded)
    ensures ExpectedBalances(levels, baseNeeded, quoteNeeded, price).0 <= MaxReal(0.0, baseNeeded)
  {
    var at := Filter(levels, AtOrBelow(price));
    FilterMembers(levels, AtOrBelow(price));
    if |at| > 0 {
      assert at[|at| - 1] in levels;
    }
  }

  // ---------------------------------------------------------------------------
  // Orders and the bot's state
  // ---------------------------------------------------------------------------

  datatype Side = Buy | Sell

  /** `f"{bot_name}_{grid_price}"`, kept as the pair it is composed from. */
  datatype ClientId = ClientId(botName: string, price: real)

  /** An open order as the bot keeps it. */
  datatype Order = Order(orderId: int, side: Side, quantity: real, price: real, clientOrderId: Option<ClientId>)

  /** The `trade_data` written for a fill or a live placement. */
  datatype TradeRecord = TradeRecord(side: Side, price: real, quantity: real)

  /** `self.open_orders`, `self.buy_trades`, `self.sell_trades` and
      `self.last_trade`. */
  datatype BotState = BotState(openOrders: seq<Order>, buyTrades: nat, sellTrades: nat, lastTrade: Option<TradeRecord>)

  /** The state after the fill step and the orders it filled, in the order
      they were processed (one trade record each). */
  datatype FillResult = FillResult(state: BotState, filled: seq<Order>)

  function TradeOf(o: Order): TradeRecord
  {
    TradeRecord(o.side, o.price, o.quantity)
  }

  // ---------------------------------------------------------------------------
  // Test mode: fills inferred from the base balance
  // ---------------------------------------------------------------------------

  /** An open BUY priced above the bid has been filled. */
  function FillsBuy(bid: real): Order -> bool
  {
    (o: Order) => o.side == Buy && o.price > bid
  }

  /** An open SELL priced below the ask has been filled. */
  function FillsSell(ask: real): Order -> bool
  {
    (o: Order) => o.side == Sell && o.price < ask
  }

  function Unfilled(fills: Order -> bool): Order -> bool
  {
    (o: Order) => !fills(o)
  }

  /** `sort(key=price, reverse=True)`. */
  function PriceGe(a: Order, b: Order): bool
  {
    a.price >= b.price
  }

  /** `sort(key=price)`. */
  function OrderPriceLe(a: Order, b: Order): bool
  {
    a.price <= b.price
  }

  /** The change in the BTC balance since the previous loop; none without
      previous balances. */
  function BtcDelta(balances: Balances, last: Option<Balances>): real
  {
    if last.None? then 0.0 else Get(balances, "BTC") - Get(last.value, "BTC")
  }

  /** The orders a change of `diff` fills, in the order they are processed. */
  function FilledOrders(open: seq<Order>, diff: real, bid: real, ask: real): seq<Order>
  {
    if diff > 0.0 then Sort(Filter(open, FillsBuy(bid)), PriceGe)
    else if diff < 0.0 then Sort(Filter(open, FillsSell(ask)), OrderPriceLe)
    else []
  }

  /** Counting the fills on `side`, and remembering the last as the last trade. */
  function Record(state: BotState, side: Side, filled: seq<Order>, remaining: seq<Order>): BotState
  {
    var n := |filled|;
    BotState(remaining,
             if side == Buy then state.buyTrades + n else state.buyTrades,
             if side == Sell then state.sellTrades + n else state.sellTrades,
             if n == 0 then state.lastTrade else Some(TradeOf(filled[n - 1])))
  }

  /** The fill step of the test-mode branch of `_manage_grid_orders`, with
      its trade save repaired and the filled orders removed from the open
      orders. The loop reaches it with previous balances only once the
      `save_run_config` call of `start()` and the statistics save of
      `_check_pnl` are repaired too (see `AsWrittenNeverFills`). */
  function FillStep(state: BotState, balances: Balances, last: Option<Balances>, bid: real, ask: real): FillResult
  {
    var diff := BtcDelta(balances, last);
    if diff == 0.0 then FillResult(state, [])
    else
      var fills := if diff > 0.0 then FillsBuy(bid) else FillsSell(ask);
      var filled := FilledOrders(state.openOrders, diff, bid, ask);
      FillResult(Record(state, if diff > 0.0 then Buy else Sell, filled, Filter(state.openOrders, Unfilled(fills))), filled)
  }

  lemma PriceOrdersTotal()
    ensures Total(PriceGe) && Transitive(PriceGe)
    ensures Total(OrderPriceLe) && Transitive(OrderPriceLe)
  {
  }

  /** Without previous balances, or with the BTC balance unchanged, nothing
      fills and the state stays as it was. */
  lemma FillWithoutChange(state: BotState, balances: Balances, last: Option<Balances>, bid: real, ask: real)
    requires last.None? || Get(balances, "BTC") == Get(last.value, "BTC")
    ensures FillStep(state, balances, last, bid, ask) == FillResult(state, [])
  {
  }

  /** A rise in BTC fills every open BUY priced above the bid and nothing
      else, highest price first; the buy counter grows by their number, the
      other orders stay open in their order, and the last trade is the
      cheapest fill. */
  lemma FillOnRise(state: BotState, balances: Balances, last: Option<Balances>, bid: real, ask: real)
    requires BtcDelta(balances, last) > 0.0
    ensures var r := FillStep(state, balances, last, bid, ask);
      var open := state.openOrders;
      && (forall o :: o in r.filled <==> o in open && o.side == Buy && o.price > bid)
      && multiset(r.filled) + multiset(r.state.openOrders) == multiset(open)
      && Sorted(r.filled, PriceGe)
      && (forall o :: o in r.state.openOrders <==> o in open && !(o.side == Buy && o.price > bid))
      && r.state.buyTrades == state.buyTrades + |r.filled| && r.state.sellTrades == state.sellTrades
      && (|r.filled| == 0 ==> r.state.lastTrade == state.lastTrade)
      && (|r.filled| > 0 ==>
            (r.state.lastTrade.Some? && r.state.lastTrade.value.side == Buy
             && forall o :: o in r.filled ==> r.state.lastTrade.value.price <= o.price))
      && (|r.filled| > 0 ==> r.state.lastTrade == Some(TradeOf(r.filled[|r.filled| - 1])))
  {
    var open := state.openOrders;
    var filled, rest := Sort(Filter(open, FillsBuy(bid)), PriceGe), Filter(open, Unfilled(FillsBuy(bid)));
    assert FillStep(state, balances, last, bid, ask) == FillResult(Record(state, Buy, filled, rest), filled);
    PriceOrdersTotal();
    FillSide(open, FillsBuy(bid), PriceGe);
  }

  /** A fall in BTC fills every open SELL priced below the ask and nothing
      else, lowest price first, symmetrically. */
  lemma FillOnFall(state: BotState, balances: Balances, last: Option<Balances>, bid: real, ask: real)
    requires BtcDelta(balances, last) < 0.0
    ensures var r := FillStep(state, balances, last, bid, ask);
      var open := state.openOrders;
      && (forall o :: o in r.filled <==> o in open && o.side == Sell && o.price < ask)
      && multiset(r.filled) + multiset(r.state.openOrders) == multiset(open)
      && Sorted(r.filled, OrderPriceLe)
      && (forall o :: o in r.state.openOrders <==> o in open && !(o.side == Sell && o.price < ask))
      && r.state.sellTrades == state.sellTrades + |r.filled| && r.state.buyTrades == state.buyTrades
      && (|r.filled| == 0 ==> r.state.lastTrade == state.lastTrade)
      && (|r.filled| > 0 ==>
            (r.state.lastTrade.Some? && r.state.lastTrade.value.side == Sell
             && forall o :: o in r.filled ==> r.state.lastTrade.value.price >= o.price))
      && (|r.filled| > 0 ==> r.state.lastTrade == Some(TradeOf(r.filled[|r.filled| - 1])))
  {
    var open := state.openOrders;
    var filled, rest := Sort(Filter(open, FillsSell(ask)), OrderPriceLe), Filter(open, Unfilled(FillsSell(ask)));
    assert FillStep(state, balances, last, bid, ask) == FillResult(Record(state, Sell, filled, rest), filled);
    PriceOrdersTotal();
    FillSide(open, FillsSell(ask), OrderPriceLe);
  }

  /** What sorting the filled orders of one side and filtering out the rest
      give: a split of the open orders, the filled part sorted. */
  lemma FillSide(open: seq<Order>, fills: Order -> bool, le: (Order, Order) -> bool)
    requires Total(le) && Transitive(le)
    ensures var filled := Sort(Filter(open, fills), le);
      var rest := Filter(open, Unfilled(fills));
      && (forall o :: o in filled <==> o in open && fills(o))
      && multiset(filled) + multiset(rest) == multiset(open)
      && Sorted(filled, le)
      && (forall o :: o in rest <==> o in open && !fills(o))
      && (|filled| > 0 ==> forall o :: o in filled ==> le(o, filled[|filled| - 1]))
  {
    FillPartition(open, fills, le);
    SortSorted(Filter(open, fills), le);
    SortedLast(Sort(Filter(open, fills), le), le);
  }

  lemma FillPartition(open: seq<Order>, fills: Order -> bool, le: (Order, Order) -> bool)
    ensures var filled := Sort(Filter(open, fills), le);
      var rest := Filter(open, Unfilled(fills));
      && (forall o :: o in filled <==> o in open && fills(o))
      && multiset(filled) + multiset(rest) == multiset(open)
      && (forall o :: o in rest <==> o in open && !fills(o))
  {
    var f := Filter(open, fills);
    var filled := Sort(f, le);
    var rest := Filter(open, Unfilled(fills));
    FilterMembers(open, fills);
    FilterMembers(open, Unfilled(fills));
    FilterMultiset(open, fills);
    FilterMultiset(open, Unfilled(fills));
    assert multiset(filled) == multiset(f);
    forall o
      ensures o in filled <==> o in f
    {
      assert o in filled <==> o in multiset(filled);
      assert o in f <==> o in multiset(f);
    }
    forall o
      ensures (multiset(f) + multiset(rest))[o] == multiset(open)[o]
    {
    }
    assert multiset(f) + multiset(rest) == multiset(open);
  }

  /** Under a total relation the last element of a sorted sequence follows
      every element. */
  lemma SortedLast<T(!new)>(s: seq<T>, le: (T, T) -> bool)
    requires Total(le) && Sorted(s, le)
    ensures |s| > 0 ==> forall x :: x in s ==> le(x, s[|s| - 1])
  {
    if |s| > 0 {
      forall x | x in s
        ensures le(x, s[|s| - 1])
      {
        var i :| 0 <= i < |s| && s[i] == x;
        assert i < |s| - 1 || le(x, x);
      }
    }
  }

  /** Only the sign of the BTC change matters, not its size. */
  lemma FillIgnoresDeltaSize(state: BotState, b1: Balances, l1: Option<Balances>,
                             b2: Balances, l2: Option<Balances>, bid: real, ask: real)
    requires (BtcDelta(b1, l1) > 0.0 && BtcDelta(b2, l2) > 0.0)
          || (BtcDelta(b1, l1) < 0.0 && BtcDelta(b2, l2) < 0.0)
    ensures FillStep(state, b1, l1, bid, ask) == FillStep(state, b2, l2, bid, ask)
  {
  }

  // ---------------------------------------------------------------------------
  // The order-id removal, with the trade and statistics saves repaired
  // ---------------------------------------------------------------------------

  function IdIsNot(id: int): Order -> bool
  {
    (o: Order) => o.orderId != id
  }

  /** `self.open_orders = [o for o in self.open_orders if o['orderId'] !=
      order['orderId']]`, once per filled order. */
  function RemoveById(open: seq<Order>, filled: seq<Order>): seq<Order>
    decreases |filled|
  {
    if |filled| == 0 then open else RemoveById(Filter(open, IdIsNot(filled[0].orderId)), filled[1..])
  }

  /** The fill step with the trade save repaired and the removal as
      written: the same fills, but removal by order id. As written this
      removal is never reached: `start()` raises in `save_run_config`
      before the loop begins, the loop never stores previous balances,
      because `_check_pnl` raises first (see `AsWrittenNeverFills`), and a
      fill would raise in the trade save before the removal (see
      `ManageTestModeAsWritten`). It matters once that call and both saves are fixed. */
  function FillStepAsWritten(state: BotState, balances: Balances, last: Option<Balances>, bid: real, ask: real): FillResult
  {
    var diff := BtcDelta(balances, last);
    if diff == 0.0 then FillResult(state, [])
    else
      var filled := FilledOrders(state.openOrders, diff, bid, ask);
      FillResult(Record(state, if diff > 0.0 then Buy else Sell, filled, RemoveById(state.openOrders, filled)), filled)
  }

  function IdsOf(orders: seq<Order>): set<int>
  {
    set o | o in orders :: o.orderId
  }

  function IdNotIn(ids: set<int>): Order -> bool
  {
    (o: Order) => o.orderId !in ids
  }

  /** Removing by id drops every open order sharing an id with a fill. */
  lemma {:induction false} RemoveByIdDropsIds(open: seq<Order>, filled: seq<Order>)
    ensures RemoveById(open, filled) == Filter(open, IdNotIn(IdsOf(filled)))
    decreases |filled|
  {
    if |filled| == 0 {
      FilterAll(open, IdNotIn(IdsOf(filled)));
    } else {
      var f := filled[0];
      var rest := filled[1..];
      RemoveByIdDropsIds(Filter(open, IdIsNot(f.orderId)), rest);
      assert IdsOf(filled) == {f.orderId} + IdsOf(rest) by {
        assert filled == [f] + rest;
      }
      FilterTwice(open, IdIsNot(f.orderId), IdNotIn(IdsOf(rest)), IdNotIn(IdsOf(filled)));
    }
  }

  predicate DistinctIds(orders: seq<Order>)
  {
    forall i, j :: 0 <= i < j < |orders| ==> orders[i].orderId != orders[j].orderId
  }

  /** With distinct order ids, dropping the ids of the filled orders is
      dropping the filled orders. */
  lemma IdRemovalIsFilter(open: seq<Order>, fills: Order -> bool, filled: seq<Order>)
    requires DistinctIds(open)
    requires forall o :: o in filled <==> o in open && fills(o)
    ensures Filter(open, IdNotIn(IdsOf(filled))) == Filter(open, Unfilled(fills))
  {
    forall i | 0 <= i < |open|
      ensures IdNotIn(IdsOf(filled))(open[i]) == Unfilled(fills)(open[i])
    {
      assert fills(open[i]) ==> open[i] in filled;
      if open[i].orderId in IdsOf(filled) {
        var o :| o in filled && o.orderId == open[i].orderId;
        var j :| 0 <= j < |open| && open[j] == o;
        assert i == j;
      }
    }
    FilterCongruent(open, IdNotIn(IdsOf(filled)), Unfilled(fills));
  }

  /** With distinct order ids, removal by id removes exactly the filled
      orders. */
  lemma AsWrittenAgreesOnDistinctIds(state: BotState, balances: Balances, last: Option<Balances>, bid: real, ask: real)
    requires DistinctIds(state.openOrders)
    ensures FillStepAsWritten(state, balances, last, bid, ask) == FillStep(state, balances, last, bid, ask)
  {
    var diff := BtcDelta(balances, last);
    var open := state.openOrders;
    if diff > 0.0 {
      FillPartition(open, FillsBuy(bid), PriceGe);
      var filled := Sort(Filter(open, FillsBuy(bid)), PriceGe);
      RemoveByIdDropsIds(open, filled);
      IdRemovalIsFilter(open, FillsBuy(bid), filled);
    } else if diff < 0.0 {
      FillPartition(open, FillsSell(ask), OrderPriceLe);
      var filled := Sort(Filter(open, FillsSell(ask)), OrderPriceLe);
      RemoveByIdDropsIds(open, filled);
      IdRemovalIsFilter(open, FillsSell(ask), filled);
    }
  }

  /** Two orders placed in the same millisecond share an id; when the BUY of
      them fills, removal by id (once `save_run_config` and both saves are repaired) also drops
      the unfilled SELL, while removing the filled orders keeps it open. */
  lemma AsWrittenDropsUnfilledOrder()
    ensures var open := [Order(7, Buy, 1.0, 105.0, None), Order(7, Sell, 1.0, 110.0, None)];
      var state := BotState(open, 0, 0, None);
      var before := Some(map["BTC" := 1.0]);
      var now := map["BTC" := 2.0];
      && FillStepAsWritten(state, now, before, 100.0, 101.0).state.openOrders == []
      && FillStep(state, now, before, 100.0, 101.0).state.openOrders == [Order(7, Sell, 1.0, 110.0, None)]
  {
    var buy := Order(7, Buy, 1.0, 105.0, None);
    var sell := Order(7, Sell, 1.0, 110.0, None);
    var open := [buy, sell];
    assert Filter(open, FillsBuy(100.0)) == [buy] by {
      assert open[1..] == [sell];
    }
    assert Sort([buy], PriceGe) == [buy];
    assert Filter(open, IdIsNot(7)) == [] by {
      assert open[1..] == [sell];
    }
    assert Filter(open, Unfilled(FillsBuy(100.0))) == [sell] by {
      assert open[1..] == [sell];
    }
  }

  // ---------------------------------------------------------------------------
  // Test mode: placing the missing orders
  // ---------------------------------------------------------------------------

  /** `open_order_prices`: the (price, side) pairs already open. */
  function OpenPrices(open: seq<Order>): set<(real, Side)>
  {
    set o | o in open :: (o.price, o.side)
  }

  /** A candidate level is placed unless its (price, side) is already open
      or it sits at the price of the last trade. */
  function Wanted(openPrices: set<(real, Side)>, lastTrade: Option<TradeRecord>, side: Side): Level -> bool
  {
    (l: Level) => (l.price, side) !in openPrices && !(lastTrade.Some? && lastTrade.value.price == l.price)
  }

  /** The NEW orders `_place_order` appends for `levels`, the `start + i`-th
      order of the call taking its id from the millisecond clock. */
  function NewOrders(levels: seq<Level>, side: Side, clock: nat -> int, start: nat): (r: seq<Order>)
    ensures |r| == |levels|
  {
    seq(|levels|, i requires 0 <= i < |levels| =>
      Order(clock(start + i), side, levels[i].sizeBase, levels[i].price, None))
  }

  /** The placement part of the test-mode branch of `_manage_grid_orders`:
      the wanted buys, then the wanted sells, appended to the open orders;
      the already-open pairs are those before the call. */
  function PlaceTestOrders(state: BotState, levels: seq<Level>, mid: real, maxOrders: nat, clock: nat -> int): BotState
  {
    var (buys, sells) := OrdersForPriceRange(levels, mid, maxOrders);
    PlaceCandidates(state, buys, sells, clock)
  }

  /** The two `_place_order` calls of the test-mode branch, for the
      candidate buys and then the candidate sells. */
  function PlaceCandidates(state: BotState, buys: seq<Level>, sells: seq<Level>, clock: nat -> int): BotState
  {
    var prices := OpenPrices(state.openOrders);
    var newBuys := Filter(buys, Wanted(prices, state.lastTrade, Buy));
    var newSells := Filter(sells, Wanted(prices, state.lastTrade, Sell));
    state.(openOrders := state.openOrders + NewOrders(newBuys, Buy, clock, 0) + NewOrders(newSells, Sell, clock, |newBuys|))
  }

  /** The whole test-mode branch with its trade save repaired and the
      filled orders removed, not every order sharing their ids: the fill
      step, then placement around the mid price. */
  function ManageTestMode(state: BotState, levels: seq<Level>, maxOrders: nat, balances: Balances,
                          last: Option<Balances>, bid: real, ask: real, clock: nat -> int): FillResult
  {
    var f := FillStep(state, balances, last, bid, ask);
    FillResult(PlaceTestOrders(f.state, levels, (bid + ask) / 2.0, maxOrders, clock), f.filled)
  }

  /** Every order appended for one side comes from a wanted candidate. */
  lemma NewOrdersFromWanted(cands: seq<Level>, w: Level -> bool, side: Side, clock: nat -> int, start: nat)
    ensures var added := NewOrders(Filter(cands, w), side, clock, start);
      forall o :: o in added ==>
        (o.side == side && o.clientOrderId.None?
         && exists l :: l in cands && w(l) && o.price == l.price && o.quantity == l.sizeBase)
  {
    var f := Filter(cands, w);
    var added := NewOrders(f, side, clock, start);
    FilterMembers(cands, w);
    forall o | o in added
      ensures o.side == side && o.clientOrderId.None?
      ensures exists l :: l in cands && w(l) && o.price == l.price && o.quantity == l.sizeBase
    {
      var i :| 0 <= i < |added| && added[i] == o;
      assert o == Order(clock(start + i), side, f[i].sizeBase, f[i].price, None);
      assert f[i] in f;
    }
  }

  /** Every wanted candidate of one side gets an order. */
  lemma WantedGetOrders(cands: seq<Level>, w: Level -> bool, side: Side, clock: nat -> int, start: nat)
    ensures var added := NewOrders(Filter(cands, w), side, clock, start);
      forall l :: l in cands && w(l) ==> exists o :: o in added && o.price == l.price && o.side == side
  {
    var f := Filter(cands, w);
    var added := NewOrders(f, side, clock, start);
    FilterMembers(cands, w);
    forall l | l in cands && w(l)
      ensures exists o :: o in added && o.price == l.price && o.side == side
    {
      assert l in f;
      var i :| 0 <= i < |f| && f[i] == l;
      assert added[i] in added;
    }
  }

  /** Placement keeps the open orders as a prefix and changes nothing else;
      it appends, without a client id, one order per wanted candidate and
      none for a candidate whose (price, side) is open or that sits at the
      last trade's price. */
  lemma PlaceTestOrdersSpec(state: BotState, levels: seq<Level>, mid: real, maxOrders: nat, clock: nat -> int)
    ensures var s := PlaceTestOrders(state, levels, mid, maxOrders, clock);
      var (buys, sells) := OrdersForPriceRange(levels, mid, maxOrders);
      PlacementSpec(state, s, buys, sells)
  {
    var (buys, sells) := OrdersForPriceRange(levels, mid, maxOrders);
    PlaceCandidatesSpec(state, buys, sells, clock);
  }

  /** An order appended for `side` comes from a wanted candidate of that side. */
  predicate FromWanted(o: Order, cands: seq<Level>, prices: set<(real, Side)>, last: Option<TradeRecord>, side: Side)
  {
    o.side == side && exists l :: l in cands && Wanted(prices, last, side)(l) && o.price == l.price && o.quantity == l.sizeBase
  }

  /** Every wanted candidate of `side` has an order among `added`. */
  predicate WantedCovered(added: seq<Order>, cands: seq<Level>, prices: set<(real, Side)>, last: Option<TradeRecord>, side: Side)
  {
    forall l :: l in cands && Wanted(prices, last, side)(l) ==> exists o :: o in added && o.side == side && o.price == l.price
  }

  /** What placement from `state` to `s` keeps and appends. */
  predicate PlacementSpec(state: BotState, s: BotState, buys: seq<Level>, sells: seq<Level>)
  {
    var n := |state.openOrders|;
    var prices := OpenPrices(state.openOrders);
    && n <= |s.openOrders| && s.openOrders[..n] == state.openOrders
    && s.buyTrades == state.buyTrades && s.sellTrades == state.sellTrades && s.lastTrade == state.lastTrade
    && (forall o :: o in s.openOrders[n..] ==>
          o.clientOrderId.None?
          && (FromWanted(o, buys, prices, state.lastTrade, Buy) || FromWanted(o, sells, prices, state.lastTrade, Sell)))
    && WantedCovered(s.openOrders[n..], buys, prices, state.lastTrade, Buy)
    && WantedCovered(s.openOrders[n..], sells, prices, state.lastTrade, Sell)
  }

  lemma PlaceCandidatesSpec(state: BotState, buys: seq<Level>, sells: seq<Level>, clock: nat -> int)
    ensures PlacementSpec(state, PlaceCandidates(state, buys, sells, clock), buys, sells)
  {
    var prices := OpenPrices(state.openOrders);
    var last := state.lastTrade;
    var nb := Filter(buys, Wanted(prices, last, Buy));
    var addB := NewOrders(nb, Buy, clock, 0);
    var addS := NewOrders(Filter(sells, Wanted(prices, last, Sell)), Sell, clock, |nb|);
    SideFromWanted(buys, prices, last, Buy, clock, 0);
    SideFromWanted(sells, prices, last, Sell, clock, |nb|);
    SideCovered(buys, prices, last, Buy, clock, 0);
    SideCovered(sells, prices, last, Sell, clock, |nb|);
    AppendMeetsSpec(state, addB, addS, buys, sells);
  }

  /** Appending per-side orders that come from, and cover, the wanted
      candidates of their side meets the placement contract. */
  lemma AppendMeetsSpec(state: BotState, addB: seq<Order>, addS: seq<Order>, buys: seq<Level>, sells: seq<Level>)
    requires var prices := OpenPrices(state.openOrders);
      && (forall o :: o in addB ==> o.clientOrderId.None? && FromWanted(o, buys, prices, state.lastTrade, Buy))
      && (forall o :: o in addS ==> o.clientOrderId.None? && FromWanted(o, sells, prices, state.lastTrade, Sell))
      && WantedCovered(addB, buys, prices, state.lastTrade, Buy)
      && WantedCovered(addS, sells, prices, state.lastTrade, Sell)
    ensures PlacementSpec(state, state.(openOrders := state.openOrders + addB + addS), buys, sells)
  {
    var prices := OpenPrices(state.openOrders);
    var last := state.lastTrade;
    var s := state.(openOrders := state.openOrders + addB + addS);
    var n := |state.openOrders|;
    assert s.openOrders[..n] == state.openOrders;
    assert s.openOrders[n..] == addB + addS;
    AppendedFromWanted(addB, addS, buys, sells, prices, last);
    CoveredAppend(addB, addS, buys, prices, last, Buy);
    CoveredAppend(addB, addS, sells, prices, last, Sell);
  }

  /** The orders appended for one side carry no client id and come from
      wanted candidates of that side. */
  lemma SideFromWanted(cands: seq<Level>, prices: set<(real, Side)>, last: Option<TradeRecord>, side: Side,
                       clock: nat -> int, start: nat)
    ensures var added := NewOrders(Filter(cands, Wanted(prices, last, side)), side, clock, start);
      forall o :: o in added ==> o.clientOrderId.None? && FromWanted(o, cands, prices, last, side)
  {
    NewOrdersFromWanted(cands, Wanted(prices, last, side), side, clock, start);
  }

  /** The orders appended for one side cover its wanted candidates. */
  lemma SideCovered(cands: seq<Level>, prices: set<(real, Side)>, last: Option<TradeRecord>, side: Side,
                    clock: nat -> int, start: nat)
    ensures WantedCovered(NewOrders(Filter(cands, Wanted(prices, last, side)), side, clock, start), cands, prices, last, side)
  {
    WantedGetOrders(cands, Wanted(prices, last, side), side, clock, start);
  }

  /** The buys-then-sells append inherits where each part came from. */
  lemma AppendedFromWanted(addB: seq<Order>, addS: seq<Order>, buys: seq<Level>, sells: seq<Level>,
                           prices: set<(real, Side)>, last: Option<TradeRecord>)
    requires forall o :: o in addB ==> o.clientOrderId.None? && FromWanted(o, buys, prices, last, Buy)
    requires forall o :: o in addS ==> o.clientOrderId.None? && FromWanted(o, sells, prices, last, Sell)
    ensures forall o :: o in addB + addS ==>
      o.clientOrderId.None? && (FromWanted(o, buys, prices, last, Buy) || FromWanted(o, sells, prices, last, Sell))
  {
  }

  /** Appending more orders on either side keeps a side covered. */
  lemma CoveredAppend(addB: seq<Order>, addS: seq<Order>, cands: seq<Level>,
                      prices: set<(real, Side)>, last: Option<TradeRecord>, side: Side)
    requires WantedCovered(addB, cands, prices, last, side) || WantedCovered(addS, cands, prices, last, side)
    ensures WantedCovered(addB + addS, cands, prices, last, side)
  {
    forall l | l in cands && Wanted(prices, last, side)(l)
      ensures exists o :: o in addB + addS && o.side == side && o.price == l.price
    {
      if WantedCovered(addB, cands, prices, last, side) {
        var o :| o in addB && o.side == side && o.price == l.price;
        assert o in addB + addS;
      } else {
        var o :| o in addS && o.side == side && o.price == l.price;
        assert o in addB + addS;
      }
    }
  }

  /** Placing a second time with the same ladder, mid price and last trade
      appends nothing. */
  lemma PlaceTestOrdersIdempotent(state: BotState, levels: seq<Level>, mid: real, maxOrders: nat,
                                  clock: nat -> int, clock2: nat -> int)
    ensures var s := PlaceTestOrders(state, levels, mid, maxOrders, clock);
      PlaceTestOrders(s, levels, mid, maxOrders, clock2) == s
  {
    var s := PlaceTestOrders(state, levels, mid, maxOrders, clock);
    var (buys, sells) := OrdersForPriceRange(levels, mid, maxOrders);
    PlaceTestOrdersSpec(state, levels, mid, maxOrders, clock);
    NoneWantedAfter(state.openOrders, s.openOrders, s.lastTrade, buys, Buy);
    NoneWantedAfter(state.openOrders, s.openOrders, s.lastTrade, sells, Sell);
    var prices2 := OpenPrices(s.openOrders);
    FilterNone(buys, Wanted(prices2, s.lastTrade, Buy));
    FilterNone(sells, Wanted(prices2, s.lastTrade, Sell));
    assert s.openOrders + NewOrders([], Buy, clock2, 0) + NewOrders([], Sell, clock2, 0) == s.openOrders;
  }

  /** Once every wanted candidate of a side has an order appended at its
      price, no candidate of that side is wanted any more. */
  lemma NoneWantedAfter(before: seq<Order>, after: seq<Order>, last: Option<TradeRecord>,
                        cands: seq<Level>, side: Side)
    requires |before| <= |after| && after[..|before|] == before
    requires forall l :: l in cands && Wanted(OpenPrices(before), last, side)(l) ==>
      exists o :: o in after[|before|..] && o.side == side && o.price == l.price
    ensures forall i :: 0 <= i < |cands| ==> !Wanted(OpenPrices(after), last, side)(cands[i])
  {
    var n := |before|;
    var prices, prices2 := OpenPrices(before), OpenPrices(after);
    forall i | 0 <= i < |cands|
      ensures !Wanted(prices2, last, side)(cands[i])
    {
      var l := cands[i];
      assert l in cands;
      if Wanted(prices, last, side)(l) {
        var o :| o in after[n..] && o.side == side && o.price == l.price;
        assert o in after;
        assert (o.price, o.side) in prices2;
      } else if (l.price, side) in prices {
        var o :| o in before && (o.price, o.side) == (l.price, side);
        assert o in after by {
          assert after[..n] == before;
        }
        assert (o.price, o.side) in prices2;
      }
    }
  }

  /** Orders placed while the clock stands still share one id. */
  lemma SameMillisecondSharesId(state: BotState, levels: seq<Level>, mid: real, maxOrders: nat, stamp: int)
    ensures var s := PlaceTestOrders(state, levels, mid, maxOrders, (i: nat) => stamp);
      forall o :: o in s.openOrders[|state.openOrders|..] ==> o.orderId == stamp
  {
    var clock := (i: nat) => stamp;
    var (buys, sells) := OrdersForPriceRange(levels, mid, maxOrders);
    var prices := OpenPrices(state.openOrders);
    var nb := Filter(buys, Wanted(prices, state.lastTrade, Buy));
    var ns := Filter(sells, Wanted(prices, state.lastTrade, Sell));
    var s := PlaceTestOrders(state, levels, mid, maxOrders, clock);
    assert s.openOrders[|state.openOrders|..] == NewOrders(nb, Buy, clock, 0) + NewOrders(ns, Sell, clock, |nb|);
  }

  // ---------------------------------------------------------------------------
  // The trade save as written
  // ---------------------------------------------------------------------------

  /** The test-mode branch up to where it stopped, and whether it stopped
      on an exception. */
  datatype Attempt = Attempt(state: BotState, raised: bool)

  /** The test-mode branch as written. Each fill is saved with
      `save_to_db('trades', trade_data, self.bot_name, self.bot_run)`, one
      argument more than `save_to_db` takes, so the first fill raises a
      `TypeError` right after its counter was incremented: the order stays
      open, the last trade is kept and no order is placed. The loop itself
      never passes previous balances in (see `AsWrittenNeverFills`), so
      this branch is reached only with `last` given from outside. */
  function ManageTestModeAsWritten(state: BotState, levels: seq<Level>, maxOrders: nat, balances: Balances,
                                   last: Option<Balances>, bid: real, ask: real, clock: nat -> int): Attempt
  {
    var diff := BtcDelta(balances, last);
    var filled := FilledOrders(state.openOrders, diff, bid, ask);
    if |filled| == 0 then Attempt(PlaceTestOrders(state, levels, (bid + ask) / 2.0, maxOrders, clock), false)
    else if diff > 0.0 then Attempt(state.(buyTrades := state.buyTrades + 1), true)
    else Attempt(state.(sellTrades := state.sellTrades + 1), true)
  }

  /** Given previous balances showing a rise in BTC, the branch as written
      counts an open BUY above the bid on every call and never removes it,
      and places no order; with the save working, the fill step removes it
      and counts it once. The loop as written never supplies such balances
      (see `AsWrittenNeverFills`). */
  lemma AsWrittenFillStalls(state: BotState, levels: seq<Level>, maxOrders: nat, balances: Balances,
                            last: Option<Balances>, bid: real, ask: real, clock: nat -> int, o: Order)
    requires BtcDelta(balances, last) > 0.0
    requires o in state.openOrders && o.side == Buy && o.price > bid
    ensures var a := ManageTestModeAsWritten(state, levels, maxOrders, balances, last, bid, ask, clock);
      && a.raised && a.state == state.(buyTrades := state.buyTrades + 1)
      && ManageTestModeAsWritten(a.state, levels, maxOrders, balances, last, bid, ask, clock)
         == Attempt(state.(buyTrades := state.buyTrades + 2), true)
    ensures var f := FillStep(state, balances, last, bid, ask);
      o in f.filled && o !in f.state.openOrders && f.state.buyTrades == state.buyTrades + |f.filled|
  {
    FillOnRise(state, balances, last, bid, ask);
    assert o in FilledOrders(state.openOrders, BtcDelta(balances, last), bid, ask) by {
      assert FillStep(state, balances, last, bid, ask).filled == FilledOrders(state.openOrders, BtcDelta(balances, last), bid, ask);
    }
    AsWrittenRaisesTwice(state, levels, maxOrders, balances, last, bid, ask, clock);
  }

  /** As written, a rise in BTC with something to fill raises after one
      count, and a second call with the same balances does the same again. */
  lemma AsWrittenRaisesTwice(state: BotState, levels: seq<Level>, maxOrders: nat, balances: Balances,
                             last: Option<Balances>, bid: real, ask: real, clock: nat -> int)
    requires BtcDelta(balances, last) > 0.0
    requires |FilledOrders(state.openOrders, BtcDelta(balances, last), bid, ask)| > 0
    ensures var a := ManageTestModeAsWritten(state, levels, maxOrders, balances, last, bid, ask, clock);
      && a.raised && a.state == state.(buyTrades := state.buyTrades + 1)
      && ManageTestModeAsWritten(a.state, levels, maxOrders, balances, last, bid, ask, clock)
         == Attempt(state.(buyTrades := state.buyTrades + 2), true)
  {
    var s1 := state.(buyTrades := state.buyTrades + 1);
    assert ManageTestModeAsWritten(state, levels, maxOrders, balances, last, bid, ask, clock) == Attempt(s1, true);
    assert s1.openOrders == state.openOrders;
  }

  /** When nothing fills no save is attempted, and the branch as written
      does what the corrected branch does. */
  lemma AsWrittenAgreesWithoutFills(state: BotState, levels: seq<Level>, maxOrders: nat, balances: Balances,
                                    last: Option<Balances>, bid: real, ask: real, clock: nat -> int)
    requires FilledOrders(state.openOrders, BtcDelta(balances, last), bid, ask) == []
    ensures ManageTestModeAsWritten(state, levels, maxOrders, balances, last, bid, ask, clock)
         == Attempt(ManageTestMode(state, levels, maxOrders, balances, last, bid, ask, clock).state, false)
  {
    FillStepWithoutFills(state, balances, last, bid, ask);
    assert ManageTestMode(state, levels, maxOrders, balances, last, bid, ask, clock).state
        == PlaceTestOrders(state, levels, (bid + ask) / 2.0, maxOrders, clock);
  }

  /** When nothing fills the fill step leaves the state as it was. */
  lemma FillStepWithoutFills(state: BotState, balances: Balances, last: Option<Balances>, bid: real, ask: real)
    requires FilledOrders(state.openOrders, BtcDelta(balances, last), bid, ask) == []
    ensures FillStep(state, balances, last, bid, ask) == FillResult(state, [])
  {
    var diff := BtcDelta(balances, last);
    if diff != 0.0 {
      var fills := if diff > 0.0 then FillsBuy(bid) else FillsSell(ask);
      var le := if diff > 0.0 then PriceGe else OrderPriceLe;
      FillPartition(state.openOrders, fills, le);
      FilterAll(state.openOrders, Unfilled(fills));
      assert Filter(state.openOrders, Unfilled(fills)) == state.openOrders;
    }
  }

  // ---------------------------------------------------------------------------
  // Live mode: the placement decision
  // ---------------------------------------------------------------------------

  /** An order the live branch sends, post-only, with its client id. */
  datatype LiveOrder = LiveOrder(side: Side, quantity: real, price: real, clientOrderId: ClientId)

  /** What the live branch decided: the orders to send, in order, and the
      last trade afterwards. */
  datatype LiveResult = LiveResult(placed: seq<LiveOrder>, lastTrade: Option<TradeRecord>)

  /** A BUY is sent at no more than the bid, a SELL at no less than the ask. */
  function SendPrice(side: Side, gridPrice: real, bid: real, ask: real): real
  {
    match side
    case Buy => MinReal(gridPrice, bid)
    case Sell => MaxReal(gridPrice, ask)
  }

  /** `open_order_client_ids`: the client ids of the open orders that have one. */
  function OpenClientIds(open: seq<Order>): set<ClientId>
  {
    set o | o in open && o.clientOrderId.Some? :: o.clientOrderId.value
  }

  /** The inner loop over one side's candidates: skip a level whose client
      id is already open or whose send price is zero. */
  function LiveSide(botName: string, side: Side, cands: seq<Level>, openIds: set<ClientId>, bid: real, ask: real): seq<LiveOrder>
    decreases |cands|
  {
    if |cands| == 0 then []
    else
      var l := cands[0];
      var id := ClientId(botName, l.price);
      var price := SendPrice(side, l.price, bid, ask);
      var rest := LiveSide(botName, side, cands[1..], openIds, bid, ask);
      if id !in openIds && price != 0.0 then [LiveOrder(side, l.sizeBase, price, id)] + rest else rest
  }

  /** The placement decision of the live branch for given buy and sell
      candidates. */
  function LivePlacement(botName: string, buys: seq<Level>, sells: seq<Level>, open: seq<Order>,
                         lastTrade: Option<TradeRecord>, bid: real, ask: real): LiveResult
  {
    var ids := OpenClientIds(open);
    var placed := LiveSide(botName, Buy, buys, ids, bid, ask) + LiveSide(botName, Sell, sells, ids, bid, ask);
    var n := |placed|;
    LiveResult(placed, if n == 0 then lastTrade else Some(TradeRecord(placed[n - 1].side, placed[n - 1].price, placed[n - 1].quantity)))
  }

  /** Every order sent for a side comes from one of its candidates, carries
      that candidate's client id (not among the open ones) and size, and is
      priced at its send price; every candidate whose id is not open and
      whose send price is not zero is sent. */
  lemma LiveSideSpec(botName: string, side: Side, cands: seq<Level>, openIds: set<ClientId>, bid: real, ask: real)
    ensures var r := LiveSide(botName, side, cands, openIds, bid, ask);
      && (forall o :: o in r ==>
            (o.side == side && o.clientOrderId !in openIds && o.price != 0.0
             && exists l :: l in cands && o.clientOrderId == ClientId(botName, l.price)
                  && o.price == SendPrice(side, l.price, bid, ask) && o.quantity == l.sizeBase))
      && (forall l :: l in cands && ClientId(botName, l.price) !in openIds && SendPrice(side, l.price, bid, ask) != 0.0
            ==> exists o :: o in r && o.clientOrderId == ClientId(botName, l.price))
  {
    LiveSideSound(botName, side, cands, openIds, bid, ask);
    LiveSideComplete(botName, side, cands, openIds, bid, ask);
  }

  /** Every order sent for a side comes from one of its candidates. */
  lemma {:induction false} LiveSideSound(botName: string, side: Side, cands: seq<Level>, openIds: set<ClientId>, bid: real, ask: real)
    ensures forall o :: o in LiveSide(botName, side, cands, openIds, bid, ask) ==>
      (o.side == side && o.clientOrderId !in openIds && o.price != 0.0
       && exists l :: l in cands && o.clientOrderId == ClientId(botName, l.price)
            && o.price == SendPrice(side, l.price, bid, ask) && o.quantity == l.sizeBase)
    decreases |cands|
  {
    if |cands| > 0 {
      LiveSideSound(botName, side, cands[1..], openIds, bid, ask);
      var l := cands[0];
      assert l in cands;
      forall l' | l' in cands[1..]
        ensures l' in cands
      {
      }
    }
  }

  /** Every candidate whose id is not open and whose send price is not zero
      is sent. */
  lemma {:induction false} LiveSideComplete(botName: string, side: Side, cands: seq<Level>, openIds: set<ClientId>, bid: real, ask: real)
    ensures forall l :: l in cands && ClientId(botName, l.price) !in openIds && SendPrice(side, l.price, bid, ask) != 0.0 ==>
      exists o :: o in LiveSide(botName, side, cands, openIds, bid, ask) && o.clientOrderId == ClientId(botName, l.price)
    decreases |cands|
  {
    if |cands| > 0 {
      LiveSideComplete(botName, side, cands[1..], openIds, bid, ask);
      assert cands == [cands[0]] + cands[1..];
      var rest := LiveSide(botName, side, cands[1..], openIds, bid, ask);
      var r := LiveSide(botName, side, cands, openIds, bid, ask);
      forall o | o in rest
        ensures o in r
      {
      }
    }
  }

  /** Resting orders never cross the book: a BUY goes out at or below both
      its grid price and the bid, a SELL at or above both its grid price
      and the ask; no order goes out for an already-open client id. */
  lemma LiveNeverCrosses(botName: string, buys: seq<Level>, sells: seq<Level>, open: seq<Order>,
                         lastTrade: Option<TradeRecord>, bid: real, ask: real)
    ensures var r := LivePlacement(botName, buys, sells, open, lastTrade, bid, ask);
      forall o :: o in r.placed ==>
        && o.clientOrderId !in OpenClientIds(open)
        && (o.side == Buy ==> o.price <= bid && o.price <= o.clientOrderId.price)
        && (o.side == Sell ==> o.price >= ask && o.price >= o.clientOrderId.price)
  {
    var ids := OpenClientIds(open);
    SideNeverCrosses(botName, Buy, buys, ids, bid, ask);
    SideNeverCrosses(botName, Sell, sells, ids, bid, ask);
  }

  /** The orders sent for one side rest on the book, under ids not open. */
  lemma SideNeverCrosses(botName: string, side: Side, cands: seq<Level>, ids: set<ClientId>, bid: real, ask: real)
    ensures forall o :: o in LiveSide(botName, side, cands, ids, bid, ask) ==>
      && o.clientOrderId !in ids
      && (o.side == Buy ==> o.price <= bid && o.price <= o.clientOrderId.price)
      && (o.side == Sell ==> o.price >= ask && o.price >= o.clientOrderId.price)
  {
    var r := LiveSide(botName, side, cands, ids, bid, ask);
    LiveSideSound(botName, side, cands, ids, bid, ask);
    forall o | o in r
      ensures && o.clientOrderId !in ids
              && (o.side == Buy ==> o.price <= bid && o.price <= o.clientOrderId.price)
              && (o.side == Sell ==> o.price >= ask && o.price >= o.clientOrderId.price)
    {
      var l :| l in cands && o.clientOrderId == ClientId(botName, l.price)
               && o.price == SendPrice(side, l.price, bid, ask) && o.quantity == l.sizeBase;
      assert o.side == side && o.clientOrderId.price == l.price;
      SendPriceBounds(side, l.price, bid, ask);
    }
  }

  lemma SendPriceBounds(side: Side, gridPrice: real, bid: real, ask: real)
    ensures side == Buy ==> SendPrice(side, gridPrice, bid, ask) <= bid && SendPrice(side, gridPrice, bid, ask) <= gridPrice
    ensures side == Sell ==> SendPrice(side, gridPrice, bid, ask) >= ask && SendPrice(side, gridPrice, bid, ask) >= gridPrice
  {
  }

  function BaseAtMost(btc: real): Level -> bool
  {
    (l: Level) => l.baseBalance <= btc
  }

  /** `current_price_based_on_balance`: the price of the first level whose
      base balance the held BTC covers, or the mid price on an empty
      ladder; `None` where pandas raises because no level qualifies. */
  function RefPriceFromBalance(levels: seq<Level>, btc: real, mid: real): Option<real>
  {
    if |levels| == 0 then Some(mid)
    else
      var q := Filter(levels, BaseAtMost(btc));
      if |q| == 0 then None else Some(q[0].price)
  }

  /** On a non-empty ladder the reference price is that of the lowest-index
      level with base balance at most `btc`, and there is none exactly when
      every level needs more. */
  lemma RefPriceSpec(levels: seq<Level>, btc: real, mid: real)
    requires |levels| > 0
    ensures RefPriceFromBalance(levels, btc, mid).None? <==> forall i :: 0 <= i < |levels| ==> levels[i].baseBalance > btc
    ensures RefPriceFromBalance(levels, btc, mid).Some? ==>
      exists j :: 0 <= j < |levels| && levels[j].price == RefPriceFromBalance(levels, btc, mid).value
        && levels[j].baseBalance <= btc && forall k :: 0 <= k < j ==> levels[k].baseBalance > btc
  {
    var q := Filter(levels, BaseAtMost(btc));
    FilterMembers(levels, BaseAtMost(btc));
    if |q| > 0 {
      FilterFirstIndex(levels, BaseAtMost(btc));
      assert q[0] in q;
    } else {
      forall i | 0 <= i < |levels|
        ensures levels[i].baseBalance > btc
      {
        assert levels[i] in levels;
      }
    }
  }

  // ---------------------------------------------------------------------------
  // Daily ROI and take profit
  // ---------------------------------------------------------------------------

  /** `max(1, (now - start_time).days)`. */
  function RunningDays(elapsedDays: int): (d: int)
    ensures d >= 1 && d >= elapsedDays
    ensures elapsedDays >= 1 ==> d == elapsedDays
    ensures elapsedDays < 1 ==> d == 1
  {
    if 1 >= elapsedDays then 1 else elapsedDays
  }

  /** The capital the ROI is measured against. */
  function Investment(quoteNeeded: real, callCost: real, putCost: real): real
  {
    quoteNeeded + callCost + putCost
  }

  /** `daily_roi`: the PnL per running day over the investment, or 0 when
      the investment is not positive. */
  function DailyRoi(totalPnl: real, elapsedDays: int, investment: real): real
  {
    var daily := totalPnl / RunningDays(elapsedDays) as real;
    if investment > 0.0 then daily / investment else 0.0
  }

  /** The ROI recovers the PnL: times the investment and the running days it
      gives back the total, so its sign is the PnL's. */
  lemma DailyRoiSpec(totalPnl: real, elapsedDays: int, investment: real)
    ensures investment <= 0.0 ==> DailyRoi(totalPnl, elapsedDays, investment) == 0.0
    ensures investment > 0.0 ==>
      DailyRoi(totalPnl, elapsedDays, investment) * investment * RunningDays(elapsedDays) as real == totalPnl
    ensures investment > 0.0 ==> (DailyRoi(totalPnl, elapsedDays, investment) >= 0.0 <==> totalPnl >= 0.0)
  {
    var d := RunningDays(elapsedDays) as real;
    if investment > 0.0 {
      var roi := DailyRoi(totalPnl, elapsedDays, investment);
      assert roi == (totalPnl / d) / investment;
      assert roi * investment == totalPnl / d;
      assert (totalPnl / d) * d == totalPnl;
      QuotientSign(totalPnl, d, investment);
    }
  }

  lemma QuotientSign(x: real, d: real, inv: real)
    requires d > 0.0 && inv > 0.0
    ensures (x / d) / inv >= 0.0 <==> x >= 0.0
  {
    if x >= 0.0 {
      assert x / d >= 0.0;
    } else {
      assert x / d < 0.0;
    }
  }

  /** `_check_pnl` followed by `_enter_take_profit_mode`: the running flag
      afterwards. */
  function CheckPnl(running: bool, dailyRoi: real, target: real): bool
  {
    if dailyRoi >= target then false else running
  }

  /** `while self.running`: one PnL check per entry of `rois` until a check
      enters take profit. The result is the flag at the end and the number
      of checks made. */
  function Monitor(rois: seq<real>, target: real): (bool, nat)
    decreases |rois|
  {
    if |rois| == 0 then (true, 0)
    else if !CheckPnl(true, rois[0], target) then (false, 1)
    else
      var (running, n) := Monitor(rois[1..], target);
      (running, n + 1)
  }

  /** A check stops the bot exactly when the ROI meets the target, and a
      stopped bot is never restarted. */
  lemma CheckPnlSpec(running: bool, dailyRoi: real, target: real)
    ensures CheckPnl(running, dailyRoi, target) <==> running && dailyRoi < target
    ensures !running ==> !CheckPnl(running, dailyRoi, target)
  {
  }

  /** The loop stops at the first ROI reaching the target, after exactly
      that many checks, and runs through every check otherwise. */
  lemma {:induction false} MonitorStopsAtTarget(rois: seq<real>, target: real)
    ensures var (running, n) := Monitor(rois, target);
      && n <= |rois|
      && (!running <==> exists i :: 0 <= i < |rois| && rois[i] >= target)
      && (running ==> n == |rois|)
      && (!running ==> n > 0 && rois[n - 1] >= target && forall i :: 0 <= i < n - 1 ==> rois[i] < target)
    decreases |rois|
  {
    if |rois| > 0 && rois[0] < target {
      MonitorStopsAtTarget(rois[1..], target);
      var rest := rois[1..];
      assert forall i :: 0 < i < |rois| ==> rois[i] == rest[i - 1];
      assert (exists i :: 0 <= i < |rest| && rest[i] >= target) ==> (exists i :: 0 <= i < |rois| && rois[i] >= target);
    }
  }

  /** `_check_pnl` as written: the `save_to_db` call storing the spot
      statistics passes one argument too many and raises before the ROI is
      compared with the target, so the running flag never changes. */
  function CheckPnlAsWritten(running: bool, dailyRoi: real, target: real): bool
  {
    running
  }

  /** The `while self.running` loop over the checks as written: each check
      passes its flag on to the next. */
  function MonitorAsWritten(rois: seq<real>, target: real): (bool, nat)
    decreases |rois|
  {
    if |rois| == 0 then (true, 0)
    else
      var (running, n) := MonitorAsWritten(rois[1..], target);
      (CheckPnlAsWritten(running, rois[0], target), n + 1)
  }

  /** As written the bot never enters take profit, whatever the ROI; the
      corrected check stops it at the first ROI that meets the target. */
  lemma {:induction false} AsWrittenNeverTakesProfit(rois: seq<real>, target: real)
    ensures MonitorAsWritten(rois, target) == (true, |rois|)
    ensures (exists i :: 0 <= i < |rois| && rois[i] >= target) ==> !Monitor(rois, target).0
    decreases |rois|
  {
    MonitorStopsAtTarget(rois, target);
    if |rois| > 0 {
      AsWrittenNeverTakesProfit(rois[1..], target);
    }
  }

  // ---------------------------------------------------------------------------
  // The trading loop in test mode
  // ---------------------------------------------------------------------------

  /** A minute of `datetime.utcnow()`, in microseconds. */
  const Minute: int := 60_000_000

  /** What one pass of `_trading_loop` reads in test mode: the time in
      microseconds, the simulated balances, the bid and ask, and the clock
      new order ids come from. */
  datatype Reading = Reading(now: int, balances: Balances, bid: real, ask: real, clock: nat -> int)

  /** What the loop keeps between passes: `last_pnl_check` and
      `last_simulated_balances`. */
  datatype LoopMemory = LoopMemory(lastPnlCheck: int, lastBalances: Option<Balances>)

  /** At start-up the last PnL check lies one minute back and there are no
      previous balances. */
  function StartMemory(start: int): LoopMemory
  {
    LoopMemory(start - Minute, None)
  }

  /** The end of a pass whose order step returned: `_check_pnl` runs once a
      minute has passed, and only when it returns are the check time and
      the balances stored; when it raises, the loop's handler skips both. */
  function AfterOrders(mem: LoopMemory, now: int, balances: Balances, pnlRaises: bool): LoopMemory
  {
    if now - mem.lastPnlCheck >= Minute then
      if pnlRaises then mem else LoopMemory(now, Some(balances))
    else mem.(lastBalances := Some(balances))
  }

  datatype LoopState = LoopState(bot: BotState, mem: LoopMemory)

  /** One test-mode pass as written: the order step raises on a fill, and
      `_check_pnl` always raises on its statistics save. As written no pass
      runs at all, since `start()` raises in `save_run_config` before the
      loop; this is the pass once that call is repaired. */
  function LoopStepAsWritten(s: LoopState, levels: seq<Level>, maxOrders: nat, r: Reading): LoopState
  {
    var a := ManageTestModeAsWritten(s.bot, levels, maxOrders, r.balances, s.mem.lastBalances, r.bid, r.ask, r.clock);
    LoopState(a.state, if a.raised then s.mem else AfterOrders(s.mem, r.now, r.balances, true))
  }

  /** One test-mode pass with both saves repaired. */
  function LoopStep(s: LoopState, levels: seq<Level>, maxOrders: nat, r: Reading): LoopState
  {
    var f := ManageTestMode(s.bot, levels, maxOrders, r.balances, s.mem.lastBalances, r.bid, r.ask, r.clock);
    LoopState(f.state, AfterOrders(s.mem, r.now, r.balances, false))
  }

  /** The loop as written over a sequence of readings, from the point the
      loop would start once `save_run_config` in `start()` is repaired. */
  function RunAsWritten(s: LoopState, levels: seq<Level>, maxOrders: nat, rs: seq<Reading>): LoopState
    decreases |rs|
  {
    if |rs| == 0 then s else RunAsWritten(LoopStepAsWritten(s, levels, maxOrders, rs[0]), levels, maxOrders, rs[1..])
  }

  function Run(s: LoopState, levels: seq<Level>, maxOrders: nat, rs: seq<Reading>): LoopState
    decreases |rs|
  {
    if |rs| == 0 then s else Run(LoopStep(s, levels, maxOrders, rs[0]), levels, maxOrders, rs[1..])
  }

  /** Without previous balances the branch as written only places orders. */
  lemma NoPreviousBalancesPlaces(state: BotState, levels: seq<Level>, maxOrders: nat, balances: Balances,
                                 bid: real, ask: real, clock: nat -> int)
    ensures ManageTestModeAsWritten(state, levels, maxOrders, balances, None, bid, ask, clock)
         == Attempt(PlaceTestOrders(state, levels, (bid + ask) / 2.0, maxOrders, clock), false)
  {
  }

  /** With `save_run_config` in `start()` repaired so that the loop runs,
      the loop as written still infers no test fill: the PnL check is always
      due and always raises, so the previous balances stay `None`, the trade
      counters and the last trade never change, and open orders are only
      ever added. */
  lemma {:induction false} AsWrittenNeverFills(s: LoopState, levels: seq<Level>, maxOrders: nat,
                                               rs: seq<Reading>, start: int)
    requires s.mem == StartMemory(start)
    requires forall i :: 0 <= i < |rs| ==> rs[i].now >= start
    ensures var e := RunAsWritten(s, levels, maxOrders, rs);
      var n := |s.bot.openOrders|;
      && e.mem == StartMemory(start)
      && e.bot.buyTrades == s.bot.buyTrades && e.bot.sellTrades == s.bot.sellTrades
      && e.bot.lastTrade == s.bot.lastTrade
      && n <= |e.bot.openOrders| && e.bot.openOrders[..n] == s.bot.openOrders
    decreases |rs|
  {
    if |rs| > 0 {
      var r := rs[0];
      NoPreviousBalancesPlaces(s.bot, levels, maxOrders, r.balances, r.bid, r.ask, r.clock);
      PlaceTestOrdersSpec(s.bot, levels, (r.bid + r.ask) / 2.0, maxOrders, r.clock);
      var s1 := LoopStepAsWritten(s, levels, maxOrders, r);
      assert s1.mem == s.mem;
      AsWrittenNeverFills(s1, levels, maxOrders, rs[1..], start);
      var e := RunAsWritten(s1, levels, maxOrders, rs[1..]);
      var n, n1 := |s.bot.openOrders|, |s1.bot.openOrders|;
      assert e.bot.openOrders[..n] == e.bot.openOrders[..n1][..n];
    }
  }

  /** With both saves repaired the loop does infer fills: after a pass that
      stores the balances, a rise in BTC fills an open BUY above the bid. */
  lemma RepairedLoopFillsOnRise(s: LoopState, levels: seq<Level>, maxOrders: nat, r1: Reading, r2: Reading,
                                start: int, o: Order)
    requires s.mem == StartMemory(start) && r1.now >= start && r2.now >= start
    requires Get(r2.balances, "BTC") > Get(r1.balances, "BTC")
    requires o in s.bot.openOrders && o.side == Buy && o.price > r2.bid
    ensures var e := Run(s, levels, maxOrders, [r1, r2]);
      e.bot.buyTrades > s.bot.buyTrades && RunAsWritten(s, levels, maxOrders, [r1, r2]).bot.buyTrades == s.bot.buyTrades
  {
    var s1 := LoopStep(s, levels, maxOrders, r1);
    RepairedFirstPass(s, levels, maxOrders, r1, start);
    assert o in s1.bot.openOrders by {
      assert s1.bot.openOrders[..|s.bot.openOrders|] == s.bot.openOrders;
    }
    RepairedPassFills(s1, levels, maxOrders, r2, r1.balances, o);
    TwoPasses(s, levels, maxOrders, r1, r2, start);
  }

  /** Two passes of either loop are two steps; as written they count nothing. */
  lemma TwoPasses(s: LoopState, levels: seq<Level>, maxOrders: nat, r1: Reading, r2: Reading, start: int)
    requires s.mem == StartMemory(start) && r1.now >= start && r2.now >= start
    ensures Run(s, levels, maxOrders, [r1, r2])
         == LoopStep(LoopStep(s, levels, maxOrders, r1), levels, maxOrders, r2)
    ensures RunAsWritten(s, levels, maxOrders, [r1, r2]).bot.buyTrades == s.bot.buyTrades
  {
    var s1 := LoopStep(s, levels, maxOrders, r1);
    var s2 := LoopStep(s1, levels, maxOrders, r2);
    assert [r1, r2][0] == r1 && [r1, r2][1..] == [r2] && [r2][0] == r2 && [r2][1..] == [];
    assert Run(s1, levels, maxOrders, [r2]) == Run(s2, levels, maxOrders, []);
    AsWrittenTwoPasses(s, levels, maxOrders, [r1, r2], start);
  }

  lemma AsWrittenTwoPasses(s: LoopState, levels: seq<Level>, maxOrders: nat, rs: seq<Reading>, start: int)
    requires s.mem == StartMemory(start) && |rs| == 2 && rs[0].now >= start && rs[1].now >= start
    ensures RunAsWritten(s, levels, maxOrders, rs).bot.buyTrades == s.bot.buyTrades
  {
    AsWrittenNeverFills(s, levels, maxOrders, rs, start);
  }

  /** The first repaired pass fills nothing, keeps the open orders as a
      prefix and stores the balances it read. */
  lemma RepairedFirstPass(s: LoopState, levels: seq<Level>, maxOrders: nat, r: Reading, start: int)
    requires s.mem == StartMemory(start) && r.now >= start
    ensures var s1 := LoopStep(s, levels, maxOrders, r);
      var n := |s.bot.openOrders|;
      && s1.mem.lastBalances == Some(r.balances)
      && s1.bot.buyTrades == s.bot.buyTrades
      && n <= |s1.bot.openOrders| && s1.bot.openOrders[..n] == s.bot.openOrders
  {
    FillWithoutChange(s.bot, r.balances, None, r.bid, r.ask);
    PlaceTestOrdersSpec(s.bot, levels, (r.bid + r.ask) / 2.0, maxOrders, r.clock);
  }

  /** A repaired pass after a rise in BTC counts an open BUY above the bid. */
  lemma RepairedPassFills(t: LoopState, levels: seq<Level>, maxOrders: nat, r: Reading, prev: Balances, o: Order)
    requires t.mem.lastBalances == Some(prev) && Get(r.balances, "BTC") > Get(prev, "BTC")
    requires o in t.bot.openOrders && o.side == Buy && o.price > r.bid
    ensures LoopStep(t, levels, maxOrders, r).bot.buyTrades > t.bot.buyTrades
  {
    var f := FillStep(t.bot, r.balances, Some(prev), r.bid, r.ask);
    FillOnRise(t.bot, r.balances, Some(prev), r.bid, r.ask);
    assert o in f.filled;
    PlaceTestOrdersSpec(f.state, levels, (r.bid + r.ask) / 2.0, maxOrders, r.clock);
  }
}

=== FILE: common.dfy ===
/**
 * Shared vocabulary for the grid-bot model: optional values, results,
 * real-valued sums over sequences and Python-style string helpers.
 */
module Common {

  datatype Option<+T> = None | Some(value: T)

  datatype Result<+R, +E> = Ok(value: R) | Err(error: E)

  /** Sum of `f` over the elements of `s`, front to back. */
  function SumBy<T>(s: seq<T>, f: T -> real): real
  {
    if |s| == 0 then 0.0 else f(s[0]) + SumBy(s[1..], f)
  }

  lemma {:induction false} SumByAppend<T>(a: seq<T>, b: seq<T>, f: T -> real)
    ensures SumBy(a + b, f) == SumBy(a, f) + SumBy(b, f)
  {
    if |a| == 0 {
      assert a + b == b;
    } else {
      assert (a + b)[1..] == a[1..] + b;
      SumByAppend(a[1..], b, f);
    }
  }

  /** Adding one element at the end adds its value. */
  lemma SumBySnoc<T>(a: seq<T>, x: T, f: T -> real)
    ensures SumBy(a + [x], f) == SumBy(a, f) + f(x)
  {
    SumByAppend(a, [x], f);
  }

  /** Removing the element at position j subtracts its value. */
  lemma SumByRemove<T>(s: seq<T>, j: int, f: T -> real)
    requires 0 <= j < |s|
    ensures SumBy(s, f) == f(s[j]) + SumBy(s[..j] + s[j + 1..], f)
  {
    assert s[..j] + s[j..] == s;
    SumByAppend(s[..j], s[j..], f);
    assert s[j..][0] == s[j] && s[j..][1..] == s[j + 1..];
    SumByAppend(s[..j], s[j + 1..], f);
  }

  /** A sum over a sequence depends only on the multiset of its elements. */
  lemma {:induction false} SumByPermutation<T>(a: seq<T>, b: seq<T>, f: T -> real)
    requires multiset(a) == multiset(b)
    ensures SumBy(a, f) == SumBy(b, f)
  {
    if |a| == 0 {
      assert |b| == |multiset(b)| == 0;
    } else {
      var x := a[0];
      assert x in multiset(b);
      var j :| 0 <= j < |b| && b[j] == x;
      var b' := b[..j] + b[j + 1..];
      MultisetRemoveAt(b, j);
      assert a == [x] + a[1..];
      assert multiset(a[1..]) == multiset(a) - multiset{x};
      SumByPermutation(a[1..], b', f);
      SumByRemove(b, j, f);
    }
  }

  /** Dropping the `j`-th element drops one copy of it from the multiset. */
  lemma MultisetRemoveAt<T>(b: seq<T>, j: int)
    requires 0 <= j < |b|
    ensures multiset(b[..j] + b[j + 1..]) == multiset(b) - multiset{b[j]}
  {
    assert b == b[..j] + [b[j]] + b[j + 1..];
  }

  /** An element satisfying `p` is the head or one of the rest. */
  lemma ExistsAtCons<T>(s: seq<T>, p: T -> bool)
    requires |s| > 0
    ensures (exists i :: 0 <= i < |s| && p(s[i])) <==> p(s[0]) || exists i :: 0 <= i < |s| - 1 && p(s[1..][i])
  {
    if exists i :: 0 <= i < |s| && p(s[i]) {
      var i :| 0 <= i < |s| && p(s[i]);
      assert i == 0 || s[1..][i - 1] == s[i];
    }
    if exists i :: 0 <= i < |s| - 1 && p(s[1..][i]) {
      var i :| 0 <= i < |s| - 1 && p(s[1..][i]);
      assert s[i + 1] == s[1..][i];
    }
  }

  /** A sequence that maps `f` over `xs` still does after one more element
      in front of both. */
  lemma MapsCons<A, B>(x: A, xs: seq<A>, y: B, ys: seq<B>, f: A -> B)
    requires y == f(x) && |ys| == |xs|
    requires forall i :: 0 <= i < |xs| ==> ys[i] == f(xs[i])
    ensures forall i :: 0 <= i < |xs| + 1 ==> ([y] + ys)[i] == f(([x] + xs)[i])
  {
    forall i | 0 <= i < |xs| + 1
      ensures ([y] + ys)[i] == f(([x] + xs)[i])
    {
      if i > 0 {
        assert ([y] + ys)[i] == ys[i - 1] && ([x] + xs)[i] == xs[i - 1];
      }
    }
  }

  /** A sum of non-negative terms is non-negative. */
  lemma {:induction false} SumByNonNegative<T>(s: seq<T>, f: T -> real)
    requires forall i :: 0 <= i < |s| ==> f(s[i]) >= 0.0
    ensures SumBy(s, f) >= 0.0
  {
    if |s| > 0 {
      SumByNonNegative(s[1..], f);
    }
  }

  /** No name occurs twice, as in a directory listing. */
  predicate Distinct(listing: seq<string>)
  {
    forall i, j :: 0 <= i < j < |listing| ==> listing[i] != listing[j]
  }

  /** The elements of `s` satisfying `p`, in their original order. */
  function Filter<T>(s: seq<T>, p: T -> bool): (r: seq<T>)
    ensures |r| <= |s|
  {
    if |s| == 0 then []
    else if p(s[0]) then [s[0]] + Filter(s[1..], p)
    else Filter(s[1..], p)
  }

  /** `Filter` keeps exactly the elements satisfying `p`. */
  lemma {:induction false} FilterMembers<T>(s: seq<T>, p: T -> bool)
    ensures forall x :: x in Filter(s, p) <==> x in s && p(x)
  {
    if |s| > 0 {
      FilterMembers(s[1..], p);
      assert s == [s[0]] + s[1..];
    }
  }

  lemma {:induction false} FilterAppend<T>(a: seq<T>, b: seq<T>, p: T -> bool)
    ensures Filter(a + b, p) == Filter(a, p) + Filter(b, p)
  {
    if |a| == 0 {
      assert a + b == b;
    } else {
      var ab := a + b;
      assert ab[0] == a[0];
      assert ab[1..] == a[1..] + b;
      FilterAppend(a[1..], b, p);
      if p(a[0]) {
        assert Filter(ab, p) == [a[0]] + Filter(a[1..] + b, p);
        assert Filter(a, p) == [a[0]] + Filter(a[1..], p);
      } else {
        assert Filter(ab, p) == Filter(a[1..] + b, p);
        assert Filter(a, p) == Filter(a[1..], p);
      }
    }
  }

  /** Filtering keeps exactly the multiplicity of each element that satisfies `p`. */
  lemma {:induction false} FilterMultiset<T>(s: seq<T>, p: T -> bool)
    ensures forall x :: multiset(Filter(s, p))[x] == if p(x) then multiset(s)[x] else 0
  {
    if |s| > 0 {
      FilterMultiset(s[1..], p);
      assert s == [s[0]] + s[1..];
    }
  }

  /** Python's `str.lower` restricted to the ASCII letters. */
  function LowerChar(c: char): char
  {
    if 'A' <= c <= 'Z' then (c as int + 32) as char else c
  }

  /** Python's `str.lower` on the ASCII letters only; other letters, which
      Python would also fold, are left as they are. */
  function Lower(s: string): (r: string)
    ensures |r| == |s|
    ensures forall i :: 0 <= i < |s| ==> r[i] == LowerChar(s[i])
  {
    if |s| == 0 then "" else [LowerChar(s[0])] + Lower(s[1..])
  }

  /** Python's `<=` on `str`: lexicographic by code point, a prefix comes first. */
  predicate StrLe(a: string, b: string)
  {
    if |a| == 0 then true
    else if |b| == 0 then false
    else if a[0] != b[0] then a[0] < b[0]
    else StrLe(a[1..], b[1..])
  }

  lemma {:induction false} StrLeTotal(a: string, b: string)
    ensures StrLe(a, b) || StrLe(b, a)
  {
    if |a| > 0 && |b| > 0 && a[0] == b[0] {
      StrLeTotal(a[1..], b[1..]);
    }
  }

  lemma {:induction false} StrLeTransitive(a: string, b: string, c: string)
    requires StrLe(a, b) && StrLe(b, c)
    ensures StrLe(a, c)
  {
    if |a| > 0 && |b| > 0 && |c| > 0 && a[0] == b[0] && b[0] == c[0] {
      StrLeTransitive(a[1..], b[1..], c[1..]);
    }
  }

  lemma {:induction false} StrLeAntisymmetric(a: string, b: string)
    requires StrLe(a, b) && StrLe(b, a)
    ensures a == b
  {
    if |a| > 0 && |b| > 0 {
      StrLeAntisymmetric(a[1..], b[1..]);
      assert a == [a[0]] + a[1..];
      assert b == [b[0]] + b[1..];
    }
  }

  function Min(a: int, b: int): int
  {
    if a <= b then a else b
  }

  function MinReal(a: real, b: real): real
  {
    if a <= b then a else b
  }

  function MaxReal(a: real, b: real): real
  {
    if a >= b then a else b
  }

  function Abs(x: real): real
  {
    if x < 0.0 then -x else x
  }

  /** The sequence read back to front. */
  function Reverse<T>(s: seq<T>): (r: seq<T>)
    ensures |r| == |s|
    ensures forall i :: 0 <= i < |s| ==> r[i] == s[|s| - 1 - i]
  {
    if |s| == 0 then [] else Reverse(s[1..]) + [s[0]]
  }

  /** pandas `DataFrame.head(n)` for a non-negative `n`. */
  function Head<T>(s: seq<T>, n: nat): seq<T>
  {
    s[..Min(n, |s|)]
  }

  /** pandas `DataFrame.tail(n)` for a non-negative `n`. */
  function Tail<T>(s: seq<T>, n: nat): seq<T>
  {
    s[|s| - Min(n, |s|)..]
  }

  /** Sums agree over sequences whose elements agree under `f`. */
  lemma {:induction false} SumByPointwise<T>(a: seq<T>, b: seq<T>, f: T -> real)
    requires |a| == |b|
    requires forall i :: 0 <= i < |a| ==> f(a[i]) == f(b[i])
    ensures SumBy(a, f) == SumBy(b, f)
  {
    if |a| > 0 {
      SumByPointwise(a[1..], b[1..], f);
    }
  }

  /** Nothing passes the filter when no element satisfies `p`. */
  lemma FilterNone<T>(s: seq<T>, p: T -> bool)
    requires forall i :: 0 <= i < |s| ==> !p(s[i])
    ensures Filter(s, p) == []
  {
    FilterMembers(s, p);
  }

  /** Everything passes the filter when every element satisfies `p`. */
  lemma {:induction false} FilterAll<T>(s: seq<T>, p: T -> bool)
    requires forall i :: 0 <= i < |s| ==> p(s[i])
    ensures Filter(s, p) == s
  {
    if |s| > 0 {
      FilterAll(s[1..], p);
    }
  }

  /** Filters that agree on the elements select the same elements. */
  lemma {:induction false} FilterCongruent<T>(s: seq<T>, p: T -> bool, q: T -> bool)
    requires forall i :: 0 <= i < |s| ==> p(s[i]) == q(s[i])
    ensures Filter(s, p) == Filter(s, q)
  {
    if |s| > 0 {
      FilterCongruent(s[1..], p, q);
    }
  }

  /** Filtering by `p` and then by `q` is filtering by their conjunction `r`. */
  lemma {:induction false} FilterTwice<T>(s: seq<T>, p: T -> bool, q: T -> bool, r: T -> bool)
    requires forall i :: 0 <= i < |s| ==> r(s[i]) == (p(s[i]) && q(s[i]))
    ensures Filter(Filter(s, p), q) == Filter(s, r)
  {
    if |s| > 0 {
      FilterTwice(s[1..], p, q, r);
    }
  }

  /** The last element kept is the one at `j` when `j` passes and nothing
      after it does. */
  lemma FilterLastAt<T>(s: seq<T>, p: T -> bool, j: int)
    requires 0 <= j < |s| && p(s[j])
    requires forall k :: j < k < |s| ==> !p(s[k])
    ensures |Filter(s, p)| > 0 && Filter(s, p)[|Filter(s, p)| - 1] == s[j]
  {
    assert s == s[..j] + [s[j]] + s[j + 1..];
    FilterAppend(s[..j] + [s[j]], s[j + 1..], p);
    FilterAppend(s[..j], [s[j]], p);
    FilterNone(s[j + 1..], p);
    assert Filter([s[j]], p) == [s[j]];
  }

  /** The last element kept sits after every other element that passes. */
  lemma {:induction false} FilterLastIndex<T>(s: seq<T>, p: T -> bool)
    requires |Filter(s, p)| > 0
    ensures exists j :: 0 <= j < |s| && s[j] == Filter(s, p)[|Filter(s, p)| - 1] && p(s[j])
                     && forall k :: j < k < |s| ==> !p(s[k])
  {
    var rest := s[1..];
    var f := Filter(rest, p);
    if |f| > 0 {
      FilterLastIndex(rest, p);
      var j :| 0 <= j < |rest| && rest[j] == f[|f| - 1] && p(rest[j])
             && forall k :: j < k < |rest| ==> !p(rest[k]);
      assert s[j + 1] == rest[j];
      assert forall k :: j + 1 < k < |s| ==> s[k] == rest[k - 1];
    } else {
      FilterMembers(rest, p);
      assert forall k :: 0 < k < |s| ==> s[k] == rest[k - 1] && s[k] in rest;
    }
  }

  /** The first element kept comes before every other element that passes. */
  lemma {:induction false} FilterFirstIndex<T>(s: seq<T>, p: T -> bool)
    requires |Filter(s, p)| > 0
    ensures exists j :: 0 <= j < |s| && s[j] == Filter(s, p)[0] && p(s[j])
                     && forall k :: 0 <= k < j ==> !p(s[k])
  {
    if !p(s[0]) {
      var rest := s[1..];
      FilterFirstIndex(rest, p);
      var j :| 0 <= j < |rest| && rest[j] == Filter(rest, p)[0] && p(rest[j])
             && forall k :: 0 <= k < j ==> !p(rest[k]);
      assert s[j + 1] == rest[j];
      assert forall k :: 0 < k < j + 1 ==> s[k] == rest[k - 1];
    }
  }
}

=== FILE: config.dfy ===
/**
 * `ConfigValidator` (src/config_validator.py): the checks a bot
 * configuration passes before the bot starts. The configuration is the
 * decoded JSON object, seen through the twenty keys the validator knows;
 * the checks run in five stages and the first one that fails decides the
 * error.
 */
module Config {
  import opened Common
  import opened Jsonl

  /** The keys of `required_fields`, in declaration order. */
  datatype Field =
    | TradingMode          // trading_mode
    | BinanceApiKey        // binance_api_key
    | BinanceApiSecret     // binance_api_secret
    | DeribitApiKey        // deribit_api_key
    | DeribitApiSecret     // deribit_api_secret
    | DailyRoiTarget       // daily_roi_target_for_exit
    | CallOptionName       // call_option_name
    | CallOptionSize       // call_option_size_base
    | CallOptionCost       // call_option_initial_cost_base
    | PutOptionName        // put_option_name
    | PutOptionCost        // put_option_initial_cost_base
    | PutOptionSize        // put_option_size_base
    | GridMaxOpenOrders    // grid_max_open_orders
    | GridLoopSleep        // grid_mode_loop_sleep
    | SpotEntryPrice       // spot_entry_price
    | SpotDownRange        // spot_down_range_percent
    | SpotUpRange          // spot_up_range_percent
    | SpotOrderSize        // spot_order_size_quote
    | SpotOrdersDiff       // spot_orders_diff_percent
    | SpotMarket           // spot_market

  /** The known keys of the configuration object and their values. */
  type Config = map<Field, Value>

  /** The Python type a field must be an instance of. */
  datatype FieldType = Str | Float | Int

  /** `required_fields`: the type of each field. */
  function TypeOf(f: Field): FieldType
  {
    match f
    case TradingMode | BinanceApiKey | BinanceApiSecret | DeribitApiKey | DeribitApiSecret
       | CallOptionName | PutOptionName | SpotMarket => Str
    case GridMaxOpenOrders => Int
    case _ => Float
  }

  /** `test_mode_optional_fields`: the credentials test mode may omit. */
  predicate IsCredential(f: Field)
  {
    f.BinanceApiKey? || f.BinanceApiSecret? || f.DeribitApiKey? || f.DeribitApiSecret?
  }

  /** The number of entries of `required_fields`. */
  const FieldCount: nat := 20

  /** `required_fields`, which is iterated in declaration order. */
  const Fields: seq<Field> := [TradingMode, BinanceApiKey, BinanceApiSecret, DeribitApiKey,
    DeribitApiSecret, DailyRoiTarget, CallOptionName, CallOptionSize, CallOptionCost,
    PutOptionName, PutOptionCost, PutOptionSize, GridMaxOpenOrders, GridLoopSleep,
    SpotEntryPrice, SpotDownRange, SpotUpRange, SpotOrderSize, SpotOrdersDiff, SpotMarket]

  /** The field at position `i` of `required_fields`. */
  function FieldAt(i: nat): Field
    requires i < FieldCount
  {
    Fields[i]
  }

  /** The position of a field in `required_fields`. */
  function Pos(f: Field): (i: nat)
    ensures i < FieldCount && FieldAt(i) == f
  {
    match f
    case TradingMode => 0 case BinanceApiKey => 1 case BinanceApiSecret => 2
    case DeribitApiKey => 3 case DeribitApiSecret => 4 case DailyRoiTarget => 5
    case CallOptionName => 6 case CallOptionSize => 7 case CallOptionCost => 8
    case PutOptionName => 9 case PutOptionCost => 10 case PutOptionSize => 11
    case GridMaxOpenOrders => 12 case GridLoopSleep => 13 case SpotEntryPrice => 14
    case SpotDownRange => 15 case SpotUpRange => 16 case SpotOrderSize => 17
    case SpotOrdersDiff => 18 case SpotMarket => 19
  }

  /** Each position holds a different field. */
  lemma PosOfFieldAt(i: nat)
    requires i < FieldCount
    ensures Pos(FieldAt(i)) == i
  {
  }

  /** The number of entries of `positive_fields`. */
  const PositiveCount: nat := 7

  /** `positive_fields` of `_validate_positive_values`, in order. */
  function PositiveField(i: nat): Field
    requires i < PositiveCount
  {
    if i == 0 then SpotEntryPrice else if i == 1 then SpotOrderSize
    else if i == 2 then CallOptionSize else if i == 3 then CallOptionCost
    else if i == 4 then PutOptionCost else if i == 5 then PutOptionSize
    else GridLoopSleep
  }

  predicate IsPositiveField(f: Field)
  {
    || f.SpotEntryPrice? || f.SpotOrderSize? || f.CallOptionSize? || f.CallOptionCost?
    || f.PutOptionCost? || f.PutOptionSize? || f.GridLoopSleep?
  }

  /** The position of a field in `positive_fields`. */
  function PositiveIndex(f: Field): (i: nat)
    requires IsPositiveField(f)
    ensures i < PositiveCount && PositiveField(i) == f
  {
    match f
    case SpotEntryPrice => 0 case SpotOrderSize => 1 case CallOptionSize => 2
    case CallOptionCost => 3 case PutOptionCost => 4 case PutOptionSize => 5
    case GridLoopSleep => 6
  }

  lemma PositiveIndexOf(i: nat)
    requires i < PositiveCount
    ensures IsPositiveField(PositiveField(i)) && PositiveIndex(PositiveField(i)) == i
  {
  }

  datatype ConfigError =
    | Missing(fields: seq<Field>)      // `Missing required configuration fields`
    | TypeErrors(fields: seq<Field>)   // `Type validation errors`, one per field
    | BadMode                          // `trading_mode must be one of ['test', 'live']`
    | OutOfRange(field: Field)         // the first range rule that fails
    | NotPositive(field: Field)        // the first positive value that is not

  /** `config.get(field)`. */
  function At(c: Config, f: Field): Value
  {
    if f in c then c[f] else JNull
  }

  predicate IsTestMode(c: Config)
  {
    At(c, TradingMode) == JStr("test")
  }

  /** `isinstance(v, t)` for a decoded JSON value: a JSON number with a
      fraction or exponent is a `float`, one without is an `int`, and
      `true`/`false` are `bool`, which is a subclass of `int`. */
  predicate HasType(v: Value, t: FieldType)
  {
    match t
    case Str => v.JStr?
    case Float => v.JFloat?
    case Int => v.JInt? || v.JBool?
  }

  /** The number Python compares: `True` is 1 and `False` 0. Other values
      never reach a comparison once the type stage has passed. */
  function Num(v: Value): real
  {
    match v
    case JInt(i) => i as real
    case JBool(b) => if b then 1.0 else 0.0
    case JFloat(r) => r
    case _ => 0.0
  }

  // ---------------------------------------------------------------------------
  // The five stages as the code runs them
  // ---------------------------------------------------------------------------

  /** Whether `_validate_required_fields` reports `f`. */
  predicate MissingIn(c: Config, f: Field)
  {
    f !in c && !(IsTestMode(c) && IsCredential(f))
  }

  /** Whether `_validate_field_types` reports `f`. */
  predicate WrongType(c: Config, f: Field)
  {
    f in c && !HasType(c[f], TypeOf(f))
  }

  /** A loop over `required_fields` from position `i` on, keeping the
      fields `keep` reports. */
  function Select(keep: Field -> bool, i: nat): seq<Field>
    requires i <= FieldCount
    decreases FieldCount - i
  {
    if i == FieldCount then []
    else (if keep(FieldAt(i)) then [FieldAt(i)] else []) + Select(keep, i + 1)
  }

  /** The fields `Select` keeps: those from position `i` on that `keep`
      reports. */
  lemma {:induction false} SelectMembers(keep: Field -> bool, i: nat)
    requires i <= FieldCount
    ensures forall f :: f in Select(keep, i) <==> i <= Pos(f) && keep(f)
    decreases FieldCount - i
  {
    if i < FieldCount {
      SelectMembers(keep, i + 1);
      var g := FieldAt(i);
      PosOfFieldAt(i);
      var m, rest := Select(keep, i), Select(keep, i + 1);
      var head := if keep(g) then [g] else [];
      assert m == head + rest;
      forall f
        ensures f in m <==> i <= Pos(f) && keep(f)
      {
        assert f in m <==> f in head || f in rest;
        assert f == g <==> Pos(f) == i;
      }
    }
  }

  /** Fields listed in increasing position of `required_fields`. */
  predicate InFieldOrder(s: seq<Field>)
  {
    forall a, b :: 0 <= a < b < |s| ==> Pos(s[a]) < Pos(s[b])
  }

  /** A field before every field of an ordered list keeps it ordered. */
  lemma PrependInFieldOrder(g: Field, rest: seq<Field>)
    requires InFieldOrder(rest)
    requires forall x :: x in rest ==> Pos(g) < Pos(x)
    ensures InFieldOrder([g] + rest)
  {
    var s := [g] + rest;
    forall a, b | 0 <= a < b < |s|
      ensures Pos(s[a]) < Pos(s[b])
    {
      assert s[b] == rest[b - 1] && rest[b - 1] in rest;
      if a > 0 {
        assert s[a] == rest[a - 1];
      }
    }
  }

  /** `Select` keeps the fields in increasing position. */
  lemma {:induction false} SelectOrdered(keep: Field -> bool, i: nat)
    requires i <= FieldCount
    ensures InFieldOrder(Select(keep, i))
    decreases FieldCount - i
  {
    if i < FieldCount {
      SelectOrdered(keep, i + 1);
      var rest := Select(keep, i + 1);
      if keep(FieldAt(i)) {
        SelectMembers(keep, i + 1);
        PosOfFieldAt(i);
        PrependInFieldOrder(FieldAt(i), rest);
      }
    }
  }

  /** Filters that agree on every field keep the same list. */
  lemma {:induction false} SelectAgree(keep: Field -> bool, other: Field -> bool, i: nat)
    requires i <= FieldCount
    requires forall f :: keep(f) == other(f)
    ensures Select(keep, i) == Select(other, i)
    decreases FieldCount - i
  {
    if i < FieldCount {
      SelectAgree(keep, other, i + 1);
    }
  }

  /** `_validate_required_fields`: the missing fields, in declaration order. */
  function MissingFields(c: Config): (m: seq<Field>)
    ensures forall f :: f in m <==> MissingIn(c, f)
    ensures forall a, b :: 0 <= a < b < |m| ==> Pos(m[a]) < Pos(m[b])
  {
    var keep := g => MissingIn(c, g);
    SelectMembers(keep, 0);
    SelectOrdered(keep, 0);
    assert forall g :: keep(g) == MissingIn(c, g);
    Select(keep, 0)
  }

  /** `_validate_field_types`: the present fields of the wrong type, in
      declaration order. */
  function TypeErrorFields(c: Config): (t: seq<Field>)
    ensures forall f :: f in t <==> WrongType(c, f)
    ensures forall a, b :: 0 <= a < b < |t| ==> Pos(t[a]) < Pos(t[b])
  {
    var keep := g => WrongType(c, g);
    SelectMembers(keep, 0);
    SelectOrdered(keep, 0);
    assert forall g :: keep(g) == WrongType(c, g);
    Select(keep, 0)
  }

  /** `_validate_ranges`: the first range rule that fails. */
  function RangeStage(c: Config): Option<Field>
  {
    var down := Num(At(c, SpotDownRange));
    var up := Num(At(c, SpotUpRange));
    if down <= 0.0 || down >= 100.0 then Some(SpotDownRange)
    else if up <= 0.0 || up >= 100.0 then Some(SpotUpRange)
    else if Num(At(c, SpotOrdersDiff)) <= 0.0 then Some(SpotOrdersDiff)
    else if Num(At(c, DailyRoiTarget)) <= 0.0 then Some(DailyRoiTarget)
    else None
  }

  /** The `field in config and config[field] <= 0` test, negated. */
  predicate PositiveAt(c: Config, f: Field)
  {
    f !in c || Num(c[f]) > 0.0
  }

  /** The position, from `i` on, of the first positive field present with
      a value at or below zero, or `PositiveCount` when there is none. */
  function FirstNonPositive(c: Config, i: nat): (k: nat)
    requires i <= PositiveCount
    ensures i <= k <= PositiveCount
    ensures forall j :: i <= j < k ==> PositiveAt(c, PositiveField(j))
    ensures k < PositiveCount ==> !PositiveAt(c, PositiveField(k))
    decreases PositiveCount - i
  {
    if i == PositiveCount then i
    else if !PositiveAt(c, PositiveField(i)) then i
    else FirstNonPositive(c, i + 1)
  }

  /** `_validate_positive_values`. */
  function PositiveStage(c: Config): Option<Field>
  {
    var k := FirstNonPositive(c, 0);
    if k < PositiveCount then Some(PositiveField(k))
    else if Num(At(c, GridMaxOpenOrders)) <= 0.0 then Some(GridMaxOpenOrders)
    else None
  }

  /** `validate_config` once the file is decoded: the stages in order, and
      the configuration itself when all pass. */
  function ValidateConfig(c: Config): (r: Result<Config, ConfigError>)
    ensures r.Ok? ==> r.value == c
  {
    var missing := MissingFields(c);
    var wrong := TypeErrorFields(c);
    if missing != [] then Err(Missing(missing))
    else if wrong != [] then Err(TypeErrors(wrong))
    else if At(c, TradingMode) != JStr("test") && At(c, TradingMode) != JStr("live") then Err(BadMode)
    else if RangeStage(c).Some? then Err(OutOfRange(RangeStage(c).value))
    else if PositiveStage(c).Some? then Err(NotPositive(PositiveStage(c).value))
    else Ok(c)
  }

  // ---------------------------------------------------------------------------
  // The rules, stated declaratively
  // ---------------------------------------------------------------------------

  /** Every field is present, test mode excusing the credentials. */
  predicate RequiredPresent(c: Config)
  {
    forall f: Field :: f in c || (IsTestMode(c) && IsCredential(f))
  }

  /** Every present field has its declared type. */
  predicate TypesOk(c: Config)
  {
    forall f :: f in c ==> HasType(c[f], TypeOf(f))
  }

  predicate ModeOk(c: Config)
  {
    At(c, TradingMode) == JStr("test") || At(c, TradingMode) == JStr("live")
  }

  predicate RangesOk(c: Config)
  {
    && 0.0 < Num(At(c, SpotDownRange)) < 100.0
    && 0.0 < Num(At(c, SpotUpRange)) < 100.0
    && Num(At(c, SpotOrdersDiff)) > 0.0
    && Num(At(c, DailyRoiTarget)) > 0.0
  }

  predicate PositivesOk(c: Config)
  {
    && (forall f :: IsPositiveField(f) && f in c ==> Num(c[f]) > 0.0)
    && Num(At(c, GridMaxOpenOrders)) > 0.0
  }

  /** Every rule of the validator holds. */
  predicate Valid(c: Config)
  {
    RequiredPresent(c) && TypesOk(c) && ModeOk(c) && RangesOk(c) && PositivesOk(c)
  }

  lemma PositiveStageOk(c: Config)
    ensures PositiveStage(c).None? <==> PositivesOk(c)
  {
    var k := FirstNonPositive(c, 0);
    if k == PositiveCount {
      forall f | IsPositiveField(f)
        ensures PositiveAt(c, f)
      {
        var i := PositiveIndex(f);
      }
    } else {
      PositiveIndexOf(k);
    }
  }

  lemma MissingStageOk(c: Config)
    ensures MissingFields(c) == [] <==> RequiredPresent(c)
  {
    var m := MissingFields(c);
    if m != [] {
      assert m[0] in m;
    }
    if !RequiredPresent(c) {
      var f: Field :| !(f in c || (IsTestMode(c) && IsCredential(f)));
      assert f in m;
    }
  }

  lemma TypeStageOk(c: Config)
    ensures TypeErrorFields(c) == [] <==> TypesOk(c)
  {
    var t := TypeErrorFields(c);
    if t != [] {
      assert t[0] in t;
    }
    if !TypesOk(c) {
      var f: Field :| f in c && !HasType(c[f], TypeOf(f));
      assert f in t;
    }
  }

  /** The five stages, each meaning its rule. */
  lemma StagesMeanRules(c: Config)
    ensures MissingFields(c) == [] <==> RequiredPresent(c)
    ensures TypeErrorFields(c) == [] <==> TypesOk(c)
    ensures RangeStage(c).None? <==> RangesOk(c)
    ensures PositiveStage(c).None? <==> PositivesOk(c)
  {
    MissingStageOk(c);
    TypeStageOk(c);
    PositiveStageOk(c);
  }

  /** The validator accepts exactly the configurations that meet every rule,
      and then returns the configuration unchanged. */
  lemma ValidateConfigOk(c: Config)
    ensures ValidateConfig(c).Ok? <==> Valid(c)
    ensures ValidateConfig(c).Ok? ==> ValidateConfig(c).value == c
  {
    StagesMeanRules(c);
  }

  /** The first stage whose rule fails decides the error. */
  lemma FirstFailingStage(c: Config)
    ensures var r := ValidateConfig(c);
      && (r.Err? && r.error.Missing? <==> !RequiredPresent(c))
      && (r.Err? && r.error.TypeErrors? <==> RequiredPresent(c) && !TypesOk(c))
      && (r.Err? && r.error.BadMode? <==> RequiredPresent(c) && TypesOk(c) && !ModeOk(c))
      && (r.Err? && r.error.OutOfRange? <==> RequiredPresent(c) && TypesOk(c) && ModeOk(c) && !RangesOk(c))
      && (r.Err? && r.error.NotPositive? <==>
            RequiredPresent(c) && TypesOk(c) && ModeOk(c) && RangesOk(c) && !PositivesOk(c))
  {
    StagesMeanRules(c);
    var m, w := MissingFields(c), TypeErrorFields(c);
    if m != [] {
      assert ValidateConfig(c) == Err(Missing(m));
    } else if w != [] {
      assert ValidateConfig(c) == Err(TypeErrors(w));
    } else if !ModeOk(c) {
      assert ValidateConfig(c) == Err(BadMode);
    } else if RangeStage(c).Some? {
      assert ValidateConfig(c) == Err(OutOfRange(RangeStage(c).value));
    } else if PositiveStage(c).Some? {
      assert ValidateConfig(c) == Err(NotPositive(PositiveStage(c).value));
    } else {
      assert ValidateConfig(c) == Ok(c);
    }
  }

  /** The missing-fields error lists exactly the absent fields that test
      mode does not excuse. */
  lemma MissingErrorLists(c: Config, f: Field)
    requires ValidateConfig(c).Err? && ValidateConfig(c).error.Missing?
    ensures f in ValidateConfig(c).error.fields <==> f !in c && !(IsTestMode(c) && IsCredential(f))
  {
    var m := MissingFields(c);
    assert ValidateConfig(c) == Err(Missing(m));
    assert f in m <==> MissingIn(c, f);
  }

  /** The type error lists exactly the present fields of the wrong type,
      and is reported only when no field is missing. */
  lemma TypeErrorLists(c: Config, f: Field)
    requires ValidateConfig(c).Err? && ValidateConfig(c).error.TypeErrors?
    ensures RequiredPresent(c)
    ensures f in ValidateConfig(c).error.fields <==> f in c && !HasType(c[f], TypeOf(f))
  {
    TypeErrorsFromStage(c);
    MissingStageOk(c);
    assert f in TypeErrorFields(c) <==> WrongType(c, f);
  }

  /** A type error comes from the type stage after an empty missing stage. */
  lemma TypeErrorsFromStage(c: Config)
    requires ValidateConfig(c).Err? && ValidateConfig(c).error.TypeErrors?
    ensures MissingFields(c) == [] && ValidateConfig(c).error.fields == TypeErrorFields(c)
  {
    var m, w := MissingFields(c), TypeErrorFields(c);
    if m != [] || w == [] {
      assert false;
    }
    assert ValidateConfig(c) == Err(TypeErrors(w));
  }

  /** A range error names the first rule, in order, that fails. */
  lemma RangeErrorNamesFirst(c: Config)
    requires ValidateConfig(c).Err? && ValidateConfig(c).error.OutOfRange?
    ensures var f := ValidateConfig(c).error.field;
      var down := Num(At(c, SpotDownRange));
      var up := Num(At(c, SpotUpRange));
      && (f == SpotDownRange <==> !(0.0 < down < 100.0))
      && (f == SpotUpRange <==> 0.0 < down < 100.0 && !(0.0 < up < 100.0))
      && (f == SpotOrdersDiff <==>
            0.0 < down < 100.0 && 0.0 < up < 100.0 && Num(At(c, SpotOrdersDiff)) <= 0.0)
      && (f == DailyRoiTarget <==>
            0.0 < down < 100.0 && 0.0 < up < 100.0 && Num(At(c, SpotOrdersDiff)) > 0.0)
  {
    var f := ValidateConfig(c).error.field;
    assert RangeStage(c) == Some(f);
    RangeStageNamesFirst(c);
  }

  /** The rule `_validate_ranges` reports is the first, in order, that fails. */
  lemma RangeStageNamesFirst(c: Config)
    requires RangeStage(c).Some?
    ensures var f := RangeStage(c).value;
      var down := Num(At(c, SpotDownRange));
      var up := Num(At(c, SpotUpRange));
      && (f == SpotDownRange <==> !(0.0 < down < 100.0))
      && (f == SpotUpRange <==> 0.0 < down < 100.0 && !(0.0 < up < 100.0))
      && (f == SpotOrdersDiff <==>
            0.0 < down < 100.0 && 0.0 < up < 100.0 && Num(At(c, SpotOrdersDiff)) <= 0.0)
      && (f == DailyRoiTarget <==>
            0.0 < down < 100.0 && 0.0 < up < 100.0 && Num(At(c, SpotOrdersDiff)) > 0.0)
  {
  }

  /** A positivity error names a field at or below zero, every listed field
      before it being positive; `grid_max_open_orders` only once all
      listed fields are. */
  lemma NotPositiveNamesFirst(c: Config)
    requires ValidateConfig(c).Err? && ValidateConfig(c).error.NotPositive?
    ensures var f := ValidateConfig(c).error.field;
      && (IsPositiveField(f) || f == GridMaxOpenOrders)
      && Num(At(c, f)) <= 0.0
      && (IsPositiveField(f) ==> forall j :: 0 <= j < PositiveIndex(f) ==> PositiveAt(c, PositiveField(j)))
      && (f == GridMaxOpenOrders ==> forall g :: IsPositiveField(g) && g in c ==> Num(c[g]) > 0.0)
  {
    var f := ValidateConfig(c).error.field;
    assert PositiveStage(c) == Some(f);
    PositiveStageNamesFirst(c);
  }

  /** The field `_validate_positive_values` reports is the first failing one. */
  lemma PositiveStageNamesFirst(c: Config)
    requires PositiveStage(c).Some?
    ensures var f := PositiveStage(c).value;
      && (IsPositiveField(f) || f == GridMaxOpenOrders)
      && Num(At(c, f)) <= 0.0
      && (IsPositiveField(f) ==> forall j :: 0 <= j < PositiveIndex(f) ==> PositiveAt(c, PositiveField(j)))
      && (f == GridMaxOpenOrders ==> forall g :: IsPositiveField(g) && g in c ==> Num(c[g]) > 0.0)
  {
    var k := FirstNonPositive(c, 0);
    if k < PositiveCount {
      PositiveIndexOf(k);
    } else {
      PositiveStageOk(c);
    }
  }

  /** A field declared `float` given as a JSON integer is a type error, even
      when its value is fine. */
  lemma FloatGivenAsInt(c: Config, f: Field, n: int)
    requires TypeOf(f) == Float
    requires RequiredPresent(c)
    requires f in c && c[f] == JInt(n)
    ensures ValidateConfig(c).Err? && ValidateConfig(c).error.TypeErrors?
    ensures f in ValidateConfig(c).error.fields
  {
    StagesMeanRules(c);
  }

  /** `true` passes the `int` check and counts as 1, so it is an accepted
      `grid_max_open_orders`; `false` passes the type check and fails the
      positivity one. */
  lemma BoolPassesIntCheck(c: Config, b: bool)
    requires GridMaxOpenOrders in c && c[GridMaxOpenOrders] == JBool(b)
    ensures GridMaxOpenOrders !in TypeErrorFields(c)
    ensures Num(At(c, GridMaxOpenOrders)) > 0.0 <==> b
  {
  }

  /** In test mode the credentials are optional: dropping them never adds a
      missing field. */
  lemma CredentialsOptionalInTest(c: Config)
    requires IsTestMode(c)
    ensures MissingFields(c - {BinanceApiKey, BinanceApiSecret, DeribitApiKey, DeribitApiSecret}) == MissingFields(c)
  {
    var d := c - {BinanceApiKey, BinanceApiSecret, DeribitApiKey, DeribitApiSecret};
    assert IsTestMode(d);
    SelectAgree(f => MissingIn(d, f), f => MissingIn(c, f), 0);
  }

  /** In live mode an absent credential is a missing field, reported before
      any other check. */
  lemma CredentialsRequiredInLive(c: Config, f: Field)
    requires At(c, TradingMode) == JStr("live")
    requires IsCredential(f) && f !in c
    ensures ValidateConfig(c).Err? && ValidateConfig(c).error.Missing?
    ensures f in ValidateConfig(c).error.fields
  {
    assert MissingIn(c, f);
  }
}

=== FILE: fifo.dfy ===
/**
 * `Calculator.calculate_spot_realized_pnl` (src/helpers/calculators.py):
 * realised PnL by first-in-first-out lot matching. Buys open lots at the
 * back of a queue; a sell closes lots from the front, realising the sell
 * price less the lot price on each matched quantity; sell quantity beyond
 * the open lots is ignored.
 */
module Fifo {
  import opened Common
  import opened Sorting
  import opened Trades

  /** An open buy lot `[quantity, price]`. */
  datatype Lot = Lot(quantity: real, price: real)

  /** The matcher after some trades: the open lots, oldest first, and the
      realised PnL. `excess` and `excessValue` account for the sell quantity
      no lot was left to match, and what it was sold for; the source drops
      that quantity, and so does `pnl`. */
  datatype FifoState = FifoState(lots: seq<Lot>, pnl: real, excess: real, excessValue: real)

  /** What closing one sell against the lots leaves: the lots, the PnL the
      sell realised and the quantity it could not close. */
  datatype CloseResult = CloseResult(lots: seq<Lot>, pnl: real, unclosed: real)

  /** `quantity` valued at `price`. */
  function Value(quantity: real, price: real): real
  {
    quantity * price
  }

  /** `(price - open_price) * matched_qty`. */
  function Gain(sellPrice: real, lotPrice: real, matched: real): real
  {
    (sellPrice - lotPrice) * matched
  }

  /** The inner `while qty_to_close > 0 and open_positions` loop: match the
      oldest lot, reduce it, and drop it once it reaches zero. */
  function Close(lots: seq<Lot>, qty: real, price: real): CloseResult
    decreases |lots|, if qty > 0.0 then 1 else 0
  {
    if qty <= 0.0 || |lots| == 0 then CloseResult(lots, 0.0, qty)
    else
      var m := MinReal(lots[0].quantity, qty);
      var left := lots[0].quantity - m;
      var next := if left == 0.0 then lots[1..] else [Lot(left, lots[0].price)] + lots[1..];
      var rest := Close(next, qty - m, price);
      CloseResult(rest.lots, Gain(price, lots[0].price, m) + rest.pnl, rest.unclosed)
  }

  /** One iteration of `for trade in trades`; a side that is neither buy nor
      sell changes nothing. */
  function Step(s: FifoState, t: Trade): FifoState
  {
    if IsBuy(t) then s.(lots := s.lots + [Lot(t.quantity, t.price)])
    else if IsSell(t) then
      var c := Close(s.lots, t.quantity, t.price);
      FifoState(c.lots, s.pnl + c.pnl, s.excess + c.unclosed, s.excessValue + Value(c.unclosed, t.price))
    else s
  }

  /** The matcher after the trades, in the given order. */
  function Run(trades: seq<Trade>): FifoState
    decreases |trades|
  {
    if |trades| == 0 then FifoState([], 0.0, 0.0, 0.0)
    else Step(Run(trades[..|trades| - 1]), trades[|trades| - 1])
  }

  /** The whole function: 0 for no trades, otherwise the matcher run over
      the trades in timestamp order. */
  function FifoPnl(trades: seq<Trade>): real
  {
    if |trades| == 0 then 0.0 else Run(Sort(trades, TimestampLe)).pnl
  }

  function LotQuantity(l: Lot): real
  {
    l.quantity
  }

  function LotValue(l: Lot): real
  {
    Value(l.quantity, l.price)
  }

  predicate PositiveLots(lots: seq<Lot>)
  {
    forall i :: 0 <= i < |lots| ==> lots[i].quantity > 0.0
  }

  predicate PositiveQuantities(trades: seq<Trade>)
  {
    forall i :: 0 <= i < |trades| ==> trades[i].quantity > 0.0
  }

  /** The lots `after` a sell are the newest lots of `before`, except that
      the oldest of them may have been partly consumed. */
  predicate OldestConsumedFirst(before: seq<Lot>, after: seq<Lot>)
  {
    && |after| <= |before|
    && var k := |before| - |after|;
    || after == before[k..]
    || (&& |after| > 0 && after[1..] == before[k + 1..]
        && after[0].price == before[k].price
        && after[0].quantity < before[k].quantity)
  }

  // ---------------------------------------------------------------------------
  // One sell
  // ---------------------------------------------------------------------------

  /** Closing a sell of `qty` against positive lots: it closes at most `qty`,
      only the oldest lots are consumed, the lots stay positive, the open
      quantity falls by what was matched, the PnL is the matched quantity at
      the sell price less what those lots cost, and quantity is left
      unclosed only once every lot is gone. */
  lemma CloseSpec(lots: seq<Lot>, qty: real, price: real)
    requires PositiveLots(lots) && qty >= 0.0
    ensures var c := Close(lots, qty, price);
      && 0.0 <= c.unclosed <= qty
      && PositiveLots(c.lots)
      && OldestConsumedFirst(lots, c.lots)
      && SumBy(c.lots, LotQuantity) == SumBy(lots, LotQuantity) - (qty - c.unclosed)
      && c.pnl == Value(qty - c.unclosed, price) - (SumBy(lots, LotValue) - SumBy(c.lots, LotValue))
      && (c.unclosed > 0.0 ==> c.lots == [])
  {
    CloseShape(lots, qty, price);
    CloseQuantity(lots, qty, price);
    CloseValue(lots, qty, price);
  }

  /** The first iteration of the loop, with its quantities named. */
  lemma CloseStep(lots: seq<Lot>, qty: real, price: real, m: real, left: real, next: seq<Lot>)
    requires qty > 0.0 && |lots| > 0
    requires m == MinReal(lots[0].quantity, qty) && left == lots[0].quantity - m
    requires next == if left == 0.0 then lots[1..] else [Lot(left, lots[0].price)] + lots[1..]
    ensures var rest := Close(next, qty - m, price);
      Close(lots, qty, price) == CloseResult(rest.lots, Gain(price, lots[0].price, m) + rest.pnl, rest.unclosed)
  {
  }

  /** What closing leaves of `qty` and of the lots. */
  lemma {:induction false} CloseShape(lots: seq<Lot>, qty: real, price: real)
    requires PositiveLots(lots) && qty >= 0.0
    ensures var c := Close(lots, qty, price);
      && 0.0 <= c.unclosed <= qty
      && PositiveLots(c.lots)
      && OldestConsumedFirst(lots, c.lots)
      && (c.unclosed > 0.0 ==> c.lots == [])
    decreases |lots|, if qty > 0.0 then 1 else 0
  {
    if qty > 0.0 && |lots| > 0 {
      var m := MinReal(lots[0].quantity, qty);
      var left := lots[0].quantity - m;
      var next := if left == 0.0 then lots[1..] else [Lot(left, lots[0].price)] + lots[1..];
      CloseStep(lots, qty, price, m, left, next);
      CloseShape(next, qty - m, price);
      ConsumedFirstStep(lots, next, Close(next, qty - m, price).lots, left);
    }
  }

  /** Closing lowers the open quantity by exactly what it matched. */
  lemma {:induction false} CloseQuantity(lots: seq<Lot>, qty: real, price: real)
    ensures var c := Close(lots, qty, price);
      SumBy(c.lots, LotQuantity) == SumBy(lots, LotQuantity) - (qty - c.unclosed)
    decreases |lots|, if qty > 0.0 then 1 else 0
  {
    if qty > 0.0 && |lots| > 0 {
      var m := MinReal(lots[0].quantity, qty);
      var left := lots[0].quantity - m;
      var next := if left == 0.0 then lots[1..] else [Lot(left, lots[0].price)] + lots[1..];
      CloseStep(lots, qty, price, m, left, next);
      CloseQuantity(next, qty - m, price);
      assert lots == [lots[0]] + lots[1..];
      SumByAppend([lots[0]], lots[1..], LotQuantity);
      if left != 0.0 {
        SumByAppend([Lot(left, lots[0].price)], lots[1..], LotQuantity);
      }
    }
  }

  /** Closing realises the matched quantity at the sell price less what the
      consumed lot quantity had cost. */
  lemma {:induction false} CloseValue(lots: seq<Lot>, qty: real, price: real)
    ensures var c := Close(lots, qty, price);
      c.pnl == Value(qty - c.unclosed, price) - (SumBy(lots, LotValue) - SumBy(c.lots, LotValue))
    decreases |lots|, if qty > 0.0 then 1 else 0
  {
    if qty > 0.0 && |lots| > 0 {
      var m := MinReal(lots[0].quantity, qty);
      var left := lots[0].quantity - m;
      var next := if left == 0.0 then lots[1..] else [Lot(left, lots[0].price)] + lots[1..];
      CloseStep(lots, qty, price, m, left, next);
      CloseValue(next, qty - m, price);
      var rest := Close(next, qty - m, price);
      ConsumedValue(lots, m, left, next);
      GainSplit(price, lots[0].price, m);
      ValueSub(qty - rest.unclosed, qty - m - rest.unclosed, price);
    } else {
      assert Value(0.0, price) == 0.0;
    }
  }

  /** Matching `m` from the oldest lot removes `m` at that lot's price from
      the value of the lots. */
  lemma ConsumedValue(lots: seq<Lot>, m: real, left: real, next: seq<Lot>)
    requires |lots| > 0 && left == lots[0].quantity - m
    requires next == if left == 0.0 then lots[1..] else [Lot(left, lots[0].price)] + lots[1..]
    ensures SumBy(lots, LotValue) - SumBy(next, LotValue) == Value(m, lots[0].price)
  {
    assert lots == [lots[0]] + lots[1..];
    SumByAppend([lots[0]], lots[1..], LotValue);
    if left != 0.0 {
      SumByAppend([Lot(left, lots[0].price)], lots[1..], LotValue);
      ValueSub(lots[0].quantity, left, lots[0].price);
    }
  }

  /** One more step of consumption keeps the lots a consumed-first suffix. */
  lemma ConsumedFirstStep(lots: seq<Lot>, next: seq<Lot>, after: seq<Lot>, left: real)
    requires |lots| > 0 && 0.0 <= left < lots[0].quantity
    requires next == if left == 0.0 then lots[1..] else [Lot(left, lots[0].price)] + lots[1..]
    requires OldestConsumedFirst(next, after)
    requires left != 0.0 ==> after == next
    ensures OldestConsumedFirst(lots, after)
  {
    if left != 0.0 {
      assert after[1..] == lots[1..];
    } else {
      var k := |next| - |after|;
      assert lots[1..][k..] == lots[k + 1..];
      if after != next[k..] {
        assert lots[1..][k + 1..] == lots[k + 2..];
      }
    }
  }

  lemma GainSplit(sellPrice: real, lotPrice: real, m: real)
    ensures Gain(sellPrice, lotPrice, m) == Value(m, sellPrice) - Value(m, lotPrice)
  {
  }

  lemma ValueSub(a: real, b: real, p: real)
    ensures Value(a, p) - Value(b, p) == Value(a - b, p)
  {
  }

  /** A sell that meets no open lot realises nothing; all of it is excess. */
  lemma SellWithoutLots(s: FifoState, t: Trade)
    requires s.lots == [] && IsSell(t) && t.quantity > 0.0
    ensures Step(s, t).pnl == s.pnl && Step(s, t).lots == []
    ensures Step(s, t).excess == s.excess + t.quantity
  {
  }

  /** A sell that the oldest lot covers only reduces that lot and realises
      the difference in price on the whole quantity. */
  lemma SellWithinOldestLot(lots: seq<Lot>, qty: real, price: real)
    requires |lots| > 0 && 0.0 < qty < lots[0].quantity
    ensures Close(lots, qty, price)
         == CloseResult([Lot(lots[0].quantity - qty, lots[0].price)] + lots[1..], (price - lots[0].price) * qty, 0.0)
  {
    var next := [Lot(lots[0].quantity - qty, lots[0].price)] + lots[1..];
    assert Close(next, 0.0, price) == CloseResult(next, 0.0, 0.0);
  }

  // ---------------------------------------------------------------------------
  // The whole run
  // ---------------------------------------------------------------------------

  /** What the matcher keeps true over any prefix of positive-quantity
      trades: the lots are positive; the open quantity is what was bought
      less what was matched (sold less excess); and the PnL is the matched
      sales less the cost of the lots no longer open. */
  ghost predicate FifoInvariant(s: FifoState, trades: seq<Trade>)
  {
    InvariantAt(s, TotalsOf(trades))
  }

  lemma {:induction false} RunInvariant(trades: seq<Trade>)
    requires PositiveQuantities(trades)
    ensures FifoInvariant(Run(trades), trades)
  {
    if |trades| > 0 {
      var n := |trades| - 1;
      var p := trades[..n];
      assert trades == p + [trades[n]];
      RunInvariant(p);
      StepInvariant(Run(p), p, trades[n]);
    }
  }

  /** One trade keeps the invariant. */
  lemma StepInvariant(s: FifoState, p: seq<Trade>, t: Trade)
    requires FifoInvariant(s, p) && t.quantity > 0.0
    ensures FifoInvariant(Step(s, t), p + [t])
  {
    SumBySnoc(p, t, BuyBaseOf);
    SumBySnoc(p, t, BuyQuoteOf);
    SumBySnoc(p, t, SellBaseOf);
    SumBySnoc(p, t, SellQuoteOf);
    if IsBuy(t) {
      assert !IsSell(t);
      BuyInvariant(s, TotalsOf(p), TotalsOf(p + [t]), t);
    } else if IsSell(t) {
      SellInvariant(s, TotalsOf(p), TotalsOf(p + [t]), t);
    }
  }

  /** The invariant over the totals `t` of the trades seen so far. */
  predicate InvariantAt(s: FifoState, t: Totals)
  {
    && PositiveLots(s.lots)
    && 0.0 <= s.excess <= t.sellBase
    && (s.excess == 0.0 ==> s.excessValue == 0.0)
    && SumBy(s.lots, LotQuantity) == t.buyBase - (t.sellBase - s.excess)
    && s.pnl == (t.sellQuote - s.excessValue) - (t.buyQuote - SumBy(s.lots, LotValue))
  }

  lemma BuyInvariant(s: FifoState, before: Totals, after: Totals, t: Trade)
    requires InvariantAt(s, before) && t.quantity > 0.0 && IsBuy(t)
    requires after == Totals(before.buyBase + t.quantity, before.buyQuote + Notional(t),
                             before.sellBase, before.sellQuote)
    ensures InvariantAt(Step(s, t), after)
  {
    var lot := Lot(t.quantity, t.price);
    SumBySnoc(s.lots, lot, LotQuantity);
    SumBySnoc(s.lots, lot, LotValue);
  }

  lemma SellInvariant(s: FifoState, before: Totals, after: Totals, t: Trade)
    requires InvariantAt(s, before) && t.quantity > 0.0 && IsSell(t)
    requires after == Totals(before.buyBase, before.buyQuote,
                             before.sellBase + t.quantity, before.sellQuote + Notional(t))
    ensures InvariantAt(Step(s, t), after)
  {
    SellKeepsQuantities(s, before, after, t);
    SellKeepsPnl(s, before, after, t);
  }

  /** The lot, excess and open-quantity clauses after a sell. */
  lemma SellKeepsQuantities(s: FifoState, before: Totals, after: Totals, t: Trade)
    requires InvariantAt(s, before) && t.quantity > 0.0 && IsSell(t)
    requires after.buyBase == before.buyBase && after.sellBase == before.sellBase + t.quantity
    ensures var n := Step(s, t);
      && PositiveLots(n.lots)
      && 0.0 <= n.excess <= after.sellBase
      && (n.excess == 0.0 ==> n.excessValue == 0.0)
      && SumBy(n.lots, LotQuantity) == after.buyBase - (after.sellBase - n.excess)
  {
    CloseSpec(s.lots, t.quantity, t.price);
    var c := Close(s.lots, t.quantity, t.price);
    var n := Step(s, t);
    assert n == FifoState(c.lots, s.pnl + c.pnl, s.excess + c.unclosed, s.excessValue + Value(c.unclosed, t.price));
    if n.excess == 0.0 {
      assert c.unclosed == 0.0 && s.excess == 0.0;
      assert Value(0.0, t.price) == 0.0;
    }
  }

  /** The PnL clause after a sell. */
  lemma SellKeepsPnl(s: FifoState, before: Totals, after: Totals, t: Trade)
    requires InvariantAt(s, before) && t.quantity > 0.0 && IsSell(t)
    requires after.buyQuote == before.buyQuote && after.sellQuote == before.sellQuote + Notional(t)
    ensures var n := Step(s, t);
      n.pnl == (after.sellQuote - n.excessValue) - (after.buyQuote - SumBy(n.lots, LotValue))
  {
    CloseValue(s.lots, t.quantity, t.price);
    var c := Close(s.lots, t.quantity, t.price);
    var q, u, p := t.quantity, c.unclosed, t.price;
    var n := Step(s, t);
    assert n.pnl == s.pnl + c.pnl && n.excessValue == s.excessValue + Value(u, p) && n.lots == c.lots;
    MatchedValue(t, u);
    PnlAfterSell(s.pnl, before.sellQuote, s.excessValue, before.buyQuote, SumBy(s.lots, LotValue),
                 SumBy(c.lots, LotValue), c.pnl, Value(q - u, p), Notional(t), Value(u, p));
  }

  /** The value of the matched part of a sell is its notional less the
      value of the unmatched part. */
  lemma MatchedValue(t: Trade, u: real)
    ensures Value(t.quantity - u, t.price) == Notional(t) - Value(u, t.price)
  {
    ValueSub(t.quantity, u, t.price);
  }

  /** The bookkeeping of `SellInvariant`'s PnL clause, over the amounts as
      plain numbers: the gain on the matched part is the notional less the
      value of the unmatched part. */
  lemma PnlAfterSell(pnl: real, sold: real, excessValue: real, bought: real, openValue: real,
                     leftValue: real, gain: real, matchedValue: real, notional: real, unmatchedValue: real)
    requires pnl == (sold - excessValue) - (bought - openValue)
    requires gain == matchedValue - (openValue - leftValue)
    requires notional - unmatchedValue == matchedValue
    ensures pnl + gain == (sold + notional - (excessValue + unmatchedValue)) - (bought - leftValue)
  {
  }

  /** The open quantity equals bought minus matched, and the matched
      quantity is bounded by both what was bought and what was sold. */
  lemma MatchedBounds(trades: seq<Trade>)
    requires PositiveQuantities(trades)
    ensures var s := Run(trades); var t := TotalsOf(trades);
      var matched := t.sellBase - s.excess;
      && 0.0 <= matched <= t.sellBase
      && matched <= t.buyBase
      && SumBy(s.lots, LotQuantity) == t.buyBase - matched
      && PositiveLots(s.lots)
  {
    RunInvariant(trades);
    var s := Run(trades);
    SumByNonNegative(s.lots, LotQuantity);
  }

  /** When every sell was covered and the sells closed every lot, the FIFO
      PnL is the sale proceeds less the purchase cost. */
  lemma FullCover(trades: seq<Trade>)
    requires PositiveQuantities(trades)
    requires Run(trades).lots == [] && Run(trades).excess == 0.0
    ensures Run(trades).pnl == TotalsOf(trades).sellQuote - TotalsOf(trades).buyQuote
    ensures TotalsOf(trades).buyBase == TotalsOf(trades).sellBase
  {
    RunInvariant(trades);
  }

  /** The timestamp sort keeps the multiset of trades, hence positivity. */
  lemma SortedPositive(trades: seq<Trade>)
    requires PositiveQuantities(trades)
    ensures PositiveQuantities(Sort(trades, TimestampLe))
  {
    var s := Sort(trades, TimestampLe);
    forall i | 0 <= i < |s|
      ensures s[i].quantity > 0.0
    {
      assert s[i] in multiset(trades);
    }
  }

  /** With everything matched, FIFO and the average-cost formula of the bot
      agree. */
  lemma FifoMatchesAvgCost(trades: seq<Trade>)
    requires PositiveQuantities(trades)
    requires Run(Sort(trades, TimestampLe)).lots == [] && Run(Sort(trades, TimestampLe)).excess == 0.0
    ensures FifoPnl(trades) == AvgCostPnl(trades)
  {
    var s := Sort(trades, TimestampLe);
    SortedPositive(trades);
    FullCover(s);
    TotalsPermutation(s, trades);
    var t := TotalsOf(trades);
    if t.buyBase == 0.0 {
      NoBaseNoQuote(trades, BuyBaseOf, BuyQuoteOf);
      NoBaseNoQuote(trades, SellBaseOf, SellQuoteOf);
      AvgCostUnsorted(trades);
    } else {
      AvgCostBalanced(trades);
    }
  }

  /** A sum of non-negative base terms that is zero forces every matching
      quote term, which vanishes with its base term, to zero as well. */
  lemma {:induction false} NoBaseNoQuote(trades: seq<Trade>, base: Trade -> real, quote: Trade -> real)
    requires forall i :: 0 <= i < |trades| ==> base(trades[i]) >= 0.0
    requires forall i :: 0 <= i < |trades| ==> base(trades[i]) == 0.0 ==> quote(trades[i]) == 0.0
    requires SumBy(trades, base) == 0.0
    ensures SumBy(trades, quote) == 0.0
  {
    if |trades| > 0 {
      var rest := trades[1..];
      assert forall i :: 0 <= i < |rest| ==> rest[i] == trades[i + 1];
      SumByNonNegative(rest, base);
      NoBaseNoQuote(rest, base, quote);
    }
  }

  /** The result depends only on the timestamp-sorted trades. */
  lemma FifoSortedInput(trades: seq<Trade>)
    ensures FifoPnl(Sort(trades, TimestampLe)) == FifoPnl(trades)
  {
    TimestampLeTotalPreorder();
    SortIdempotent(trades, TimestampLe);
  }

  predicate IsBuyOrSell(t: Trade)
  {
    IsBuy(t) || IsSell(t)
  }

  /** Trades of any other side are skipped without effect. */
  lemma {:induction false} RunSkipsOtherSides(trades: seq<Trade>)
    ensures Run(Filter(trades, IsBuyOrSell)) == Run(trades)
  {
    if |trades| > 0 {
      var n := |trades| - 1;
      var p := trades[..n];
      var t := trades[n];
      assert trades == p + [t];
      RunSkipsOtherSides(p);
      FilterAppend(p, [t], IsBuyOrSell);
      var f := Filter(p, IsBuyOrSell);
      if IsBuyOrSell(t) {
        assert Filter([t], IsBuyOrSell) == [t];
        assert (f + [t])[..|f|] == f;
      } else {
        assert Filter([t], IsBuyOrSell) == [];
        assert f + [] == f;
      }
    }
  }

  lemma FifoSkipsOtherSides(trades: seq<Trade>)
    ensures FifoPnl(Filter(trades, IsBuyOrSell)) == FifoPnl(trades)
  {
    TimestampLeTotalPreorder();
    SortFilter(trades, TimestampLe, IsBuyOrSell);
    RunSkipsOtherSides(Sort(trades, TimestampLe));
  }
}

=== FILE: grid.dfy ===
/**
 * The grid ladder builder (`GridCalculator` in src/grid_calculator.py).
 *
 * Prices and sizes are exact reals: the source's `Decimal(str(x))`
 * conversion is treated as exact. The downward price walk is carried out
 * on integer tick counts `k`, the level price being `k * priceTick`;
 * `NextPriceStep` shows that this is the source's real-valued step.
 */
module Grid {
  import opened Common
  import opened Sorting

  // ---------------------------------------------------------------------------
  // Tick rounding
  // ---------------------------------------------------------------------------

  /** `Decimal.to_integral_value(rounding=ROUND_HALF_UP)`: the nearest
      integer, halves rounded away from zero. */
  function RoundHalfUp(x: real): int
  {
    if x >= 0.0 then (x + 0.5).Floor else -((-x + 0.5).Floor)
  }

  /** The rounded integer lies within half a unit of `x`, a tie going to the
      integer farther from zero. */
  lemma RoundHalfUpBounds(x: real)
    ensures x >= 0.0 ==> x - 0.5 < RoundHalfUp(x) as real <= x + 0.5
    ensures x < 0.0 ==> x - 0.5 <= RoundHalfUp(x) as real < x + 0.5
  {
  }

  /** The bounds above pin the rounded integer down uniquely. */
  lemma RoundHalfUpUnique(x: real, k: int)
    requires x >= 0.0 ==> x - 0.5 < k as real <= x + 0.5
    requires x < 0.0 ==> x - 0.5 <= k as real < x + 0.5
    ensures RoundHalfUp(x) == k
  {
    RoundHalfUpBounds(x);
  }

  /** `round_to_tick(value, tick)`: `value` rounded half-up to a multiple of `tick`. */
  function RoundToTick(v: real, t: real): real
    requires t != 0.0
  {
    RoundHalfUp(v / t) as real * t
  }

  /** For a positive tick the result is within half a tick of `v`. */
  lemma RoundToTickBounds(v: real, t: real)
    requires t > 0.0
    ensures v >= 0.0 ==> v - t / 2.0 < RoundToTick(v, t) <= v + t / 2.0
    ensures v < 0.0 ==> v - t / 2.0 <= RoundToTick(v, t) < v + t / 2.0
  {
    RoundHalfUpBounds(v / t);
    DivMul(v, t);
    ScaledRounding(v, t, v / t, RoundHalfUp(v / t));
  }

  /** Rounding `x = v / t` to `k` puts `k * t` within half a tick of `v`. */
  lemma ScaledRounding(v: real, t: real, x: real, k: int)
    requires t > 0.0 && x * t == v
    requires x >= 0.0 ==> x - 0.5 < k as real <= x + 0.5
    requires x < 0.0 ==> x - 0.5 <= k as real < x + 0.5
    ensures v >= 0.0 ==> v - t / 2.0 < k as real * t <= v + t / 2.0
    ensures v < 0.0 ==> v - t / 2.0 <= k as real * t < v + t / 2.0
  {
    var d := k as real - x;
    assert k as real * t == v + d * t;
    if x >= 0.0 {
      assert v >= 0.0;
      assert -0.5 * t < d * t <= 0.5 * t;
    } else {
      assert v < 0.0;
      assert -0.5 * t <= d * t < 0.5 * t;
    }
  }

  /** Rounding a value that is `x` ticks to the tick rounds `x` itself. */
  lemma RoundToTickScaled(v: real, t: real, x: real)
    requires t > 0.0 && v == x * t
    ensures RoundToTick(v, t) == RoundHalfUp(x) as real * t
  {
    var q := v / t;
    DivMul(v, t);
    assert (q - x) * t == 0.0;
    assert q == x;
  }

  /** Rounding a value that is already on the grid leaves it unchanged
      (the re-rounding at the top of the walk loop is a no-op). */
  lemma RoundToTickOfMultiple(v: real, k: int, t: real)
    requires t > 0.0 && v == k as real * t
    ensures RoundToTick(v, t) == v
  {
    RoundToTickScaled(v, t, k as real);
    RoundHalfUpUnique(k as real, k);
  }

  lemma DivMul(v: real, t: real)
    requires t != 0.0
    ensures (v / t) * t == v
  {
  }

  /** `round_to_tick` is the one multiple of the tick within half a tick of
      `v`, the upper end of that window counting for `v >= 0` and the lower
      end for `v < 0`. */
  lemma RoundToTickUnique(v: real, t: real, k: int)
    requires t > 0.0
    requires v >= 0.0 ==> v - t / 2.0 < k as real * t <= v + t / 2.0
    requires v < 0.0 ==> v - t / 2.0 <= k as real * t < v + t / 2.0
    ensures RoundToTick(v, t) == k as real * t
  {
    var x := v / t;
    DivMul(v, t);
    WindowInTicks(v, t, x, k);
    RoundHalfUpUnique(x, k);
  }

  /** Dividing the half-tick window around `v = x * t` by `t` gives the
      half-unit window around `x`. */
  lemma WindowInTicks(v: real, t: real, x: real, k: int)
    requires t > 0.0 && x * t == v
    requires v >= 0.0 ==> v - t / 2.0 < k as real * t <= v + t / 2.0
    requires v < 0.0 ==> v - t / 2.0 <= k as real * t < v + t / 2.0
    ensures x >= 0.0 ==> x - 0.5 < k as real <= x + 0.5
    ensures x < 0.0 ==> x - 0.5 <= k as real < x + 0.5
  {
    var d := k as real - x;
    assert k as real * t - v == d * t;
    if d <= -0.5 {
      assert d * t <= -0.5 * t;
    }
    if d >= 0.5 {
      assert d * t >= 0.5 * t;
    }
  }

  /** For a positive tick, scaling integers by it keeps their order. */
  lemma TickScaleOrder(a: int, b: int, t: real)
    requires t > 0.0
    ensures a < b <==> a as real * t < b as real * t
    ensures a <= b <==> a as real * t <= b as real * t
  {
    if a < b {
      assert (b - a) as real * t > 0.0;
    } else {
      assert (a - b) as real * t >= 0.0;
    }
  }

  // ---------------------------------------------------------------------------
  // The descending price walk
  // ---------------------------------------------------------------------------

  datatype GridConfig = GridConfig(
    entryPrice: real,
    downRangePercent: real,
    upRangePercent: real,
    ordersDiffPercent: real,
    orderSizeQuote: real)

  /** The unrounded lower end of the range, `entry * (1 - down%)`. */
  function RangeLow(c: GridConfig): real
  {
    c.entryPrice * (1.0 - c.downRangePercent / 100.0)
  }

  /** The unrounded upper end of the range, `entry * (1 + up%)`. */
  function RangeHigh(c: GridConfig): real
  {
    c.entryPrice * (1.0 + c.upRangePercent / 100.0)
  }

  /** Tick count of the rounded lower end of the range. */
  function MinTicks(c: GridConfig, priceTick: real): int
    requires priceTick > 0.0
  {
    RoundHalfUp(RangeLow(c) / priceTick)
  }

  /** Tick count of the rounded upper end of the range. */
  function MaxTicks(c: GridConfig, priceTick: real): int
    requires priceTick > 0.0
  {
    RoundHalfUp(RangeHigh(c) / priceTick)
  }

  /** The multiplier `1 - diff%` applied at each step of the walk. */
  function StepFactor(diffPercent: real): real
  {
    1.0 - diffPercent / 100.0
  }

  /** The unrounded next price `current * (1 - diff%)`. */
  function Stepped(current: real, diffPercent: real): real
  {
    current * StepFactor(diffPercent)
  }

  /** One step of the walk, in ticks: the rounded next price, forced one
      tick lower when rounding did not lower it. */
  function NextTicks(k: int, diffPercent: real): (n: int)
    ensures n < k
  {
    LowerTicks(k, RoundHalfUp(Stepped(k as real, diffPercent)))
  }

  /** The tick count `r` rounding produced, or `k - 1` when `r` is not below `k`. */
  function LowerTicks(k: int, r: int): int
  {
    if r >= k then k - 1 else r
  }

  /** The source's real-valued step: `round_to_tick(current * (1 - diff%), tick)`,
      replaced by `current - tick` when it is not below `current`. */
  function NextPrice(current: real, diffPercent: real, t: real): real
    requires t > 0.0
  {
    LowerPrice(current, RoundToTick(Stepped(current, diffPercent), t), t)
  }

  /** The rounded price, or one tick below `current` when it is not below `current`. */
  function LowerPrice(current: real, rounded: real, t: real): real
  {
    if rounded >= current then current - t else rounded
  }

  /** `NextTicks` is the source's real-valued step carried out in ticks, and
      every step lowers the price by at least one tick. */
  lemma NextPriceStep(current: real, k: int, t: real, diffPercent: real)
    requires t > 0.0 && current == k as real * t
    ensures NextPrice(current, diffPercent, t) == TickPrice(NextTicks(k, diffPercent), t)
    ensures NextPrice(current, diffPercent, t) <= current - t
  {
    var v := Stepped(current, diffPercent);
    var x := Stepped(k as real, diffPercent);
    assert v == x * t;
    RoundToTickScaled(v, t, x);
    StepChoice(k, RoundHalfUp(x), t, current, RoundToTick(v, t));
  }

  /** Comparing on the grid is comparing tick counts. */
  lemma StepChoice(k: int, r: int, t: real, current: real, rounded: real)
    requires t > 0.0 && current == k as real * t && rounded == r as real * t
    ensures LowerPrice(current, rounded, t) == LowerTicks(k, r) as real * t
    ensures LowerPrice(current, rounded, t) <= current - t
  {
    TickScaleOrder(k, r, t);
    TickScaleOrder(r, k - 1, t);
    assert (k - 1) as real * t == current - t;
  }

  /** The tick counts the loop visits, highest first, while `k >= kMin`. */
  function WalkTicks(k: int, kMin: int, diffPercent: real): (w: seq<int>)
    ensures |w| > 0 <==> k >= kMin
    ensures |w| > 0 ==> w[0] == k
    ensures forall i :: 0 <= i < |w| ==> kMin <= w[i] <= k
    ensures forall i, j :: 0 <= i < j < |w| ==> w[i] > w[j]
    decreases k - kMin
  {
    if k < kMin then [] else [k] + WalkTicks(NextTicks(k, diffPercent), kMin, diffPercent)
  }

  /** The tick counts of the whole ladder, from the top of the range down. */
  function GridWalk(c: GridConfig, priceTick: real): seq<int>
    requires priceTick > 0.0
  {
    WalkTicks(MaxTicks(c, priceTick), MinTicks(c, priceTick), c.ordersDiffPercent)
  }

  // ---------------------------------------------------------------------------
  // Levels and the ladder
  // ---------------------------------------------------------------------------

  /** One row of the orders table. */
  datatype Level = Level(
    price: real,
    sizeBase: real,
    sizeQuote: real,
    baseBalance: real,
    quoteBalance: real)

  /** The ladder `calculate_grid_orders` returns: the table, ascending by
      price, and the base and quote funds it needs. */
  datatype Ladder = Ladder(levels: seq<Level>, baseNeeded: real, quoteNeeded: real)

  /** Why the ladder could not be built: no level lies in the range (pandas
      cannot sort a table without a `price` column), or a level sits at
      price zero (the base size divides by the price). */
  datatype GridError = EmptyGrid | ZeroPrice

  /** `size_tick or 0.000001`: a missing or zero size tick falls back to 1e-6. */
  function EffectiveSizeTick(sizeTick: Option<real>): (st: real)
    ensures st != 0.0
    ensures sizeTick.Some? && sizeTick.value != 0.0 ==> st == sizeTick.value
  {
    match sizeTick
    case None => 0.000001
    case Some(x) => if x == 0.0 then 0.000001 else x
  }

  /** The row the walk appends at `price`: the base size is the quote size
      over the price rounded to the size tick, and the quote size is that
      base size valued at the price. */
  function RawLevel(price: real, orderSizeQuote: real, sizeTick: real): Level
    requires price != 0.0 && sizeTick != 0.0
  {
    var b := RoundToTick(orderSizeQuote / price, sizeTick);
    Level(price, b, b * price, 0.0, 0.0)
  }

  /** The rows appended while walking `walk`, in walk order. */
  function RawRows(walk: seq<int>, t: real, orderSizeQuote: real, sizeTick: real): (rows: seq<Level>)
    requires t > 0.0 && sizeTick != 0.0
    requires forall i :: 0 <= i < |walk| ==> walk[i] != 0
  {
    seq(|walk|, i requires 0 <= i < |walk| => RawLevel(TickPrice(walk[i], t), orderSizeQuote, sizeTick))
  }

  /** The price `k` ticks up from zero. */
  function TickPrice(k: int, t: real): real
  {
    k as real * t
  }

  function PriceLe(a: Level, b: Level): bool
  {
    a.price <= b.price
  }

  lemma PriceLeTotalPreorder()
    ensures Total(PriceLe) && Transitive(PriceLe)
  {
  }

  function SizeBaseOf(l: Level): real
  {
    l.sizeBase
  }

  function SizeQuoteOf(l: Level): real
  {
    l.sizeQuote
  }

  /** The balance columns as `_calculate_balances` defines them: at each
      level, the base held is the base size of every level above it, and the
      quote held is the quote size of every level below it. */
  function WithBalances(s: seq<Level>): (r: seq<Level>)
  {
    seq(|s|, i requires 0 <= i < |s| =>
      s[i].(baseBalance := SumBy(s[i + 1..], SizeBaseOf), quoteBalance := SumBy(s[..i], SizeQuoteOf)))
  }

  function BaseColumn(levels: seq<Level>): (c: seq<real>)
    ensures |c| == |levels|
  {
    seq(|levels|, i requires 0 <= i < |levels| => levels[i].baseBalance)
  }

  function QuoteColumn(levels: seq<Level>): (c: seq<real>)
    ensures |c| == |levels|
  {
    seq(|levels|, i requires 0 <= i < |levels| => levels[i].quoteBalance)
  }

  /** pandas `Series.max()` of a non-empty column. */
  function MaxOf(xs: seq<real>): (m: real)
    requires |xs| > 0
    ensures forall i :: 0 <= i < |xs| ==> xs[i] <= m
    ensures exists i :: 0 <= i < |xs| && xs[i] == m
  {
    if |xs| == 1 then xs[0]
    else
      var rest := MaxOf(xs[1..]);
      assert forall i :: 1 <= i < |xs| ==> xs[i] == xs[1..][i - 1];
      if xs[0] >= rest then xs[0] else rest
  }

  /** pandas `Series.min()` of a non-empty column. */
  function MinOf(xs: seq<real>): (m: real)
    requires |xs| > 0
    ensures forall i :: 0 <= i < |xs| ==> m <= xs[i]
    ensures exists i :: 0 <= i < |xs| && xs[i] == m
  {
    if |xs| == 1 then xs[0]
    else
      var rest := MinOf(xs[1..]);
      assert forall i :: 1 <= i < |xs| ==> xs[i] == xs[1..][i - 1];
      if xs[0] <= rest then xs[0] else rest
  }

  /** The `price` column. */
  function PriceColumn(levels: seq<Level>): (c: seq<real>)
    ensures |c| == |levels|
    ensures forall i :: 0 <= i < |levels| ==> c[i] == levels[i].price
  {
    seq(|levels|, i requires 0 <= i < |levels| => levels[i].price)
  }

  /** The ladder built from a walk that neither is empty nor touches zero. */
  function LadderOf(walk: seq<int>, t: real, orderSizeQuote: real, sizeTick: real): Ladder
    requires t > 0.0 && sizeTick != 0.0 && |walk| > 0
    requires forall i :: 0 <= i < |walk| ==> walk[i] != 0
  {
    var levels := WithBalances(Sort(RawRows(walk, t, orderSizeQuote, sizeTick), PriceLe));
    Ladder(levels, MaxOf(BaseColumn(levels)), MaxOf(QuoteColumn(levels)))
  }

  /** `_calculate_balances`: sorts the rows by price, then fills the base
      column top-down and the quote column bottom-up with running totals. */
  method CalculateBalances(rows: seq<Level>) returns (out: seq<Level>)
    ensures out == WithBalances(Sort(rows, PriceLe))
  {
    var s := Sort(rows, PriceLe);
    var based := FillBaseColumn(s);
    out := FillQuoteColumn(s, based);
  }

  /** A level with its base balance set to the base size above it. */
  function BaseFilled(s: seq<Level>, j: nat): Level
    requires j < |s|
  {
    s[j].(baseBalance := SumBy(s[j + 1..], SizeBaseOf))
  }

  /** The first loop of `_calculate_balances`: walking down from the top
      level, each level's base balance is the running total above it. */
  method FillBaseColumn(s: seq<Level>) returns (out: seq<Level>)
    ensures |out| == |s|
    ensures forall j :: 0 <= j < |s| ==> out[j] == BaseFilled(s, j)
  {
    out := s;
    var cumulativeBase := 0.0;
    var i := |s|;
    while i > 0
      invariant 0 <= i <= |s| && |out| == |s|
      invariant cumulativeBase == SumBy(s[i..], SizeBaseOf)
      invariant forall j :: 0 <= j < i ==> out[j] == s[j]
      invariant forall j :: i <= j < |s| ==> out[j] == BaseFilled(s, j)
    {
      i := i - 1;
      out := out[i := out[i].(baseBalance := cumulativeBase)];
      assert s[i..][1..] == s[i + 1..];
      cumulativeBase := cumulativeBase + s[i].sizeBase;
    }
  }

  /** The second loop of `_calculate_balances`: walking up from the bottom
      level, each level's quote balance is the running total below it. */
  method FillQuoteColumn(s: seq<Level>, based: seq<Level>) returns (out: seq<Level>)
    requires |based| == |s|
    requires forall j :: 0 <= j < |s| ==> based[j] == BaseFilled(s, j)
    ensures out == WithBalances(s)
  {
    out := based;
    var cumulativeQuote := 0.0;
    var i := 0;
    while i < |s|
      invariant 0 <= i <= |s| && |out| == |s|
      invariant cumulativeQuote == SumBy(s[..i], SizeQuoteOf)
      invariant forall j :: 0 <= j < i ==> out[j] == WithBalances(s)[j]
      invariant forall j :: i <= j < |s| ==> out[j] == BaseFilled(s, j)
    {
      out := out[i := out[i].(quoteBalance := cumulativeQuote)];
      assert s[..i + 1] == s[..i] + [s[i]];
      SumBySnoc(s[..i], s[i], SizeQuoteOf);
      cumulativeQuote := cumulativeQuote + s[i].sizeQuote;
      i := i + 1;
    }
  }

  /** `_find_entry_index`: the first level whose price is closest to the
      entry price (pandas `idxmin` returns the first minimum). */
  method FindEntryIndex(levels: seq<Level>, entryPrice: real) returns (idx: nat)
    requires |levels| > 0
    ensures idx < |levels|
    ensures forall j :: 0 <= j < |levels| ==>
      Abs(levels[idx].price - entryPrice) <= Abs(levels[j].price - entryPrice)
    ensures forall j :: 0 <= j < idx ==>
      Abs(levels[j].price - entryPrice) > Abs(levels[idx].price - entryPrice)
  {
    idx := 0;
    var i := 1;
    while i < |levels|
      invariant 1 <= i <= |levels| && idx < i
      invariant forall j :: 0 <= j < i ==>
        Abs(levels[idx].price - entryPrice) <= Abs(levels[j].price - entryPrice)
      invariant forall j :: 0 <= j < idx ==>
        Abs(levels[j].price - entryPrice) > Abs(levels[idx].price - entryPrice)
    {
      if Abs(levels[i].price - entryPrice) < Abs(levels[idx].price - entryPrice) {
        idx := i;
      }
      i := i + 1;
    }
  }

  /** The `while current_price >= min_spot_price` loop of
      `calculate_grid_orders`: the rows appended, in walk order, or the
      error a level at price zero raises. */
  method WalkRows(cfg: GridConfig, priceTick: real, sizeTick: real)
    returns (r: Result<seq<Level>, GridError>)
    requires priceTick > 0.0 && sizeTick != 0.0
    ensures r.Err? <==> 0 in GridWalk(cfg, priceTick)
    ensures r.Err? ==> r.error == ZeroPrice
    ensures r.Ok? ==> r.value == RawRows(GridWalk(cfg, priceTick), priceTick, cfg.orderSizeQuote, sizeTick)
  {
    var t := priceTick;
    var d := cfg.ordersDiffPercent;
    ghost var kMin := MinTicks(cfg, t);
    ghost var walk := GridWalk(cfg, t);
    var minPrice := RoundToTick(RangeLow(cfg), t);
    var maxPrice := RoundToTick(RangeHigh(cfg), t);
    RangeEndsInTicks(cfg, t);

    var rows: seq<Level> := [];
    var current := maxPrice;
    ghost var k := MaxTicks(cfg, t);
    ghost var visited: seq<int> := [];
    WalkGuard(current, minPrice, k, kMin, t);
    while current >= minPrice
      invariant current == TickPrice(k, t)
      invariant current >= minPrice <==> k >= kMin
      invariant visited + WalkTicks(k, kMin, d) == walk
      invariant forall i :: 0 <= i < |visited| ==> visited[i] != 0
      invariant rows == RawRows(visited, t, cfg.orderSizeQuote, sizeTick)
      decreases k - kMin
    {
      RoundToTickOfMultiple(current, k, t);
      current := RoundToTick(current, t);
      if current == 0.0 {
        ZeroInWalk(visited, k, kMin, d, walk, t);
        return Err(ZeroPrice);
      }
      WalkRowStep(visited, k, kMin, d, walk, t, cfg.orderSizeQuote, sizeTick);
      rows := rows + [RawLevel(current, cfg.orderSizeQuote, sizeTick)];
      var nextPrice := NextPrice(current, d, t);
      NextPriceStep(current, k, t, d);
      visited := visited + [k];
      k := NextTicks(k, d);
      current := nextPrice;
      WalkGuard(current, minPrice, k, kMin, t);
    }
    r := Ok(rows);
  }

  /** One pass of the walk loop at a non-zero price: the tick joins the
      visited ones and its row is appended. */
  lemma WalkRowStep(visited: seq<int>, k: int, kMin: int, d: real, walk: seq<int>, t: real,
                    orderSizeQuote: real, sizeTick: real)
    requires t > 0.0 && sizeTick != 0.0 && TickPrice(k, t) != 0.0
    requires k >= kMin && visited + WalkTicks(k, kMin, d) == walk
    requires forall i :: 0 <= i < |visited| ==> visited[i] != 0
    ensures var next := visited + [k];
      && next + WalkTicks(NextTicks(k, d), kMin, d) == walk
      && (forall i :: 0 <= i < |next| ==> next[i] != 0)
      && RawRows(next, t, orderSizeQuote, sizeTick)
         == RawRows(visited, t, orderSizeQuote, sizeTick) + [RawLevel(TickPrice(k, t), orderSizeQuote, sizeTick)]
  {
    TickPriceNonZero(k, t);
    RawRowsSnoc(visited, k, t, orderSizeQuote, sizeTick);
    WalkUnfold(k, kMin, d);
    assert visited + [k] + WalkTicks(NextTicks(k, d), kMin, d) == visited + ([k] + WalkTicks(NextTicks(k, d), kMin, d));
  }

  /** The rounded ends of the range are whole tick counts. */
  lemma RangeEndsInTicks(c: GridConfig, t: real)
    requires t > 0.0
    ensures RoundToTick(RangeLow(c), t) == TickPrice(MinTicks(c, t), t)
    ensures RoundToTick(RangeHigh(c), t) == TickPrice(MaxTicks(c, t), t)
  {
  }

  /** The loop test on prices is the test on tick counts. */
  lemma WalkGuard(current: real, minPrice: real, k: int, kMin: int, t: real)
    requires t > 0.0 && current == TickPrice(k, t) && minPrice == TickPrice(kMin, t)
    ensures current >= minPrice <==> k >= kMin
  {
    TickScaleOrder(kMin, k, t);
  }

  lemma TickPriceNonZero(k: int, t: real)
    requires t > 0.0
    ensures TickPrice(k, t) == 0.0 <==> k == 0
  {
  }

  lemma WalkUnfold(k: int, kMin: int, d: real)
    requires k >= kMin
    ensures WalkTicks(k, kMin, d) == [k] + WalkTicks(NextTicks(k, d), kMin, d)
  {
  }

  lemma ZeroInWalk(visited: seq<int>, k: int, kMin: int, d: real, walk: seq<int>, t: real)
    requires t > 0.0 && TickPrice(k, t) == 0.0
    requires k >= kMin && visited + WalkTicks(k, kMin, d) == walk
    ensures 0 in walk
  {
    TickPriceNonZero(k, t);
    assert walk[|visited|] == 0;
  }

  lemma RawRowsSnoc(walk: seq<int>, k: int, t: real, orderSizeQuote: real, sizeTick: real)
    requires t > 0.0 && sizeTick != 0.0 && k != 0
    requires forall i :: 0 <= i < |walk| ==> walk[i] != 0
    ensures RawRows(walk + [k], t, orderSizeQuote, sizeTick)
         == RawRows(walk, t, orderSizeQuote, sizeTick) + [RawLevel(TickPrice(k, t), orderSizeQuote, sizeTick)]
  {
    var w := walk + [k];
    assert forall i :: 0 <= i < |walk| ==> w[i] == walk[i];
  }

  /** `calculate_grid_orders`: walks the price down from the rounded top of
      the range while it stays at or above the rounded bottom, appending one
      row per price, then sorts the rows, fills the balance columns and
      takes the column maxima as the funds needed. */
  method CalculateGridOrders(cfg: GridConfig, priceTick: real, sizeTick: Option<real>)
    returns (r: Result<Ladder, GridError>)
    requires priceTick > 0.0
    ensures r == Err(EmptyGrid) <==> |GridWalk(cfg, priceTick)| == 0
    ensures r == Err(ZeroPrice) <==> 0 in GridWalk(cfg, priceTick)
    ensures r.Ok? ==> r.value == LadderOf(GridWalk(cfg, priceTick), priceTick,
                                          cfg.orderSizeQuote, EffectiveSizeTick(sizeTick))
  {
    var st := EffectiveSizeTick(sizeTick);
    var walked := WalkRows(cfg, priceTick, st);
    if walked.Err? {
      return Err(walked.error);
    }
    var rows := walked.value;
    if |rows| == 0 {
      return Err(EmptyGrid);
    }
    var sorted := Sort(rows, PriceLe);
    var levels := CalculateBalances(sorted);
    PriceLeTotalPreorder();
    SortIdempotent(rows, PriceLe);
    var entryIndex := FindEntryIndex(levels, cfg.entryPrice);
    var baseNeeded := MaxOf(BaseColumn(levels));
    var quoteNeeded := MaxOf(QuoteColumn(levels));
    r := Ok(Ladder(levels, baseNeeded, quoteNeeded));
  }

  // ---------------------------------------------------------------------------
  // Properties of the ladder
  // ---------------------------------------------------------------------------

  lemma {:induction false} InsertAbove(x: Level, s: seq<Level>)
    requires forall i :: 0 <= i < |s| ==> s[i].price < x.price
    ensures Insert(x, s, PriceLe) == s + [x]
  {
    if |s| > 0 {
      InsertAbove(x, s[1..]);
      assert s == [s[0]] + s[1..];
    }
  }

  /** Sorting rows whose prices strictly fall reverses them. */
  lemma {:induction false} SortDescendingIsReverse(s: seq<Level>)
    requires forall i, j :: 0 <= i < j < |s| ==> s[i].price > s[j].price
    ensures Sort(s, PriceLe) == Reverse(s)
  {
    if |s| > 0 {
      var t := s[1..];
      forall i, j | 0 <= i < j < |t|
        ensures t[i].price > t[j].price
      {
        assert t[i] == s[i + 1] && t[j] == s[j + 1];
      }
      SortDescendingIsReverse(t);
      var r := Reverse(t);
      forall i | 0 <= i < |r|
        ensures r[i].price < s[0].price
      {
        assert r[i] == t[|s| - 2 - i] == s[|s| - 1 - i];
      }
      InsertAbove(s[0], r);
      assert Sort(s, PriceLe) == Insert(s[0], r, PriceLe);
      assert Reverse(s) == r + [s[0]];
    }
  }

  /** The rows of a walk have strictly falling prices. */
  lemma RawRowsDescending(walk: seq<int>, t: real, q: real, st: real)
    requires t > 0.0 && st != 0.0
    requires forall i :: 0 <= i < |walk| ==> walk[i] != 0
    requires forall i, j :: 0 <= i < j < |walk| ==> walk[i] > walk[j]
    ensures var rows := RawRows(walk, t, q, st);
      forall i, j :: 0 <= i < j < |rows| ==> rows[i].price > rows[j].price
  {
    var rows := RawRows(walk, t, q, st);
    forall i, j | 0 <= i < j < |rows|
      ensures rows[i].price > rows[j].price
    {
      TickScaleOrder(walk[j], walk[i], t);
    }
  }

  /** `WithBalances` keeps every row's price and sizes, and its columns obey
      the ladder's bookkeeping: stepping one level up moves that level's base
      size out of the base column, and stepping one level down moves that
      level's quote size out of the quote column. */
  lemma WithBalancesSteps(s: seq<Level>)
    ensures var w := WithBalances(s);
      && |w| == |s|
      && (forall i :: 0 <= i < |s| ==>
            w[i].price == s[i].price && w[i].sizeBase == s[i].sizeBase && w[i].sizeQuote == s[i].sizeQuote)
      && (|s| > 0 ==> w[|s| - 1].baseBalance == 0.0 && w[0].quoteBalance == 0.0)
      && (forall i :: 0 <= i < |s| - 1 ==> w[i].baseBalance == w[i + 1].baseBalance + s[i + 1].sizeBase)
      && (forall i :: 0 <= i < |s| - 1 ==> w[i + 1].quoteBalance == w[i].quoteBalance + s[i].sizeQuote)
  {
    var w := WithBalances(s);
    forall i | 0 <= i < |s| - 1
      ensures w[i].baseBalance == w[i + 1].baseBalance + s[i + 1].sizeBase
      ensures w[i + 1].quoteBalance == w[i].quoteBalance + s[i].sizeQuote
    {
      assert s[i + 1..][1..] == s[i + 2..];
      assert s[..i + 1] == s[..i] + [s[i]];
      SumBySnoc(s[..i], s[i], SizeQuoteOf);
    }
  }

  /** With non-negative sizes the base column never rises and the quote
      column never falls going up the ladder. */
  lemma BalancesMonotone(s: seq<Level>)
    requires forall i :: 0 <= i < |s| ==> s[i].sizeBase >= 0.0 && s[i].sizeQuote >= 0.0
    ensures var w := WithBalances(s);
      forall i, j :: 0 <= i < j < |s| ==>
        w[i].baseBalance >= w[j].baseBalance && w[i].quoteBalance <= w[j].quoteBalance
  {
    var w := WithBalances(s);
    forall i, j | 0 <= i < j < |s|
      ensures w[i].baseBalance >= w[j].baseBalance && w[i].quoteBalance <= w[j].quoteBalance
    {
      assert s[i + 1..] == s[i + 1..j + 1] + s[j + 1..];
      SumByAppend(s[i + 1..j + 1], s[j + 1..], SizeBaseOf);
      SumByNonNegative(s[i + 1..j + 1], SizeBaseOf);
      assert s[..j] == s[..i] + s[i..j];
      SumByAppend(s[..i], s[i..j], SizeQuoteOf);
      SumByNonNegative(s[i..j], SizeQuoteOf);
    }
  }

  lemma MaxOfNonIncreasing(xs: seq<real>)
    requires |xs| > 0
    requires forall i, j :: 0 <= i < j < |xs| ==> xs[i] >= xs[j]
    ensures MaxOf(xs) == xs[0]
  {
    forall i | 0 <= i < |xs|
      ensures xs[i] <= xs[0]
    {
      if i > 0 {
        assert xs[0] >= xs[i];
      }
    }
    MaxOfIs(xs, 0);
  }

  /** The maximum of a column is any entry no other entry exceeds. */
  lemma MaxOfIs(xs: seq<real>, k: nat)
    requires k < |xs|
    requires forall i :: 0 <= i < |xs| ==> xs[i] <= xs[k]
    ensures MaxOf(xs) == xs[k]
  {
    var m := MaxOf(xs);
    var i :| 0 <= i < |xs| && xs[i] == m;
    assert xs[k] <= m;
  }

  lemma MaxOfNonDecreasing(xs: seq<real>)
    requires |xs| > 0
    requires forall i, j :: 0 <= i < j < |xs| ==> xs[i] <= xs[j]
    ensures MaxOf(xs) == xs[|xs| - 1]
  {
    var k := |xs| - 1;
    forall i | 0 <= i < |xs|
      ensures xs[i] <= xs[k]
    {
      if i < k {
        assert xs[i] <= xs[k];
      }
    }
    MaxOfIs(xs, k);
  }

  /** For a positive price, quote size and size tick, the base size is
      non-negative and the quote size is within half a size tick (valued at
      the price) of the configured quote size. */
  lemma RawLevelSizes(price: real, q: real, st: real)
    requires price > 0.0 && q >= 0.0 && st > 0.0
    ensures RawLevel(price, q, st).sizeBase >= 0.0
    ensures RawLevel(price, q, st).sizeQuote >= 0.0
    ensures Abs(RawLevel(price, q, st).sizeQuote - q) <= price * st / 2.0
  {
    var x := q / price;
    var b := RoundToTick(x, st);
    RoundToTickBounds(x, st);
    assert x >= 0.0;
    assert x - st / 2.0 < b <= x + st / 2.0;
    RoundHalfUpBounds(x / st);
    assert b == RoundHalfUp(x / st) as real * st;
    NonNegativeTicks(x / st, st);
    SizeQuoteClose(price, q, x, b, st);
  }

  lemma NonNegativeTicks(y: real, st: real)
    requires y >= 0.0 && st > 0.0
    ensures RoundHalfUp(y) as real * st >= 0.0
  {
    RoundHalfUpBounds(y);
  }

  lemma SizeQuoteClose(price: real, q: real, x: real, b: real, st: real)
    requires price > 0.0 && st > 0.0 && x * price == q
    requires x - st / 2.0 < b <= x + st / 2.0
    ensures Abs(b * price - q) <= price * st / 2.0
  {
    var e := b - x;
    assert b * price - q == e * price;
    assert -st / 2.0 * price <= e * price <= st / 2.0 * price;
  }

  /** The ladder's table, ascending: the walk's rows read bottom-up. */
  lemma LadderIsReversedWalk(walk: seq<int>, t: real, q: real, st: real)
    requires t > 0.0 && st != 0.0 && |walk| > 0
    requires forall i :: 0 <= i < |walk| ==> walk[i] != 0
    requires forall i, j :: 0 <= i < j < |walk| ==> walk[i] > walk[j]
    ensures LadderOf(walk, t, q, st).levels == WithBalances(Reverse(RawRows(walk, t, q, st)))
  {
    RawRowsDescending(walk, t, q, st);
    SortDescendingIsReverse(RawRows(walk, t, q, st));
  }

  /** Level `i` of the ladder sits at the `i`-th lowest price the walk
      visited and carries the sizes that price determines. */
  lemma LadderLevels(walk: seq<int>, t: real, q: real, st: real)
    requires t > 0.0 && st != 0.0 && |walk| > 0
    requires forall i :: 0 <= i < |walk| ==> walk[i] != 0
    requires forall i, j :: 0 <= i < j < |walk| ==> walk[i] > walk[j]
    ensures var levels := LadderOf(walk, t, q, st).levels;
      && |levels| == |walk|
      && (forall i :: 0 <= i < |levels| ==> levels[i].price == TickPrice(walk[|walk| - 1 - i], t))
      && (forall i :: 0 <= i < |levels| ==>
            var row := RawRows(walk, t, q, st)[|walk| - 1 - i];
            levels[i].sizeBase == row.sizeBase && levels[i].sizeQuote == row.sizeQuote)
  {
    LadderIsReversedWalk(walk, t, q, st);
    ReversedRowLevels(walk, t, q, st);
  }

  /** `LadderLevels` for the balanced reversed rows. */
  lemma ReversedRowLevels(walk: seq<int>, t: real, q: real, st: real)
    requires t > 0.0 && st != 0.0
    requires forall i :: 0 <= i < |walk| ==> walk[i] != 0
    ensures var rows := RawRows(walk, t, q, st);
      var levels := WithBalances(Reverse(rows));
      && |levels| == |walk|
      && (forall i :: 0 <= i < |levels| ==> levels[i].price == TickPrice(walk[|walk| - 1 - i], t))
      && (forall i :: 0 <= i < |levels| ==>
            var row := rows[|walk| - 1 - i];
            levels[i].sizeBase == row.sizeBase && levels[i].sizeQuote == row.sizeQuote)
  {
    var rows := RawRows(walk, t, q, st);
    forall k | 0 <= k < |walk|
      ensures rows[k].price == TickPrice(walk[k], t)
    {
      RawRowPrice(walk, t, q, st, k);
    }
    ReversedPrices(walk, rows, t);
  }

  /** Balancing the reversed rows of a walk puts them at its ticks, bottom-up. */
  lemma ReversedPrices(walk: seq<int>, rows: seq<Level>, t: real)
    requires |rows| == |walk|
    requires forall k :: 0 <= k < |walk| ==> rows[k].price == TickPrice(walk[k], t)
    ensures var levels := WithBalances(Reverse(rows));
      && |levels| == |walk|
      && (forall i :: 0 <= i < |levels| ==> levels[i].price == TickPrice(walk[|walk| - 1 - i], t))
      && (forall i :: 0 <= i < |levels| ==>
            var row := rows[|walk| - 1 - i];
            levels[i].sizeBase == row.sizeBase && levels[i].sizeQuote == row.sizeQuote)
  {
    WithBalancesReversed(rows);
  }

  /** Row `k` of a walk sits at the price of the walk's `k`-th tick. */
  lemma RawRowPrice(walk: seq<int>, t: real, q: real, st: real, k: nat)
    requires t > 0.0 && st != 0.0 && k < |walk|
    requires forall i :: 0 <= i < |walk| ==> walk[i] != 0
    ensures RawRows(walk, t, q, st)[k].price == TickPrice(walk[k], t)
  {
  }

  /** Balancing the reversed rows keeps each row's price and sizes. */
  lemma WithBalancesReversed(rows: seq<Level>)
    ensures var w := WithBalances(Reverse(rows));
      && |w| == |rows|
      && forall i :: 0 <= i < |w| ==>
           w[i].price == rows[|rows| - 1 - i].price &&
           w[i].sizeBase == rows[|rows| - 1 - i].sizeBase &&
           w[i].sizeQuote == rows[|rows| - 1 - i].sizeQuote
  {
    WithBalancesSteps(Reverse(rows));
  }

  /** Prices read off a falling walk, bottom-up, rise by at least a tick per
      level and stay between the walk's end points. */
  lemma ReversedWalkPrices(walk: seq<int>, levels: seq<Level>, t: real, kMin: int, kMax: int)
    requires t > 0.0 && |levels| == |walk| > 0 && walk[0] == kMax
    requires forall i :: 0 <= i < |walk| ==> kMin <= walk[i] <= kMax
    requires forall i, j :: 0 <= i < j < |walk| ==> walk[i] > walk[j]
    requires forall i :: 0 <= i < |levels| ==> levels[i].price == TickPrice(walk[|walk| - 1 - i], t)
    ensures forall i :: 0 <= i < |levels| - 1 ==> levels[i + 1].price - levels[i].price >= t
    ensures levels[|levels| - 1].price == TickPrice(kMax, t)
    ensures forall i :: 0 <= i < |levels| ==> TickPrice(kMin, t) <= levels[i].price <= TickPrice(kMax, t)
  {
    forall i | 0 <= i < |levels| - 1
      ensures levels[i + 1].price - levels[i].price >= t
    {
      TickGap(walk[|walk| - 2 - i], walk[|walk| - 1 - i], t);
    }
    forall i | 0 <= i < |levels|
      ensures TickPrice(kMin, t) <= levels[i].price <= TickPrice(kMax, t)
    {
      TickScaleOrder(kMin, walk[|walk| - 1 - i], t);
      TickScaleOrder(walk[|walk| - 1 - i], kMax, t);
    }
  }

  /** The shape of a built ladder: one level per price the walk visited,
      ascending by at least one tick per level, the highest at the rounded
      top of the range and none below the rounded bottom. */
  lemma LadderShape(cfg: GridConfig, t: real, st: real)
    requires t > 0.0 && st != 0.0
    requires |GridWalk(cfg, t)| > 0 && 0 !in GridWalk(cfg, t)
    ensures var levels := LadderOf(GridWalk(cfg, t), t, cfg.orderSizeQuote, st).levels;
      && |levels| == |GridWalk(cfg, t)|
      && (forall i :: 0 <= i < |levels| - 1 ==> levels[i + 1].price - levels[i].price >= t)
      && levels[|levels| - 1].price == RoundToTick(RangeHigh(cfg), t)
      && (forall i :: 0 <= i < |levels| ==>
            RoundToTick(RangeLow(cfg), t) <= levels[i].price <= RoundToTick(RangeHigh(cfg), t))
  {
    var walk := GridWalk(cfg, t);
    LadderLevels(walk, t, cfg.orderSizeQuote, st);
    RangeEndsInTicks(cfg, t);
    ReversedWalkPrices(walk, LadderOf(walk, t, cfg.orderSizeQuote, st).levels, t,
                       MinTicks(cfg, t), MaxTicks(cfg, t));
  }

  /** Distinct tick counts are at least one tick apart in price. */
  lemma TickGap(a: int, b: int, t: real)
    requires t > 0.0 && a > b
    ensures TickPrice(a, t) - TickPrice(b, t) >= t
  {
    assert TickPrice(a, t) - TickPrice(b, t) == (a - b) as real * t;
    assert (a - b - 1) as real * t >= 0.0;
  }

  /** With the whole range above zero, a positive quote size and a positive
      size tick, the funds the ladder asks for are the balances at its two
      ends: the base the lowest level holds (every base size but its own)
      and the quote the highest level holds (every quote size but its own). */
  lemma LadderFunds(cfg: GridConfig, t: real, st: real)
    requires t > 0.0 && st > 0.0 && cfg.orderSizeQuote >= 0.0
    requires MinTicks(cfg, t) > 0 && |GridWalk(cfg, t)| > 0
    ensures 0 !in GridWalk(cfg, t)
    ensures var ladder := LadderOf(GridWalk(cfg, t), t, cfg.orderSizeQuote, st);
      var levels := ladder.levels;
      && ladder.baseNeeded == levels[0].baseBalance == SumBy(levels[1..], SizeBaseOf)
      && ladder.quoteNeeded == levels[|levels| - 1].quoteBalance
         == SumBy(levels[..|levels| - 1], SizeQuoteOf)
  {
    var walk := GridWalk(cfg, t);
    var q := cfg.orderSizeQuote;
    assert 0 !in walk;
    LadderIsReversedWalk(walk, t, q, st);
    var rev := Reverse(RawRows(walk, t, q, st));
    PositiveWalkSizes(walk, t, q, st);
    LadderFundsOf(rev, LadderOf(walk, t, q, st));
  }

  /** The balance columns of a built ladder: neither column is ever
      negative, the base column never rises and the quote column never
      falls going up the price levels. */
  lemma LadderColumns(cfg: GridConfig, t: real, st: real)
    requires t > 0.0 && st > 0.0 && cfg.orderSizeQuote >= 0.0
    requires MinTicks(cfg, t) > 0 && |GridWalk(cfg, t)| > 0
    ensures 0 !in GridWalk(cfg, t)
    ensures var levels := LadderOf(GridWalk(cfg, t), t, cfg.orderSizeQuote, st).levels;
      && (forall i :: 0 <= i < |levels| ==> levels[i].baseBalance >= 0.0 && levels[i].quoteBalance >= 0.0)
      && (forall i, j :: 0 <= i < j < |levels| ==>
            levels[i].baseBalance >= levels[j].baseBalance && levels[i].quoteBalance <= levels[j].quoteBalance)
  {
    var walk := GridWalk(cfg, t);
    var q := cfg.orderSizeQuote;
    LadderFunds(cfg, t, st);
    LadderIsReversedWalk(walk, t, q, st);
    var rev := Reverse(RawRows(walk, t, q, st));
    PositiveWalkSizes(walk, t, q, st);
    BalancesMonotone(rev);
    BalancesNonNegative(rev);
  }

  /** Running totals of non-negative sizes are non-negative. */
  lemma BalancesNonNegative(s: seq<Level>)
    requires forall i :: 0 <= i < |s| ==> s[i].sizeBase >= 0.0 && s[i].sizeQuote >= 0.0
    ensures var w := WithBalances(s);
      forall i :: 0 <= i < |s| ==> w[i].baseBalance >= 0.0 && w[i].quoteBalance >= 0.0
  {
    forall i | 0 <= i < |s|
      ensures SumBy(s[i + 1..], SizeBaseOf) >= 0.0 && SumBy(s[..i], SizeQuoteOf) >= 0.0
    {
      SumByNonNegative(s[i + 1..], SizeBaseOf);
      SumByNonNegative(s[..i], SizeQuoteOf);
    }
  }

  /** The funds of a ladder whose sizes are non-negative. */
  lemma LadderFundsOf(rows: seq<Level>, ladder: Ladder)
    requires |rows| > 0
    requires forall i :: 0 <= i < |rows| ==> rows[i].sizeBase >= 0.0 && rows[i].sizeQuote >= 0.0
    requires ladder.levels == WithBalances(rows)
    requires ladder.baseNeeded == MaxOf(BaseColumn(ladder.levels))
    requires ladder.quoteNeeded == MaxOf(QuoteColumn(ladder.levels))
    ensures var levels := ladder.levels;
      && ladder.baseNeeded == levels[0].baseBalance == SumBy(levels[1..], SizeBaseOf)
      && ladder.quoteNeeded == levels[|levels| - 1].quoteBalance
         == SumBy(levels[..|levels| - 1], SizeQuoteOf)
  {
    NeededAtEnds(rows);
    WithBalancesSums(rows);
  }

  /** The largest balances of a table with non-negative sizes sit at its
      ends: the base balance at the bottom, the quote balance at the top. */
  lemma NeededAtEnds(rows: seq<Level>)
    requires |rows| > 0
    requires forall i :: 0 <= i < |rows| ==> rows[i].sizeBase >= 0.0 && rows[i].sizeQuote >= 0.0
    ensures var w := WithBalances(rows);
      && MaxOf(BaseColumn(w)) == w[0].baseBalance
      && MaxOf(QuoteColumn(w)) == w[|w| - 1].quoteBalance
  {
    var w := WithBalances(rows);
    var bc, qc := BaseColumn(w), QuoteColumn(w);
    BalancesMonotone(rows);
    forall i, j | 0 <= i < j < |bc|
      ensures bc[i] >= bc[j]
    {
      assert bc[i] == w[i].baseBalance && bc[j] == w[j].baseBalance;
    }
    forall i, j | 0 <= i < j < |qc|
      ensures qc[i] <= qc[j]
    {
      assert qc[i] == w[i].quoteBalance && qc[j] == w[j].quoteBalance;
    }
    MaxOfNonIncreasing(bc);
    MaxOfNonDecreasing(qc);
  }

  /** Rows walked at positive prices have non-negative sizes. */
  lemma PositiveWalkSizes(walk: seq<int>, t: real, q: real, st: real)
    requires t > 0.0 && st > 0.0 && q >= 0.0
    requires forall i :: 0 <= i < |walk| ==> walk[i] > 0
    ensures var rev := Reverse(RawRows(walk, t, q, st));
      forall i :: 0 <= i < |rev| ==> rev[i].sizeBase >= 0.0 && rev[i].sizeQuote >= 0.0
  {
    var rows := RawRows(walk, t, q, st);
    forall i | 0 <= i < |rows|
      ensures rows[i].sizeBase >= 0.0 && rows[i].sizeQuote >= 0.0
    {
      TickScaleOrder(0, walk[i], t);
      RawLevelSizes(TickPrice(walk[i], t), q, st);
    }
  }

  /** The balances at the two ends of the table, as sums over the levels. */
  lemma WithBalancesSums(s: seq<Level>)
    requires |s| > 0
    ensures var w := WithBalances(s);
      && w[0].baseBalance == SumBy(w[1..], SizeBaseOf)
      && w[|s| - 1].quoteBalance == SumBy(w[..|s| - 1], SizeQuoteOf)
  {
    var w := WithBalances(s);
    SumByPointwise(w[1..], s[1..], SizeBaseOf);
    SumByPointwise(w[..|s| - 1], s[..|s| - 1], SizeQuoteOf);
  }

  // ---------------------------------------------------------------------------
  // Orders around the current price
  // ---------------------------------------------------------------------------

  function Below(price: real): Level -> bool
  {
    (l: Level) => l.price < price
  }

  function Above(price: real): Level -> bool
  {
    (l: Level) => l.price > price
  }

  function PriceLt(a: Level, b: Level): bool
  {
    a.price < b.price
  }

  /** `get_orders_for_price_range`: the last `maxOrders` levels priced below
      `price` as buys and the first `maxOrders` priced above it as sells. */
  function OrdersForPriceRange(levels: seq<Level>, price: real, maxOrders: nat): (seq<Level>, seq<Level>)
  {
    (Tail(Filter(levels, Below(price)), maxOrders), Head(Filter(levels, Above(price)), maxOrders))
  }

  /** On a table ascending by price, the buys are the `maxOrders` levels just
      below `price` (or all of them when there are fewer), the sells the
      `maxOrders` levels just above it, each list ascending; no level at
      `price` itself is chosen, and every level skipped on a side is farther
      from `price` than every level chosen on that side. */
  lemma OrdersForPriceRangeSpec(levels: seq<Level>, price: real, maxOrders: nat)
    requires Sorted(levels, PriceLt)
    ensures var (buys, sells) := OrdersForPriceRange(levels, price, maxOrders);
      var below := Filter(levels, Below(price));
      var above := Filter(levels, Above(price));
      && |buys| == Min(maxOrders, |below|) && |sells| == Min(maxOrders, |above|)
      && (forall b :: b in buys ==> b in levels && b.price < price)
      && (forall o :: o in sells ==> o in levels && o.price > price)
      && Sorted(buys, PriceLt) && Sorted(sells, PriceLt)
      && (forall l, b :: l in levels && l.price < price && l !in buys && b in buys ==> l.price < b.price)
      && (forall l, o :: l in levels && l.price > price && l !in sells && o in sells ==> l.price > o.price)
  {
    BuysChosen(levels, price, maxOrders);
    SellsChosen(levels, price, maxOrders);
  }

  /** The buy half of the choice: the levels just below `price`. */
  lemma BuysChosen(levels: seq<Level>, price: real, maxOrders: nat)
    requires Sorted(levels, PriceLt)
    ensures var below := Filter(levels, Below(price));
      var buys := Tail(below, maxOrders);
      && |buys| == Min(maxOrders, |below|)
      && (forall b :: b in buys ==> b in levels && b.price < price)
      && Sorted(buys, PriceLt)
      && (forall l, b :: l in levels && l.price < price && l !in buys && b in buys ==> l.price < b.price)
  {
    var below := Filter(levels, Below(price));
    FilterMembers(levels, Below(price));
    FilterSorted(levels, PriceLt, Below(price));
    var buys := Tail(below, maxOrders);
    var cut := |below| - |buys|;
    assert buys == below[cut..];
    forall l, b | l in levels && l.price < price && l !in buys && b in buys
      ensures l.price < b.price
    {
      assert l in below;
      var i :| 0 <= i < |below| && below[i] == l;
      var j :| 0 <= j < |buys| && buys[j] == b;
      assert below[cut + j] == b;
    }
  }

  /** The sell half of the choice: the levels just above `price`. */
  lemma SellsChosen(levels: seq<Level>, price: real, maxOrders: nat)
    requires Sorted(levels, PriceLt)
    ensures var above := Filter(levels, Above(price));
      var sells := Head(above, maxOrders);
      && |sells| == Min(maxOrders, |above|)
      && (forall o :: o in sells ==> o in levels && o.price > price)
      && Sorted(sells, PriceLt)
      && (forall l, o :: l in levels && l.price > price && l !in sells && o in sells ==> l.price > o.price)
  {
    var above := Filter(levels, Above(price));
    FilterMembers(levels, Above(price));
    FilterSorted(levels, PriceLt, Above(price));
    var sells := Head(above, maxOrders);
    assert sells == above[..|sells|];
    forall l, o | l in levels && l.price > price && l !in sells && o in sells
      ensures l.price > o.price
    {
      assert l in above;
      var i :| 0 <= i < |above| && above[i] == l;
      var j :| 0 <= j < |sells| && sells[j] == o;
      assert above[j] == o;
    }
  }
}

=== FILE: jsonl.dfy ===
/**
 * JSON values as `json.loads` produces them, the string-keyed records the
 * tables hold, and JSON Lines files: one value per line, read from an
 * abstract directory that maps file names to their lines. The text of a
 * line is not modelled, only what reading it gives.
 */
module Jsonl {
  /** A decoded JSON value. `JBool` and `JInt` stay apart, as `bool` and
      `int` do for `isinstance(v, bool)`; `JFloat` is a JSON number written
      with a fraction or exponent. */
  datatype Value =
    | JNull
    | JBool(b: bool)
    | JInt(i: int)
    | JFloat(r: real)
    | JStr(s: string)
    | JArray(items: seq<Value>)
    | JObject(fields: map<string, Value>)

  /** A table row: a JSON object. */
  type Record = map<string, Value>

  /** One line of a `.jsonl` file as reading it sees it: empty after
      `strip()`, a decoded value, or text `json.loads` rejects. */
  datatype Line = Blank | Parsed(value: Value) | Malformed

  /** A directory: file name to the lines of the file. */
  type Files = map<string, seq<Line>>

  /** `dict.get(key)`: `None` for a missing key. */
  function GetOr(r: Record, key: string): Value
  {
    if key in r then r[key] else JNull
  }

  predicate StartsWith(s: string, prefix: string)
  {
    |prefix| <= |s| && s[..|prefix|] == prefix
  }

  predicate EndsWith(s: string, suffix: string)
  {
    |suffix| <= |s| && s[|s| - |suffix|..] == suffix
  }

  /** `filename.startswith(f"{table}_") and filename.endswith(".jsonl")`:
      the files a table is read from and migrated in. */
  predicate TableFile(table: string, name: string)
  {
    StartsWith(name, table + "_") && EndsWith(name, ".jsonl")
  }

  /** `os.listdir`: every file of the directory exactly once, in an order
      the operating system chooses. */
  predicate Lists(listing: seq<string>, files: Files)
  {
    && (forall i, j :: 0 <= i < j < |listing| ==> listing[i] != listing[j])
    && (set n | n in listing) == files.Keys
  }

  /** The lines `json.dumps(rec) + '\n'` writes for each record. */
  function LinesOf(records: seq<Record>): (r: seq<Line>)
    ensures |r| == |records|
    ensures forall i :: 0 <= i < |r| ==> r[i] == Parsed(JObject(records[i]))
  {
    seq(|records|, i requires 0 <= i < |records| => Parsed(JObject(records[i])))
  }

  /** A name built as `table + "_" + stamp + ".jsonl"` is one of the table's files. */
  lemma NamedTableFile(table: string, stamp: string)
    ensures TableFile(table, table + "_" + stamp + ".jsonl")
  {
    var name := table + "_" + stamp + ".jsonl";
    assert name[..|table + "_"|] == table + "_";
    assert name[|name| - |".jsonl"|..] == ".jsonl";
  }
}

=== FILE: migrate.dfy ===
/**
 * `migrate_table` (src/migrate_tables.py): every file of a table is read
 * line by line, each record is completed with the schema's missing fields,
 * and the file is rewritten only if some record changed. The directory is
 * an abstract file map; `os.listdir` is its listing, an input.
 */
module Migrate {
  import opened Common
  import opened Jsonl
  import opened Schema

  /** `{**record, **formatted}`: a key of `formatted` takes its value from
      `formatted`, every other key keeps the record's. */
  function Merge(record: Record, formatted: Record): Record
  {
    record + formatted
  }

  /** The updated record: the original keys keep their values, and each
      missing schema field is added with its default. */
  function MigrateRecord(table: string, record: Record): (r: Record)
    ensures r.Keys == record.Keys + FieldSet(table)
    ensures forall k :: k in record ==> r[k] == record[k]
    ensures forall k :: k in r && k !in record ==> k in GetDefaults(table) && r[k] == GetDefaults(table)[k]
  {
    FormatDataValues(table, record);
    GetDefaultsSpec(table);
    Merge(record, FormatData(table, record))
  }

  /** `updated_record != record`. */
  predicate Changed(table: string, record: Record)
  {
    MigrateRecord(table, record) != record
  }

  /** A record changes exactly when some schema field is missing from it,
      that is when it does not validate. */
  lemma ChangedIffMissing(table: string, record: Record)
    ensures Changed(table, record) <==> exists f :: f in GetFields(table) && f !in record
    ensures Changed(table, record) <==> !ValidateData(table, record)
  {
    var r := MigrateRecord(table, record);
    if exists f :: f in GetFields(table) && f !in record {
      var f :| f in GetFields(table) && f !in record;
      assert f in r;
    } else {
      assert r.Keys == record.Keys;
    }
  }

  /** Migrating a migrated record leaves it as it is. */
  lemma MigrateIdempotent(table: string, record: Record)
    ensures MigrateRecord(table, MigrateRecord(table, record)) == MigrateRecord(table, record)
    ensures !Changed(table, MigrateRecord(table, record))
  {
    var r := MigrateRecord(table, record);
    assert MigrateRecord(table, r).Keys == r.Keys;
  }

  datatype MigrateError =
    | Undecodable     // `json.loads` raises on the line
    | NotAnObject     // `format_data` calls `.get` on a decoded non-object

  /** The records of a file and whether any of them changed. */
  datatype FileMigration = FileMigration(records: seq<Record>, changed: bool)

  /** The `for line in f` loop: blank lines are skipped and the first line
      that is not a JSON object aborts the migration. */
  function MigrateLines(table: string, lines: seq<Line>): Result<FileMigration, MigrateError>
    decreases |lines|
  {
    if |lines| == 0 then Ok(FileMigration([], false))
    else
      match lines[0]
      case Blank => MigrateLines(table, lines[1..])
      case Malformed => Err(Undecodable)
      case Parsed(v) =>
        if !v.JObject? then Err(NotAnObject)
        else
          var rest := MigrateLines(table, lines[1..]);
          if rest.Err? then rest
          else Ok(FileMigration([MigrateRecord(table, v.fields)] + rest.value.records,
                                Changed(table, v.fields) || rest.value.changed))
  }

  /** Every line is blank or a JSON object. */
  predicate WellFormed(lines: seq<Line>)
  {
    forall i :: 0 <= i < |lines| ==> lines[i].Blank? || (lines[i].Parsed? && lines[i].value.JObject?)
  }

  /** The records of a well-formed file, in order. */
  function RecordsOf(lines: seq<Line>): seq<Record>
    decreases |lines|
  {
    if |lines| == 0 then []
    else if lines[0].Parsed? && lines[0].value.JObject? then [lines[0].value.fields] + RecordsOf(lines[1..])
    else RecordsOf(lines[1..])
  }

  /** The migration of a file succeeds exactly when it is well formed; it
      then keeps the number and order of the records, migrates each, and
      reports a change exactly when some record changed. */
  lemma MigrateLinesSpec(table: string, lines: seq<Line>)
    ensures MigrateLines(table, lines).Ok? <==> WellFormed(lines)
    ensures MigrateLines(table, lines).Ok? ==>
      var m := MigrateLines(table, lines).value;
      var recs := RecordsOf(lines);
      && |m.records| == |recs|
      && (forall i :: 0 <= i < |recs| ==> m.records[i] == MigrateRecord(table, recs[i]))
      && (m.changed <==> exists i :: 0 <= i < |recs| && Changed(table, recs[i]))
  {
    MigrateLinesOk(table, lines);
    if WellFormed(lines) {
      MigrateLinesRecords(table, lines);
      MigrateLinesChanged(table, lines);
    }
  }

  lemma {:induction false} MigrateLinesOk(table: string, lines: seq<Line>)
    ensures MigrateLines(table, lines).Ok? <==> WellFormed(lines)
    decreases |lines|
  {
    if |lines| > 0 {
      var rest := lines[1..];
      MigrateLinesOk(table, rest);
      assert forall i :: 0 < i < |lines| ==> lines[i] == rest[i - 1];
      if !WellFormed(rest) {
        var i :| 0 <= i < |rest| && !(rest[i].Blank? || (rest[i].Parsed? && rest[i].value.JObject?));
        assert lines[i + 1] == rest[i];
      }
    }
  }

  /** One step of the loop over a record line, with the rest's outcome named. */
  lemma MigrateLinesStep(table: string, lines: seq<Line>, rest: FileMigration)
    requires |lines| > 0 && lines[0].Parsed? && lines[0].value.JObject?
    requires MigrateLines(table, lines[1..]) == Ok(rest)
    ensures MigrateLines(table, lines)
         == Ok(FileMigration([MigrateRecord(table, lines[0].value.fields)] + rest.records,
                             Changed(table, lines[0].value.fields) || rest.changed))
  {
  }

  lemma WellFormedRest(lines: seq<Line>)
    requires |lines| > 0 && WellFormed(lines)
    ensures WellFormed(lines[1..])
    ensures lines[0].Blank? || (lines[0].Parsed? && lines[0].value.JObject?)
  {
    assert forall i :: 0 < i < |lines| ==> lines[i] == lines[1..][i - 1];
  }

  lemma {:induction false} MigrateLinesRecords(table: string, lines: seq<Line>)
    requires WellFormed(lines)
    ensures MigrateLines(table, lines).Ok?
    ensures var m := MigrateLines(table, lines).value;
      var recs := RecordsOf(lines);
      && |m.records| == |recs|
      && (forall i :: 0 <= i < |recs| ==> m.records[i] == MigrateRecord(table, recs[i]))
    decreases |lines|
  {
    if |lines| > 0 {
      var rest := lines[1..];
      WellFormedRest(lines);
      MigrateLinesRecords(table, rest);
      if lines[0].Parsed? {
        var m := MigrateLines(table, rest).value;
        MigrateLinesStep(table, lines, m);
        var r := lines[0].value.fields;
        assert RecordsOf(lines) == [r] + RecordsOf(rest);
        MapsCons(r, RecordsOf(rest), MigrateRecord(table, r), m.records, x => MigrateRecord(table, x));
      }
    }
  }

  /** Some record among `recs` changes. */
  predicate AnyChanged(table: string, recs: seq<Record>)
    decreases |recs|
  {
    |recs| > 0 && (Changed(table, recs[0]) || AnyChanged(table, recs[1..]))
  }

  lemma {:induction false} AnyChangedExists(table: string, recs: seq<Record>)
    ensures AnyChanged(table, recs) <==> exists i :: 0 <= i < |recs| && Changed(table, recs[i])
    decreases |recs|
  {
    if |recs| > 0 {
      AnyChangedExists(table, recs[1..]);
      ExistsAtCons(recs, r => Changed(table, r));
    }
  }

  lemma {:induction false} MigrateLinesAnyChanged(table: string, lines: seq<Line>)
    requires WellFormed(lines)
    ensures MigrateLines(table, lines).Ok?
    ensures MigrateLines(table, lines).value.changed == AnyChanged(table, RecordsOf(lines))
    decreases |lines|
  {
    if |lines| > 0 {
      var rest := lines[1..];
      WellFormedRest(lines);
      MigrateLinesAnyChanged(table, rest);
      if lines[0].Parsed? {
        var m := MigrateLines(table, rest).value;
        MigrateLinesStep(table, lines, m);
        var recs := RecordsOf(lines);
        assert recs == [lines[0].value.fields] + RecordsOf(rest);
        assert recs[1..] == RecordsOf(rest);
      }
    }
  }

  lemma MigrateLinesChanged(table: string, lines: seq<Line>)
    requires WellFormed(lines)
    ensures MigrateLines(table, lines).Ok?
    ensures var recs := RecordsOf(lines);
      MigrateLines(table, lines).value.changed <==> exists i :: 0 <= i < |recs| && Changed(table, recs[i])
  {
    MigrateLinesAnyChanged(table, lines);
    AnyChangedExists(table, RecordsOf(lines));
  }

  /** The file's new content when it must be rewritten, `None` when it is
      left alone. */
  function MigrateFile(table: string, lines: seq<Line>): Result<Option<seq<Line>>, MigrateError>
  {
    var m := MigrateLines(table, lines);
    if m.Err? then Err(m.error)
    else if m.value.changed then Ok(Some(LinesOf(m.value.records)))
    else Ok(None)
  }

  /** Every record of the file validates against the schema. */
  predicate Migrated(table: string, lines: seq<Line>)
  {
    WellFormed(lines) && forall i :: 0 <= i < |lines| && lines[i].Parsed? ==> ValidateData(table, lines[i].value.fields)
  }

  lemma RecordsOfMember(lines: seq<Line>, r: Record)
    ensures r in RecordsOf(lines) <==> exists i :: 0 <= i < |lines| && lines[i] == Parsed(JObject(r))
    decreases |lines|
  {
    if |lines| > 0 {
      RecordsOfMember(lines[1..], r);
      assert forall i :: 0 < i < |lines| ==> lines[i] == lines[1..][i - 1];
      if exists i :: 0 <= i < |lines[1..]| && lines[1..][i] == Parsed(JObject(r)) {
        var i :| 0 <= i < |lines[1..]| && lines[1..][i] == Parsed(JObject(r));
        assert lines[i + 1] == Parsed(JObject(r));
      }
    }
  }

  /** A file is rewritten only when some record changed; the rewrite holds
      the migrated records in their order, and after the migration every
      record of the file validates. */
  lemma MigrateFileSpec(table: string, lines: seq<Line>)
    ensures MigrateFile(table, lines).Ok? <==> WellFormed(lines)
    ensures MigrateFile(table, lines).Ok? ==>
      var recs := RecordsOf(lines);
      match MigrateFile(table, lines).value
      case Some(out) =>
        && (exists i :: 0 <= i < |recs| && Changed(table, recs[i]))
        && |out| == |recs|
        && (forall i :: 0 <= i < |recs| ==> out[i] == Parsed(JObject(MigrateRecord(table, recs[i]))))
        && Migrated(table, out)
      case None =>
        (forall i :: 0 <= i < |recs| ==> !Changed(table, recs[i])) && Migrated(table, lines)
  {
    MigrateLinesSpec(table, lines);
    var m := MigrateLines(table, lines);
    if m.Ok? {
      if m.value.changed {
        RewriteMigrated(table, lines);
      } else {
        UnchangedMigrated(table, lines);
      }
    }
  }

  /** Every record of a rewritten file validates. */
  lemma RewriteMigrated(table: string, lines: seq<Line>)
    requires MigrateLines(table, lines).Ok?
    ensures Migrated(table, LinesOf(MigrateLines(table, lines).value.records))
  {
    MigrateLinesSpec(table, lines);
    var recs := RecordsOf(lines);
    var out := LinesOf(MigrateLines(table, lines).value.records);
    forall i | 0 <= i < |out|
      ensures ValidateData(table, out[i].value.fields)
    {
      MigrateIdempotent(table, recs[i]);
      ChangedIffMissing(table, MigrateRecord(table, recs[i]));
    }
  }

  /** A file with no changed record already validates. */
  lemma UnchangedMigrated(table: string, lines: seq<Line>)
    requires MigrateLines(table, lines).Ok? && !MigrateLines(table, lines).value.changed
    ensures Migrated(table, lines)
  {
    MigrateLinesSpec(table, lines);
    var recs := RecordsOf(lines);
    forall i | 0 <= i < |lines| && lines[i].Parsed?
      ensures ValidateData(table, lines[i].value.fields)
    {
      var r := lines[i].value.fields;
      RecordsOfMember(lines, r);
      var j :| 0 <= j < |recs| && recs[j] == r;
      ChangedIffMissing(table, r);
    }
  }

  /** A migrated file is left alone. */
  lemma MigrateFileOfMigrated(table: string, lines: seq<Line>)
    requires Migrated(table, lines)
    ensures MigrateFile(table, lines) == Ok(None)
  {
    MigrateLinesSpec(table, lines);
    var recs := RecordsOf(lines);
    forall i | 0 <= i < |recs|
      ensures !Changed(table, recs[i])
    {
      assert recs[i] in recs;
      RecordsOfMember(lines, recs[i]);
      ChangedIffMissing(table, recs[i]);
    }
  }

  /** The directory after `migrate_table`, and the error that stopped it. */
  datatype MigrateOutcome = MigrateOutcome(files: Files, error: Option<MigrateError>)

  /** `migrate_table`: the table's files in listing order, each rewritten
      when it changed; an error ends the migration with the files before it
      already rewritten. */
  function MigrateTable(files: Files, listing: seq<string>, table: string): MigrateOutcome
    decreases |listing|
  {
    if |listing| == 0 then MigrateOutcome(files, None)
    else
      var name := listing[0];
      if !TableFile(table, name) || name !in files then MigrateTable(files, listing[1..], table)
      else
        match MigrateFile(table, files[name])
        case Err(e) => MigrateOutcome(files, Some(e))
        case Ok(None) => MigrateTable(files, listing[1..], table)
        case Ok(Some(out)) => MigrateTable(files[name := out], listing[1..], table)
  }

  /** The migration touches only the table's listed files, and when it
      finishes without error every one of them holds only records that
      validate. */
  lemma {:induction false} MigrateTableSpec(files: Files, listing: seq<string>, table: string)
    requires Distinct(listing)
    ensures var r := MigrateTable(files, listing, table);
      && r.files.Keys == files.Keys
      && (forall n :: n in files && (n !in listing || !TableFile(table, n)) ==> r.files[n] == files[n])
      && (r.error.None? ==> forall n :: n in files && n in listing && TableFile(table, n) ==> Migrated(table, r.files[n]))
    decreases |listing|
  {
    if |listing| > 0 {
      var name := listing[0];
      var rest := listing[1..];
      assert Distinct(rest) by {
        forall i, j | 0 <= i < j < |rest|
          ensures rest[i] != rest[j]
        {
          assert rest[i] == listing[i + 1] && rest[j] == listing[j + 1];
        }
      }
      assert name !in rest by {
        forall j | 0 <= j < |rest|
          ensures rest[j] != name
        {
          assert rest[j] == listing[j + 1];
        }
      }
      assert forall n :: n in listing <==> n == name || n in rest;
      if !TableFile(table, name) || name !in files {
        MigrateTableSpec(files, rest, table);
      } else {
        MigrateFileSpec(table, files[name]);
        match MigrateFile(table, files[name])
        case Err(e) =>
        case Ok(None) =>
          MigrateTableSpec(files, rest, table);
        case Ok(Some(out)) =>
          MigrateTableSpec(files[name := out], rest, table);
      }
    }
  }

  /** Migrating a table a second time, after a migration that finished,
      changes nothing. */
  lemma MigrateTableIdempotent(files: Files, listing: seq<string>, table: string)
    requires Lists(listing, files)
    requires MigrateTable(files, listing, table).error.None?
    ensures var r := MigrateTable(files, listing, table);
      MigrateTable(r.files, listing, table) == MigrateOutcome(r.files, None)
  {
    var r := MigrateTable(files, listing, table);
    MigrateTableSpec(files, listing, table);
    MigratedTableStays(r.files, listing, table);
  }

  /** A directory whose listed table files are all migrated is left alone. */
  lemma {:induction false} MigratedTableStays(files: Files, listing: seq<string>, table: string)
    requires forall n :: n in files && n in listing && TableFile(table, n) ==> Migrated(table, files[n])
    ensures MigrateTable(files, listing, table) == MigrateOutcome(files, None)
    decreases |listing|
  {
    if |listing| > 0 {
      var name := listing[0];
      if TableFile(table, name) && name in files {
        MigrateFileOfMigrated(table, files[name]);
      }
      MigratedTableStays(files, listing[1..], table);
    }
  }
}

=== FILE: schema.dfy ===
/**
 * `TableSchemaManager` (src/table_schema_manager.py): the fields of each
 * table, their defaults, and the formatting and validation of a record
 * against them. A field is either a bare name, whose default is `None`, or
 * a name with a default.
 */
module Schema {
  import opened Jsonl

  datatype FieldSpec = Bare(name: string) | WithDefault(name: string, default: Value)

  const TradesSchema: seq<FieldSpec> :=
    [Bare("timestamp"), Bare("side"), Bare("price"),
     WithDefault("quantity", JFloat(0.0)), WithDefault("bot_name", JStr("unknown")),
     WithDefault("mode", JStr("unknown")), WithDefault("bot_run", JStr("unknown"))]

  const StatsSchema: seq<FieldSpec> :=
    [WithDefault("spot_unrealized_pnl", JFloat(0.0)), WithDefault("call_unrealized_pnl", JFloat(0.0)),
     WithDefault("put_unrealized_pnl", JFloat(0.0)), WithDefault("mode", JStr("unknown")),
     WithDefault("bot_name", JStr("unknown")), WithDefault("bot_run", JStr("unknown"))]

  const RunsSchema: seq<FieldSpec> :=
    [WithDefault("bot_name", JStr("unknown")), WithDefault("bot_run", JStr("unknown")),
     WithDefault("config", JStr("unknown"))]

  const ShutdownSchema: seq<FieldSpec> :=
    [WithDefault("final_pnl", JFloat(0.0)), WithDefault("buy_trades", JInt(0)),
     WithDefault("sell_trades", JInt(0)), WithDefault("total_trades", JInt(0)),
     WithDefault("running_time_hours", JFloat(0.0)), WithDefault("mode", JStr("unknown")),
     WithDefault("bot_name", JStr("unknown")), WithDefault("bot_run", JStr("unknown"))]

  /** `_schemas.get(table_name, [])`. */
  function SchemaOf(table: string): seq<FieldSpec>
  {
    if table == "trades" then TradesSchema
    else if table == "stats" then StatsSchema
    else if table == "runs" then RunsSchema
    else if table == "bot_shutdown" then ShutdownSchema
    else []
  }

  predicate KnownTable(table: string)
  {
    table == "trades" || table == "stats" || table == "runs" || table == "bot_shutdown"
  }

  function DefaultOf(f: FieldSpec): Value
  {
    match f
    case Bare(_) => JNull
    case WithDefault(_, d) => d
  }

  function NamesOf(specs: seq<FieldSpec>): seq<string>
  {
    seq(|specs|, i requires 0 <= i < |specs| => specs[i].name)
  }

  /** `get_fields`: the field names in declaration order. */
  function GetFields(table: string): (r: seq<string>)
    ensures |r| == |SchemaOf(table)|
    ensures forall i :: 0 <= i < |r| ==> r[i] == SchemaOf(table)[i].name
  {
    NamesOf(SchemaOf(table))
  }

  function FieldSet(table: string): set<string>
  {
    set k | k in GetFields(table)
  }

  /** The dict comprehension of `get_defaults` over `specs`: a later entry
      for a name replaces an earlier one. */
  function DefaultsOf(specs: seq<FieldSpec>): (d: map<string, Value>)
    ensures d.Keys == set i | 0 <= i < |specs| :: specs[i].name
    decreases |specs|
  {
    if |specs| == 0 then map[]
    else
      var n := |specs| - 1;
      var front := DefaultsOf(specs[..n]);
      assert forall i :: 0 <= i < n ==> specs[..n][i] == specs[i];
      front[specs[n].name := DefaultOf(specs[n])]
  }

  /** `get_defaults`. */
  function GetDefaults(table: string): map<string, Value>
  {
    DefaultsOf(SchemaOf(table))
  }

  predicate DistinctNames(specs: seq<FieldSpec>)
  {
    forall i, j :: 0 <= i < j < |specs| ==> specs[i].name != specs[j].name
  }

  /** With distinct names each name maps to its own entry's default. */
  lemma {:induction false} DefaultsOfEntry(specs: seq<FieldSpec>, i: int)
    requires DistinctNames(specs) && 0 <= i < |specs|
    ensures specs[i].name in DefaultsOf(specs) && DefaultsOf(specs)[specs[i].name] == DefaultOf(specs[i])
    decreases |specs|
  {
    var n := |specs| - 1;
    if i < n {
      var front := specs[..n];
      assert front[i] == specs[i];
      assert DistinctNames(front) by {
        forall a, b | 0 <= a < b < |front|
          ensures front[a].name != front[b].name
        {
          assert front[a] == specs[a] && front[b] == specs[b];
        }
      }
      DefaultsOfEntry(front, i);
    }
  }

  /** No schema declares a name twice. */
  lemma SchemasDistinct(table: string)
    ensures DistinctNames(SchemaOf(table))
  {
    if table == "trades" {
      TradesDistinct();
    } else if table == "stats" {
      StatsDistinct();
    } else if table == "runs" {
      RunsDistinct();
    } else if table == "bot_shutdown" {
      ShutdownDistinct();
    }
  }

  lemma TradesDistinct()
    ensures DistinctNames(TradesSchema)
  {
  }

  lemma StatsDistinct()
    ensures DistinctNames(StatsSchema)
  {
  }

  lemma RunsDistinct()
    ensures DistinctNames(RunsSchema)
  {
  }

  lemma ShutdownDistinct()
    ensures DistinctNames(ShutdownSchema)
  {
    var lengths := seq(|ShutdownSchema|, i requires 0 <= i < |ShutdownSchema| => |ShutdownSchema[i].name|);
    assert lengths == [9, 10, 11, 12, 18, 4, 8, 7];
    forall i, j | 0 <= i < j < |ShutdownSchema|
      ensures ShutdownSchema[i].name != ShutdownSchema[j].name
    {
      assert lengths[i] != lengths[j];
    }
  }

  /** `get_defaults` gives each field its declared default and each bare
      field `None`, and has no other keys. */
  lemma GetDefaultsSpec(table: string)
    ensures GetDefaults(table).Keys == FieldSet(table)
    ensures forall i :: 0 <= i < |SchemaOf(table)| ==>
      GetDefaults(table)[SchemaOf(table)[i].name] == DefaultOf(SchemaOf(table)[i])
    ensures forall i :: 0 <= i < |SchemaOf(table)| && SchemaOf(table)[i].Bare? ==>
      GetDefaults(table)[SchemaOf(table)[i].name] == JNull
  {
    var specs := SchemaOf(table);
    SchemasDistinct(table);
    forall i | 0 <= i < |specs|
      ensures GetDefaults(table)[specs[i].name] == DefaultOf(specs[i])
    {
      DefaultsOfEntry(specs, i);
    }
    assert forall k :: k in FieldSet(table) <==> exists i :: 0 <= i < |specs| && specs[i].name == k by {
      forall k
        ensures k in FieldSet(table) <==> exists i :: 0 <= i < |specs| && specs[i].name == k
      {
        if k in FieldSet(table) {
          var i :| 0 <= i < |GetFields(table)| && GetFields(table)[i] == k;
        }
        if exists i :: 0 <= i < |specs| && specs[i].name == k {
          var i :| 0 <= i < |specs| && specs[i].name == k;
          assert GetFields(table)[i] == k;
        }
      }
    }
  }

  /** The `trades` table: three bare fields, whose default is `None`, then
      four with defaults. */
  lemma TradesFields()
    ensures GetFields("trades") == ["timestamp", "side", "price", "quantity", "bot_name", "mode", "bot_run"]
    ensures var d := GetDefaults("trades");
      && "timestamp" in d && "price" in d && "quantity" in d && "bot_name" in d
      && d["timestamp"] == JNull && d["price"] == JNull
      && d["quantity"] == JFloat(0.0) && d["bot_name"] == JStr("unknown")
  {
    TradesNames();
    TradesDefaults();
  }

  lemma TradesNames()
    ensures GetFields("trades") == ["timestamp", "side", "price", "quantity", "bot_name", "mode", "bot_run"]
  {
    var f := GetFields("trades");
    assert SchemaOf("trades") == TradesSchema;
    assert |f| == 7;
    assert f[0] == "timestamp" && f[1] == "side" && f[2] == "price" && f[3] == "quantity";
    assert f[4] == "bot_name" && f[5] == "mode" && f[6] == "bot_run";
  }

  lemma TradesDefaults()
    ensures var d := GetDefaults("trades");
      && "timestamp" in d && "price" in d && "quantity" in d && "bot_name" in d
      && d["timestamp"] == JNull && d["price"] == JNull
      && d["quantity"] == JFloat(0.0) && d["bot_name"] == JStr("unknown")
  {
    var s := TradesSchema;
    assert SchemaOf("trades") == s;
    TradesDistinct();
    DefaultsOfEntry(s, 0);
    DefaultsOfEntry(s, 2);
    DefaultsOfEntry(s, 3);
    DefaultsOfEntry(s, 4);
  }

  /** `format_data`: exactly the schema's fields, each from the data when
      present and from the defaults otherwise; other keys are dropped. */
  function FormatData(table: string, data: Record): (r: Record)
    ensures r.Keys == FieldSet(table)
  {
    var defaults := GetDefaults(table);
    map k | k in GetFields(table) :: if k in data then data[k] else GetOr(defaults, k)
  }

  /** `validate_data`: every schema field is a key of the data. */
  predicate ValidateData(table: string, data: Record)
  {
    FieldSet(table) <= data.Keys
  }

  /** Each field of the formatted record holds the data's value when the
      data has the key, and the field's default otherwise. */
  lemma FormatDataValues(table: string, data: Record)
    ensures forall k :: k in data && k in FieldSet(table) ==> FormatData(table, data)[k] == data[k]
    ensures forall k :: k !in data && k in FieldSet(table) ==> FormatData(table, data)[k] == GetDefaults(table)[k]
    ensures forall k :: k !in FieldSet(table) ==> k !in FormatData(table, data)
  {
    GetDefaultsSpec(table);
  }

  /** Formatting a formatted record changes nothing. */
  lemma FormatIdempotent(table: string, data: Record)
    ensures FormatData(table, FormatData(table, data)) == FormatData(table, data)
  {
  }

  /** Formatted records always validate. */
  lemma ValidateFormatted(table: string, data: Record)
    ensures ValidateData(table, FormatData(table, data))
  {
  }

  /** A record validates exactly when formatting takes nothing from the
      defaults, that is when the formatted record agrees with it on every
      field. */
  lemma ValidateMeansNoDefaults(table: string, data: Record)
    ensures ValidateData(table, data) <==>
      forall k :: k in FormatData(table, data) ==> k in data && FormatData(table, data)[k] == data[k]
  {
  }

  /** An unknown table has no fields: formatting gives the empty record and
      every record validates. */
  lemma UnknownTable(table: string, data: Record)
    requires !KnownTable(table)
    ensures GetFields(table) == [] && GetDefaults(table) == map[]
    ensures FormatData(table, data) == map[]
    ensures ValidateData(table, data)
  {
  }
}

=== FILE: sorting.dfy ===
/**
 * Python's `sorted(xs, key=...)` and `list.sort(key=..., reverse=...)`:
 * a stable sort, modelled as insertion sort over a "sorts no later than"
 * relation `le`. An element is inserted before the first element it is
 * `le` to, so elements that compare equal keep their input order.
 */
module Sorting {
  import opened Common

  ghost predicate Total<T(!new)>(le: (T, T) -> bool)
  {
    forall a, b :: le(a, b) || le(b, a)
  }

  ghost predicate Transitive<T(!new)>(le: (T, T) -> bool)
  {
    forall a, b, c :: le(a, b) && le(b, c) ==> le(a, c)
  }

  predicate Sorted<T>(s: seq<T>, le: (T, T) -> bool)
  {
    forall i, j :: 0 <= i < j < |s| ==> le(s[i], s[j])
  }

  function Insert<T>(x: T, s: seq<T>, le: (T, T) -> bool): (r: seq<T>)
    ensures |r| == |s| + 1
    ensures multiset(r) == multiset(s) + multiset{x}
  {
    if |s| == 0 then [x]
    else if le(x, s[0]) then [x] + s
    else
      assert s == [s[0]] + s[1..];
      [s[0]] + Insert(x, s[1..], le)
  }

  function Sort<T>(s: seq<T>, le: (T, T) -> bool): (r: seq<T>)
    ensures |r| == |s|
    ensures multiset(r) == multiset(s)
  {
    if |s| == 0 then []
    else
      assert s == [s[0]] + s[1..];
      Insert(s[0], Sort(s[1..], le), le)
  }

  lemma {:induction false} InsertSorted<T(!new)>(x: T, s: seq<T>, le: (T, T) -> bool)
    requires Total(le) && Transitive(le)
    requires Sorted(s, le)
    ensures Sorted(Insert(x, s, le), le)
  {
    if |s| == 0 {
    } else if le(x, s[0]) {
    } else {
      InsertSorted(x, s[1..], le);
      var t := Insert(x, s[1..], le);
      assert le(s[0], x);
      forall k | 0 <= k < |t|
        ensures le(s[0], t[k])
      {
        assert t[k] in multiset(s[1..]) + multiset{x};
      }
    }
  }

  /** The output of `Sort` is ordered by `le` whenever `le` is a total preorder. */
  lemma {:induction false} SortSorted<T(!new)>(s: seq<T>, le: (T, T) -> bool)
    requires Total(le) && Transitive(le)
    ensures Sorted(Sort(s, le), le)
  {
    if |s| > 0 {
      SortSorted(s[1..], le);
      InsertSorted(s[0], Sort(s[1..], le), le);
    }
  }

  /** A stable sort leaves an already ordered sequence untouched. */
  lemma {:induction false} SortOfSorted<T>(s: seq<T>, le: (T, T) -> bool)
    requires Sorted(s, le)
    ensures Sort(s, le) == s
  {
    if |s| > 0 {
      SortOfSorted(s[1..], le);
      assert s == [s[0]] + s[1..];
    }
  }

  /** Sorting twice is sorting once. */
  lemma SortIdempotent<T(!new)>(s: seq<T>, le: (T, T) -> bool)
    requires Total(le) && Transitive(le)
    ensures Sort(Sort(s, le), le) == Sort(s, le)
  {
    SortSorted(s, le);
    SortOfSorted(Sort(s, le), le);
  }

  /** Inserting in front: the filtered result is unchanged by whether `x` went first. */
  lemma FilterInsertFront<T(!new)>(x: T, s: seq<T>, le: (T, T) -> bool, p: T -> bool)
    requires Total(le) && Transitive(le)
    requires Sorted(s, le)
    requires |s| > 0 && le(x, s[0])
    ensures Filter(Insert(x, s, le), p)
         == if p(x) then Insert(x, Filter(s, p), le) else Filter(s, p)
  {
    var xs := [x] + s;
    assert Insert(x, s, le) == xs;
    assert xs[0] == x && xs[1..] == s;
    var fs := Filter(s, p);
    if p(x) {
      assert Filter(xs, p) == [x] + fs;
      if |fs| > 0 {
        FilterMembers(s, p);
        assert fs[0] in fs;
        BeforeHeadBeforeAll(x, s, le, fs[0]);
      }
    } else {
      assert Filter(xs, p) == fs;
    }
  }

  /** What sorts before the head of a sorted sequence sorts before each of
      its elements. */
  lemma BeforeHeadBeforeAll<T(!new)>(x: T, s: seq<T>, le: (T, T) -> bool, y: T)
    requires Transitive(le) && Sorted(s, le)
    requires |s| > 0 && le(x, s[0]) && y in s
    ensures le(x, y)
  {
    var k :| 0 <= k < |s| && s[k] == y;
    if k > 0 {
      assert le(s[0], s[k]);
    }
  }

  lemma {:induction false} FilterInsert<T(!new)>(x: T, s: seq<T>, le: (T, T) -> bool, p: T -> bool)
    requires Total(le) && Transitive(le)
    requires Sorted(s, le)
    ensures Filter(Insert(x, s, le), p)
         == if p(x) then Insert(x, Filter(s, p), le) else Filter(s, p)
  {
    if |s| == 0 {
    } else if le(x, s[0]) {
      FilterInsertFront(x, s, le, p);
    } else {
      FilterInsert(x, s[1..], le, p);
      FilterInsertBehind(x, s, le, p);
    }
  }

  /** Inserting behind the head: the head is kept or dropped on its own. */
  lemma FilterInsertBehind<T>(x: T, s: seq<T>, le: (T, T) -> bool, p: T -> bool)
    requires |s| > 0 && !le(x, s[0])
    requires Filter(Insert(x, s[1..], le), p)
          == if p(x) then Insert(x, Filter(s[1..], p), le) else Filter(s[1..], p)
    ensures Filter(Insert(x, s, le), p)
         == if p(x) then Insert(x, Filter(s, p), le) else Filter(s, p)
  {
    var rest := Insert(x, s[1..], le);
    var f1 := Filter(s[1..], p);
    var t := Insert(x, s, le);
    assert t == [s[0]] + rest;
    assert t[0] == s[0] && t[1..] == rest;
    if p(s[0]) {
      assert Filter(t, p) == [s[0]] + Filter(rest, p);
      assert Filter(s, p) == [s[0]] + f1;
      if p(x) {
        var g := [s[0]] + f1;
        assert g[0] == s[0] && g[1..] == f1;
        assert Insert(x, g, le) == [s[0]] + Insert(x, f1, le);
      }
    } else {
      assert Filter(t, p) == Filter(rest, p);
      assert Filter(s, p) == f1;
    }
  }

  /** A stable sort commutes with filtering. */
  lemma {:induction false} SortFilter<T(!new)>(s: seq<T>, le: (T, T) -> bool, p: T -> bool)
    requires Total(le) && Transitive(le)
    ensures Filter(Sort(s, le), p) == Sort(Filter(s, p), le)
  {
    if |s| > 0 {
      var t := s[1..];
      SortFilter(t, le, p);
      SortSorted(t, le);
      FilterInsert(s[0], Sort(t, le), le, p);
      assert Sort(s, le) == Insert(s[0], Sort(t, le), le);
      var fs, ft := Filter(s, p), Filter(t, p);
      if p(s[0]) {
        assert fs == [s[0]] + ft;
        assert fs[0] == s[0] && fs[1..] == ft;
        assert Sort(fs, le) == Insert(s[0], Sort(ft, le), le);
      } else {
        assert fs == ft;
      }
    }
  }

  /** Filtering keeps a sequence ordered. */
  lemma {:induction false} FilterSorted<T(!new)>(s: seq<T>, le: (T, T) -> bool, p: T -> bool)
    requires Sorted(s, le)
    ensures Sorted(Filter(s, p), le)
  {
    if |s| > 0 {
      var rest := s[1..];
      FilterSorted(rest, le, p);
      var f := Filter(rest, p);
      FilterMembers(rest, p);
      var g := Filter(s, p);
      if p(s[0]) {
        assert g == [s[0]] + f;
        forall j | 0 <= j < |f|
          ensures le(s[0], f[j])
        {
          var x := f[j];
          assert x in f;
          assert x in rest && p(x);
          var k :| 0 <= k < |rest| && rest[k] == f[j];
          assert s[k + 1] == f[j];
        }
        forall i, j | 0 <= i < j < |g|
          ensures le(g[i], g[j])
        {
          assert g[j] == f[j - 1];
          if i > 0 {
            assert g[i] == f[i - 1];
          }
        }
      } else {
        assert g == f;
      }
    }
  }

  /** Sorting two elements keeps them unless the second sorts before the first. */
  lemma SortPair<T>(x: T, y: T, le: (T, T) -> bool)
    ensures Sort([x, y], le) == if le(x, y) then [x, y] else [y, x]
  {
    assert [x, y][1..] == [y];
  }
}

=== FILE: stamps.dfy ===
/**
 * The UTC timestamps `SimulativeDatabase` (src/database.py) writes: the
 * `strftime` day and second stamps of its file names and the
 * `isoformat() + "Z"` stamp of each record, and how Python orders these
 * strings compared with the instants they name.
 */
module Stamps {
  import opened Common

  /** A `datetime` reading of the UTC clock. */
  datatype DateTime = DateTime(year: nat, month: nat, day: nat, hour: nat, minute: nat, second: nat, micro: nat)

  /** Field ranges of a `datetime` with a four-digit year. */
  predicate ValidDateTime(t: DateTime)
  {
    && 1000 <= t.year <= 9999 && 1 <= t.month <= 12 && 1 <= t.day <= 31
    && t.hour < 24 && t.minute < 60 && t.second < 60 && t.micro < 1000000
  }

  /** The fields from the year down to the microsecond. */
  function Moment(t: DateTime): seq<int>
  {
    [t.year, t.month, t.day, t.hour, t.minute, t.second, t.micro]
  }

  /** Lexicographic order on equally long sequences of numbers. */
  predicate LexLe(p: seq<int>, q: seq<int>)
    requires |p| == |q|
    decreases |p|
  {
    |p| == 0 || p[0] < q[0] || (p[0] == q[0] && LexLe(p[1..], q[1..]))
  }

  /** `a` is no later than `b`. */
  predicate NoLater(a: DateTime, b: DateTime)
  {
    LexLe(Moment(a), Moment(b))
  }

  function Pow10(n: nat): nat
  {
    if n == 0 then 1 else 10 * Pow10(n - 1)
  }

  function DigitChar(d: int): char
    requires 0 <= d < 10
  {
    ('0' as int + d) as char
  }

  /** `n` written with `width` decimal digits, zero-padded (`%02d`, `%06d`). */
  function Pad(n: nat, width: nat): (s: string)
    ensures |s| == width
    decreases width
  {
    if width == 0 then "" else Pad(n / 10, width - 1) + [DigitChar(n % 10)]
  }

  /** The number a string of decimal digits spells. */
  function DigitsValue(s: string): int
    decreases |s|
  {
    if |s| == 0 then 0 else 10 * DigitsValue(s[..|s| - 1]) + (s[|s| - 1] as int - '0' as int)
  }

  /** Reading the padded digits back gives the number. */
  lemma {:induction false} PadRoundTrip(n: nat, width: nat)
    requires n < Pow10(width)
    ensures DigitsValue(Pad(n, width)) == n
    decreases width
  {
    if width > 0 {
      PadRoundTrip(n / 10, width - 1);
      var s := Pad(n, width);
      assert s[..|s| - 1] == Pad(n / 10, width - 1);
    }
  }

  /** Strings that start with equally long parts compare on the parts
      first and on the rest only when the parts are equal. */
  lemma {:induction false} ConcatLe(x1: string, y1: string, x2: string, y2: string)
    requires |x1| == |x2|
    ensures StrLe(x1 + y1, x2 + y2) <==> if x1 == x2 then StrLe(y1, y2) else StrLe(x1, x2)
    decreases |x1|
  {
    if |x1| == 0 {
      assert x1 + y1 == y1 && x2 + y2 == y2;
    } else {
      var a := x1 + y1;
      var b := x2 + y2;
      assert a[0] == x1[0] && a[1..] == x1[1..] + y1;
      assert b[0] == x2[0] && b[1..] == x2[1..] + y2;
      ConcatLe(x1[1..], y1, x2[1..], y2);
      if x1[0] == x2[0] {
        assert x1 == x2 <==> x1[1..] == x2[1..] by {
          assert x1 == [x1[0]] + x1[1..];
          assert x2 == [x2[0]] + x2[1..];
        }
      }
    }
  }

  /** Padded numbers of one width compare as the numbers do. */
  lemma {:induction false} PadLe(a: nat, b: nat, width: nat)
    requires a < Pow10(width) && b < Pow10(width)
    ensures StrLe(Pad(a, width), Pad(b, width)) <==> a <= b
    ensures Pad(a, width) == Pad(b, width) <==> a == b
    decreases width
  {
    PadRoundTrip(a, width);
    PadRoundTrip(b, width);
    if width > 0 {
      PadLe(a / 10, b / 10, width - 1);
      ConcatLe(Pad(a / 10, width - 1), [DigitChar(a % 10)], Pad(b / 10, width - 1), [DigitChar(b % 10)]);
      assert StrLe([DigitChar(a % 10)], [DigitChar(b % 10)]) <==> a % 10 <= b % 10 by {
        var u := [DigitChar(a % 10)];
        var v := [DigitChar(b % 10)];
        assert u[1..] == "" && v[1..] == "";
      }
    }
  }

  /** A number field of a stamp and the text that follows it. */
  datatype Field = Field(value: nat, width: nat, sep: string)

  /** The fields, each padded and followed by its separator, then `tail`. */
  function Render(fs: seq<Field>, tail: string): string
    decreases |fs|
  {
    if |fs| == 0 then tail else Pad(fs[0].value, fs[0].width) + (fs[0].sep + Render(fs[1..], tail))
  }

  function Values(fs: seq<Field>): (v: seq<int>)
    ensures |v| == |fs|
  {
    seq(|fs|, i requires 0 <= i < |fs| => fs[i].value)
  }

  /** Both sequences have the same widths and separators, and every value
      fits its width. */
  predicate SameLayout(f1: seq<Field>, f2: seq<Field>)
  {
    && |f1| == |f2|
    && (forall i :: 0 <= i < |f1| ==> f1[i].width == f2[i].width && f1[i].sep == f2[i].sep)
    && (forall i :: 0 <= i < |f1| ==> f1[i].value < Pow10(f1[i].width) && f2[i].value < Pow10(f2[i].width))
  }

  lemma SameLayoutRest(f1: seq<Field>, f2: seq<Field>)
    requires SameLayout(f1, f2) && |f1| > 0
    ensures SameLayout(f1[1..], f2[1..])
    ensures Values(f1) == Values(f2) <==> f1[0].value == f2[0].value && Values(f1[1..]) == Values(f2[1..])
    ensures LexLe(Values(f1), Values(f2)) <==>
      f1[0].value < f2[0].value || (f1[0].value == f2[0].value && LexLe(Values(f1[1..]), Values(f2[1..])))
  {
    assert Values(f1)[1..] == Values(f1[1..]);
    assert Values(f2)[1..] == Values(f2[1..]);
    assert Values(f1) == [Values(f1)[0]] + Values(f1)[1..];
    assert Values(f2) == [Values(f2)[0]] + Values(f2)[1..];
  }

  /** Rendered stamps of one layout compare as their values do
      lexicographically, and on the tails when all values agree. */
  lemma {:induction false} RenderLe(f1: seq<Field>, f2: seq<Field>, t1: string, t2: string)
    requires SameLayout(f1, f2)
    ensures StrLe(Render(f1, t1), Render(f2, t2)) <==>
      LexLe(Values(f1), Values(f2)) && (Values(f1) == Values(f2) ==> StrLe(t1, t2))
    decreases |f1|
  {
    if |f1| == 0 {
      assert Values(f1) == Values(f2);
    } else {
      SameLayoutRest(f1, f2);
      var a := f1[0];
      var b := f2[0];
      var r1 := Render(f1[1..], t1);
      var r2 := Render(f2[1..], t2);
      RenderLe(f1[1..], f2[1..], t1, t2);
      PadLe(a.value, b.value, a.width);
      ConcatLe(Pad(a.value, a.width), a.sep + r1, Pad(b.value, b.width), b.sep + r2);
      ConcatLe(a.sep, r1, b.sep, r2);
    }
  }

  /** `%Y-%m-%dT%H:%M:%S`, the part of `isoformat()` down to the second. */
  function SecondFields(t: DateTime): seq<Field>
  {
    [Field(t.year, 4, "-"), Field(t.month, 2, "-"), Field(t.day, 2, "T"),
     Field(t.hour, 2, ":"), Field(t.minute, 2, ":"), Field(t.second, 2, "")]
  }

  /** `datetime.utcnow().isoformat() + "Z"` as written: `isoformat` drops
      the fraction when the microsecond is 0. */
  function IsoStampAsWritten(t: DateTime): string
  {
    Render(SecondFields(t), if t.micro != 0 then "." + Pad(t.micro, 6) + "Z" else "Z")
  }

  /** The record timestamp with the fraction always written, as
      `isoformat(timespec="microseconds") + "Z"` gives. */
  function IsoStamp(t: DateTime): string
  {
    Render(SecondFields(t), "." + Pad(t.micro, 6) + "Z")
  }

  /** The stamp as written differs from the full-fraction stamp only on a
      whole second, where it leaves out the ".000000". */
  lemma AsWrittenDropsZeroFraction(t: DateTime)
    ensures t.micro != 0 ==> IsoStampAsWritten(t) == IsoStamp(t)
    ensures t.micro == 0 ==>
      var s := IsoStampAsWritten(t);
      |s| > 0 && s[|s| - 1] == 'Z' && IsoStamp(t) == s[..|s| - 1] + ".000000Z"
  {
    if t.micro == 0 {
      PadZeros();
      DropsFraction(SecondFields(t), Pad(0, 6));
    }
  }

  lemma PadZeros()
    ensures Pad(0, 6) == "000000"
  {
    assert Pad(0, 3) == "000";
  }

  /** Rendered with the tail "Z" or with a fraction before the "Z", the
      fields come out alike. */
  lemma DropsFraction(fs: seq<Field>, frac: string)
    ensures var s := Render(fs, "Z");
      |s| > 0 && s[|s| - 1] == 'Z' && Render(fs, "." + frac + "Z") == s[..|s| - 1] + ("." + frac + "Z")
  {
    RenderTail(fs, "Z");
    RenderTail(fs, "." + frac + "Z");
    var s := Render(fs, "Z");
    assert s[..|s| - 1] == Render(fs, "");
  }

  /** Rendering before a tail is rendering alone, then the tail. */
  lemma {:induction false} RenderTail(fs: seq<Field>, tail: string)
    ensures Render(fs, tail) == Render(fs, "") + tail
    decreases |fs|
  {
    if |fs| > 0 {
      RenderTail(fs[1..], tail);
    }
  }

  lemma SecondLayout(a: DateTime, b: DateTime)
    requires ValidDateTime(a) && ValidDateTime(b)
    ensures SameLayout(SecondFields(a), SecondFields(b))
    ensures Values(SecondFields(a)) == Moment(a)[..6] && Values(SecondFields(b)) == Moment(b)[..6]
  {
    assert Pow10(2) == 100 && Pow10(4) == 10000 by {
      assert Pow10(1) == 10;
      assert Pow10(3) == 1000;
    }
  }

  lemma {:induction false} LexLeSnoc(p: seq<int>, q: seq<int>, x: int, y: int)
    requires |p| == |q|
    ensures LexLe(p + [x], q + [y]) <==> LexLe(p, q) && (p == q ==> x <= y)
    decreases |p|
  {
    if |p| == 0 {
      assert p + [x] == [x] && q + [y] == [y];
    } else {
      assert (p + [x])[1..] == p[1..] + [x];
      assert (q + [y])[1..] == q[1..] + [y];
      LexLeSnoc(p[1..], q[1..], x, y);
      assert p == q <==> p[0] == q[0] && p[1..] == q[1..] by {
        assert p == [p[0]] + p[1..];
        assert q == [q[0]] + q[1..];
      }
    }
  }

  /** The microsecond tail: `.ffffffZ` strings compare as the microseconds. */
  lemma MicroTailLe(ma: nat, mb: nat)
    requires ma < 1000000 && mb < 1000000
    ensures StrLe("." + Pad(ma, 6) + "Z", "." + Pad(mb, 6) + "Z") <==> ma <= mb
  {
    assert Pow10(6) == 1000000 by {
      assert Pow10(3) == 1000;
    }
    PadLe(ma, mb, 6);
    ConcatLe("." + Pad(ma, 6), "Z", "." + Pad(mb, 6), "Z");
    ConcatLe(".", Pad(ma, 6), ".", Pad(mb, 6));
    assert StrLe("Z", "Z") by {
      assert "Z"[1..] == "";
    }
  }

  /** Record timestamps written with their fraction sort as the instants do. */
  lemma IsoStampChronological(a: DateTime, b: DateTime)
    requires ValidDateTime(a) && ValidDateTime(b)
    ensures StrLe(IsoStamp(a), IsoStamp(b)) <==> NoLater(a, b)
  {
    SecondLayout(a, b);
    RenderLe(SecondFields(a), SecondFields(b), "." + Pad(a.micro, 6) + "Z", "." + Pad(b.micro, 6) + "Z");
    MicroTailLe(a.micro, b.micro);
    assert Moment(a) == Moment(a)[..6] + [a.micro];
    assert Moment(b) == Moment(b)[..6] + [b.micro];
    LexLeSnoc(Moment(a)[..6], Moment(b)[..6], a.micro, b.micro);
  }

  /** As written, an instant on a whole second sorts after the instant one
      microsecond later: `...:05Z` follows `...:05.000001Z`. */
  lemma AsWrittenStampsMisorder()
    ensures var a := DateTime(2024, 1, 1, 0, 0, 5, 0);
      var b := DateTime(2024, 1, 1, 0, 0, 5, 1);
      && NoLater(a, b) && !NoLater(b, a)
      && StrLe(IsoStampAsWritten(b), IsoStampAsWritten(a))
      && !StrLe(IsoStampAsWritten(a), IsoStampAsWritten(b))
  {
    var a := DateTime(2024, 1, 1, 0, 0, 5, 0);
    var b := DateTime(2024, 1, 1, 0, 0, 5, 1);
    assert Moment(a)[..6] == Moment(b)[..6];
    WholeSecondSortsLate(a, b);
  }

  /** As written, an instant on a whole second sorts after every later
      instant within the same second. */
  lemma WholeSecondSortsLate(a: DateTime, b: DateTime)
    requires ValidDateTime(a) && ValidDateTime(b)
    requires Moment(a)[..6] == Moment(b)[..6] && a.micro == 0 < b.micro
    ensures NoLater(a, b) && !NoLater(b, a)
    ensures StrLe(IsoStampAsWritten(b), IsoStampAsWritten(a))
    ensures !StrLe(IsoStampAsWritten(a), IsoStampAsWritten(b))
  {
    SecondLayout(a, b);
    var tb := "." + Pad(b.micro, 6) + "Z";
    RenderLe(SecondFields(a), SecondFields(b), "Z", tb);
    RenderLe(SecondFields(b), SecondFields(a), tb, "Z");
    assert tb[0] == '.';
    var p := Moment(a)[..6];
    LexLeSnoc(p, p, a.micro, b.micro);
    LexLeSnoc(p, p, b.micro, a.micro);
    assert Moment(a) == p + [a.micro] && Moment(b) == p + [b.micro];
    LexLeRefl(p);
  }

  lemma {:induction false} LexLeRefl(p: seq<int>)
    ensures LexLe(p, p)
    decreases |p|
  {
    if |p| > 0 {
      LexLeRefl(p[1..]);
    }
  }

  /** `strftime("%Y%m%d")`. */
  function DayStamp(t: DateTime): string
  {
    Pad(t.year, 4) + Pad(t.month, 2) + Pad(t.day, 2)
  }

  /** `strftime("%Y%m%d_%H%M%S")`. */
  function SecondStamp(t: DateTime): string
  {
    DayStamp(t) + "_" + Pad(t.hour, 2) + Pad(t.minute, 2) + Pad(t.second, 2)
  }

  /** The day stamp is eight digits that read back as the year, month and
      day; the second stamp is fifteen characters long and starts with it. */
  lemma DayStampSpec(t: DateTime)
    requires ValidDateTime(t)
    ensures |DayStamp(t)| == 8 && |SecondStamp(t)| == 15
    ensures DigitsValue(DayStamp(t)[..4]) == t.year
    ensures DigitsValue(DayStamp(t)[4..6]) == t.month
    ensures DigitsValue(DayStamp(t)[6..]) == t.day
    ensures SecondStamp(t)[..8] == DayStamp(t)
  {
    SecondLayout(t, t);
    assert Pow10(4) == 10000 && Pow10(2) == 100;
    PadRoundTrip(t.year, 4);
    PadRoundTrip(t.month, 2);
    PadRoundTrip(t.day, 2);
    var d := DayStamp(t);
    assert d[..4] == Pad(t.year, 4);
    assert d[4..6] == Pad(t.month, 2);
    assert d[6..] == Pad(t.day, 2);
  }
}

=== FILE: store.dfy ===
/**
 * `SimulativeDatabase` (src/database.py): an append-only JSON Lines store
 * with one file per table and UTC day, renamed aside once it grows past
 * 5 MB, and a reader that gathers every file of a table, filters by bot and
 * sorts by timestamp. The directory is an abstract file map; the clock
 * readings, the size the operating system reports and whether the write or
 * the rename fails are inputs.
 */
module Store {
  import opened Common
  import opened Sorting
  import opened Jsonl
  import opened Stamps

  /** `self.max_file_size`. */
  const MaxFileSize: nat := 5 * 1024 * 1024

  datatype StoreError =
    | WriteFailed              // the append raised; `save_to_db` re-raises
    | MissingTimestamp         // the sort key `x['timestamp']` raised
    | IncomparableTimestamps   // the sort compared timestamps that are not strings

  /** The record `save_to_db` appends: `timestamp` and `bot_name`, then
      every key of the data, a data key replacing those two. */
  function MakeRecord(data: Record, botName: string, stamp: string): (r: Record)
    ensures r.Keys == data.Keys + {"timestamp", "bot_name"}
    ensures forall k :: k in data ==> r[k] == data[k]
    ensures "timestamp" !in data ==> r["timestamp"] == JStr(stamp)
    ensures "bot_name" !in data ==> r["bot_name"] == JStr(botName)
  {
    map["timestamp" := JStr(stamp), "bot_name" := JStr(botName)] + data
  }

  /** `_get_current_file_path`, without the directory. */
  function DayFile(table: string, t: DateTime): string
  {
    table + "_" + DayStamp(t) + ".jsonl"
  }

  /** The name `_rotate_file` renames the day file to. */
  function RotatedFile(table: string, t: DateTime): string
  {
    table + "_" + SecondStamp(t) + ".jsonl"
  }

  /** Both names are files of the table, and they never coincide. */
  lemma FileNames(table: string, t: DateTime, u: DateTime)
    requires ValidDateTime(t) && ValidDateTime(u)
    ensures TableFile(table, DayFile(table, t)) && TableFile(table, RotatedFile(table, u))
    ensures DayFile(table, t) != RotatedFile(table, u)
  {
    NamedTableFile(table, DayStamp(t));
    NamedTableFile(table, SecondStamp(u));
    DayStampSpec(t);
    DayStampSpec(u);
  }

  /** `os.rename(src, dst)` on POSIX: the file moves, replacing any file
      already at `dst`. */
  function Rename(files: Files, src: string, dst: string): Files
    requires src in files
  {
    (files - {src})[dst := files[src]]
  }

  /** `_rotate_file`: the day file of the rotation time, if it exists, is
      renamed to the second-stamped name; a failed rename is only logged. */
  function Rotate(files: Files, table: string, t: DateTime, renameFails: bool): Files
  {
    var src := DayFile(table, t);
    if src !in files || renameFails then files else Rename(files, src, RotatedFile(table, t))
  }

  /** What the environment does during one `save_to_db`: the three clock
      readings (record stamp, file path, rotation), whether the append
      raises, the size `os.path.getsize` reports (`None` for an `OSError`)
      and whether the rename raises. */
  datatype SaveEnv = SaveEnv(stampAt: DateTime, pathAt: DateTime, rotateAt: DateTime,
                             writeFails: bool, size: Option<nat>, renameFails: bool)

  /** `_get_file_size`: 0 when the size cannot be read. */
  function FileSize(size: Option<nat>): nat
  {
    if size.None? then 0 else size.value
  }

  function LinesAt(files: Files, name: string): seq<Line>
  {
    if name in files then files[name] else []
  }

  /** The line `save_to_db` appends for the data. */
  function SavedLine(data: Record, botName: string, env: SaveEnv): Line
  {
    Parsed(JObject(MakeRecord(data, botName, IsoStampAsWritten(env.stampAt))))
  }

  /** `save_to_db`: append the record to the day file (creating it), then
      rotate when the file is larger than the limit. */
  function SaveToDb(files: Files, table: string, data: Record, botName: string, env: SaveEnv): Result<Files, StoreError>
  {
    if env.writeFails then Err(WriteFailed)
    else
      var appended := Appended(files, table, data, botName, env);
      if FileSize(env.size) > MaxFileSize then Ok(Rotate(appended, table, env.rotateAt, env.renameFails))
      else Ok(appended)
  }

  /** A failed write raises, and no file changes when it does. */
  lemma SaveFailureRaises(files: Files, table: string, data: Record, botName: string, env: SaveEnv)
    ensures SaveToDb(files, table, data, botName, env).Err? <==> env.writeFails
    ensures env.writeFails ==> SaveToDb(files, table, data, botName, env) == Err(WriteFailed)
  {
  }

  /** At or under the limit the save only appends the record to the end of
      the day file of the path's date; every other file stays as it was. */
  lemma SaveAppendsToDayFile(files: Files, table: string, data: Record, botName: string, env: SaveEnv)
    requires !env.writeFails && FileSize(env.size) <= MaxFileSize
    ensures var r := SaveToDb(files, table, data, botName, env).value;
      var path := DayFile(table, env.pathAt);
      && r.Keys == files.Keys + {path}
      && r[path] == LinesAt(files, path) + [SavedLine(data, botName, env)]
      && (forall n :: n in files && n != path ==> r[n] == files[n])
  {
  }

  /** Rotation renames and nothing else: unless the rename fails or there is
      no day file, the day file's lines move to the second-stamped name and
      every other file is kept. */
  lemma RotateOnlyRenames(files: Files, table: string, t: DateTime, renameFails: bool)
    ensures var r := Rotate(files, table, t, renameFails);
      var src := DayFile(table, t);
      var dst := RotatedFile(table, t);
      if src !in files || renameFails then r == files
      else
        && r.Keys == files.Keys - {src} + {dst}
        && r[dst] == files[src]
        && (forall n :: n in files && n != src && n != dst ==> r[n] == files[n])
  {
  }

  // ---------------------------------------------------------------------------
  // Gathering the files of a table
  // ---------------------------------------------------------------------------

  /** What file `n` contributes when it belongs to the table. */
  function Contrib<T>(files: Files, n: string, table: string, f: seq<Line> -> seq<T>): seq<T>
  {
    if n in files && TableFile(table, n) then f(files[n]) else []
  }

  /** The contributions of the table's files, in listing order. */
  function Gather<T>(files: Files, listing: seq<string>, table: string, f: seq<Line> -> seq<T>): seq<T>
    decreases |listing|
  {
    if |listing| == 0 then [] else Contrib(files, listing[0], table, f) + Gather(files, listing[1..], table, f)
  }

  lemma {:induction false} GatherAppend<T>(files: Files, a: seq<string>, b: seq<string>, table: string, f: seq<Line> -> seq<T>)
    ensures Gather(files, a + b, table, f) == Gather(files, a, table, f) + Gather(files, b, table, f)
    decreases |a|
  {
    if |a| == 0 {
      assert a + b == b;
    } else {
      assert (a + b)[0] == a[0] && (a + b)[1..] == a[1..] + b;
      GatherAppend(files, a[1..], b, table, f);
    }
  }

  /** Listings whose files contribute the same gather the same. */
  lemma {:induction false} GatherPointwise<T>(f1: Files, l1: seq<string>, f2: Files, l2: seq<string>,
                                             table: string, f: seq<Line> -> seq<T>)
    requires |l1| == |l2|
    requires forall i :: 0 <= i < |l1| ==> Contrib(f1, l1[i], table, f) == Contrib(f2, l2[i], table, f)
    ensures Gather(f1, l1, table, f) == Gather(f2, l2, table, f)
    decreases |l1|
  {
    if |l1| > 0 {
      assert Contrib(f1, l1[0], table, f) == Contrib(f2, l2[0], table, f);
      GatherPointwise(f1, l1[1..], f2, l2[1..], table, f);
    }
  }

  /** A listing of the directory holds exactly the names of its files. */
  lemma ListsMembers(listing: seq<string>, files: Files)
    requires Lists(listing, files)
    ensures Distinct(listing)
    ensures forall n :: n in listing <==> n in files
  {
    forall n
      ensures n in listing <==> n in files
    {
      assert n in listing <==> n in (set m | m in listing);
    }
  }

  lemma MembersLists(listing: seq<string>, files: Files)
    requires Distinct(listing)
    requires forall n :: n in listing <==> n in files
    ensures Lists(listing, files)
  {
    assert (set m | m in listing) == files.Keys;
  }

  lemma DistinctWithout(l: seq<string>, j: int)
    requires Distinct(l) && 0 <= j < |l|
    ensures Distinct(l[..j] + l[j + 1..])
    ensures forall n :: n in l[..j] + l[j + 1..] <==> n in l && n != l[j]
  {
    var r := l[..j] + l[j + 1..];
    assert forall i :: 0 <= i < |r| ==> r[i] == (if i < j then l[i] else l[i + 1]);
    forall n | n in l && n != l[j]
      ensures n in r
    {
      var i :| 0 <= i < |l| && l[i] == n;
      assert r[if i < j then i else i - 1] == n;
    }
  }

  /** Taking the same name out of two listings of the same names leaves
      listings of the same names. */
  lemma WithoutBoth(l1: seq<string>, l2: seq<string>, j: int)
    requires Distinct(l1) && Distinct(l2) && |l1| > 0 && 0 <= j < |l2| && l2[j] == l1[0]
    requires forall n :: n in l1 <==> n in l2
    ensures Distinct(l1[1..]) && Distinct(l2[..j] + l2[j + 1..])
    ensures forall n :: n in l1[1..] <==> n in l2[..j] + l2[j + 1..]
  {
    DistinctWithout(l2, j);
    DistinctWithout(l1, 0);
    assert l1[..0] + l1[1..] == l1[1..];
    forall m
      ensures m in l1[1..] <==> m in l2[..j] + l2[j + 1..]
    {
      assert m in l1[1..] <==> m in l1 && m != l1[0];
    }
  }

  /** The order of the listing does not change what is gathered, only its
      order. */
  lemma {:induction false} GatherPermutation<T>(files: Files, l1: seq<string>, l2: seq<string>,
                                               table: string, f: seq<Line> -> seq<T>)
    requires Distinct(l1) && Distinct(l2)
    requires forall n :: n in l1 <==> n in l2
    ensures multiset(Gather(files, l1, table, f)) == multiset(Gather(files, l2, table, f))
    decreases |l1|
  {
    if |l1| > 0 {
      assert l1[0] in l2;
      var j :| 0 <= j < |l2| && l2[j] == l1[0];
      var a, b := l2[..j], l2[j + 1..];
      WithoutBoth(l1, l2, j);
      GatherPermutation(files, l1[1..], a + b, table, f);
      GatherSplit(files, l2, j, table, f);
      GatherAppend(files, a, b, table, f);
      assert Gather(files, l1, table, f) == Contrib(files, l1[0], table, f) + Gather(files, l1[1..], table, f);
      SpliceMultiset(Gather(files, l1, table, f), Contrib(files, l1[0], table, f), Gather(files, l1[1..], table, f),
                     Gather(files, a, table, f), Gather(files, b, table, f),
                     Gather(files, l2, table, f), Gather(files, a + b, table, f));
    } else {
      assert forall i :: 0 <= i < |l2| ==> l2[i] in l2;
    }
  }

  /** Moving a block from the front into the middle keeps the multiset. */
  lemma SpliceMultiset<T>(g1: seq<T>, c: seq<T>, rest: seq<T>, ga: seq<T>, gb: seq<T>, g2: seq<T>, gab: seq<T>)
    requires g1 == c + rest && multiset(rest) == multiset(gab)
    requires g2 == ga + c + gb && gab == ga + gb
    ensures multiset(g1) == multiset(g2)
  {
  }

  /** Any two listings of a directory gather the same records. */
  lemma ListingsGatherSame<T>(files: Files, l1: seq<string>, l2: seq<string>,
                              table: string, f: seq<Line> -> seq<T>)
    requires Lists(l1, files) && Lists(l2, files)
    ensures multiset(Gather(files, l1, table, f)) == multiset(Gather(files, l2, table, f))
  {
    ListsMembers(l1, files);
    ListsMembers(l2, files);
    GatherPermutation(files, l1, l2, table, f);
  }

  /** Renaming a table file to a free name of the table, at the same place
      in the listing, gathers exactly the same. */
  lemma RenameGathersSame<T>(files: Files, listing: seq<string>, j: int, dst: string,
                             table: string, f: seq<Line> -> seq<T>)
    requires Lists(listing, files) && 0 <= j < |listing|
    requires dst !in files && TableFile(table, listing[j]) && TableFile(table, dst)
    ensures listing[j] in files
    ensures Lists(listing[j := dst], Rename(files, listing[j], dst))
    ensures Gather(Rename(files, listing[j], dst), listing[j := dst], table, f) == Gather(files, listing, table, f)
  {
    RenameKeepsListing(files, listing, j, dst);
    var src := listing[j];
    var r := Rename(files, src, dst);
    var l2 := listing[j := dst];
    forall i | 0 <= i < |listing|
      ensures Contrib(r, l2[i], table, f) == Contrib(files, listing[i], table, f)
    {
      if i != j {
        assert listing[i] in listing;
        assert listing[i] != src by {
          ListsMembers(listing, files);
        }
      }
    }
    GatherPointwise(r, l2, files, listing, table, f);
  }

  /** Renaming the `j`-th listed file to a free name lists the renamed
      files with that one entry replaced. */
  lemma RenameKeepsListing(files: Files, listing: seq<string>, j: int, dst: string)
    requires Lists(listing, files) && 0 <= j < |listing| && dst !in files
    ensures listing[j] in files
    ensures Lists(listing[j := dst], Rename(files, listing[j], dst))
  {
    ListsMembers(listing, files);
    var src := listing[j];
    var r := Rename(files, src, dst);
    var l2 := listing[j := dst];
    forall n
      ensures n in l2 <==> n in r
    {
      if n == dst {
        assert l2[j] == dst;
      } else {
        if n in r {
          assert n in files && n != src;
          var i :| 0 <= i < |listing| && listing[i] == n;
          assert i != j && l2[i] == n;
        }
        if n in l2 {
          var i :| 0 <= i < |l2| && l2[i] == n;
          assert i != j && listing[i] == n;
          assert listing[i] in listing;
          assert n != src;
        }
      }
    }
    assert Distinct(l2) by {
      forall a, b | 0 <= a < b < |l2|
        ensures l2[a] != l2[b]
      {
        assert listing[a] in listing && listing[b] in listing;
      }
    }
    MembersLists(l2, r);
  }

  /** Gathering the lines themselves. */
  function AllLines(lines: seq<Line>): seq<Line>
  {
    lines
  }

  /** Files other than `path` contribute as before. */
  lemma GatherOthers<T>(files: Files, listing: seq<string>, path: string, lines: seq<Line>,
                        table: string, f: seq<Line> -> seq<T>)
    requires path !in listing
    ensures Gather(files[path := lines], listing, table, f) == Gather(files, listing, table, f)
  {
    var a := files[path := lines];
    forall i | 0 <= i < |listing|
      ensures Contrib(a, listing[i], table, f) == Contrib(files, listing[i], table, f)
    {
      assert listing[i] != path;
    }
    GatherPointwise(a, listing, files, listing, table, f);
  }

  /** Gathering splits around any position of the listing. */
  lemma GatherSplit<T>(files: Files, listing: seq<string>, j: int, table: string, f: seq<Line> -> seq<T>)
    requires 0 <= j < |listing|
    ensures Gather(files, listing, table, f)
         == Gather(files, listing[..j], table, f) + Contrib(files, listing[j], table, f)
          + Gather(files, listing[j + 1..], table, f)
  {
    assert listing[..j] + listing[j..] == listing;
    GatherAppend(files, listing[..j], listing[j..], table, f);
    assert listing[j..][0] == listing[j] && listing[j..][1..] == listing[j + 1..];
  }

  /** In a distinct listing, the names around position `j` are not its name. */
  lemma AroundDistinct(listing: seq<string>, j: int)
    requires Distinct(listing) && 0 <= j < |listing|
    ensures listing[j] !in listing[..j] && listing[j] !in listing[j + 1..]
  {
    assert forall i :: 0 <= i < j ==> listing[..j][i] == listing[i];
    var post := listing[j + 1..];
    assert forall i :: 0 <= i < |post| ==> post[i] == listing[j + 1 + i];
  }

  /** Appending a line to a listed table file adds exactly that line to
      the gathered lines. */
  lemma AppendGathersOneMore(files: Files, listing: seq<string>, path: string, x: Line, table: string)
    requires Lists(listing, files) && path in files && TableFile(table, path)
    ensures multiset(Gather(files[path := files[path] + [x]], listing, table, AllLines))
         == multiset(Gather(files, listing, table, AllLines)) + multiset{x}
  {
    ListsMembers(listing, files);
    var j :| 0 <= j < |listing| && listing[j] == path;
    var a := files[path := files[path] + [x]];
    AroundDistinct(listing, j);
    GatherSplit(a, listing, j, table, AllLines);
    GatherSplit(files, listing, j, table, AllLines);
    GatherOthers(files, listing[..j], path, files[path] + [x], table, AllLines);
    GatherOthers(files, listing[j + 1..], path, files[path] + [x], table, AllLines);
    assert Contrib(a, path, table, AllLines) == files[path] + [x];
    assert Contrib(files, path, table, AllLines) == files[path];
  }

  /** Creating a table file with one line adds exactly that line. */
  lemma CreateGathersOneMore(files: Files, listing: seq<string>, path: string, x: Line, table: string)
    requires Lists(listing, files) && path !in files && TableFile(table, path)
    ensures Lists(listing + [path], files[path := [x]])
    ensures Gather(files[path := [x]], listing + [path], table, AllLines)
         == Gather(files, listing, table, AllLines) + [x]
  {
    ListsMembers(listing, files);
    var a := files[path := [x]];
    GatherAppend(a, listing, [path], table, AllLines);
    GatherOthers(files, listing, path, [x], table, AllLines);
    assert Gather(a, [path], table, AllLines) == [x];
    var l2 := listing + [path];
    assert forall n :: n in l2 <==> n in listing || n == path;
    assert Distinct(l2) by {
      forall a, b | 0 <= a < b < |l2|
        ensures l2[a] != l2[b]
      {
        assert listing[a] in listing;
      }
    }
    MembersLists(l2, a);
  }

  /** The directory right after the append of `save_to_db`. */
  function Appended(files: Files, table: string, data: Record, botName: string, env: SaveEnv): Files
  {
    var path := DayFile(table, env.pathAt);
    files[path := LinesAt(files, path) + [SavedLine(data, botName, env)]]
  }

  /** The append adds the saved line and loses none: some listing of the
      new directory gathers the old lines plus that one. */
  lemma AppendKeepsEveryLine(files: Files, before: seq<string>, table: string, data: Record,
                             botName: string, env: SaveEnv) returns (mid: seq<string>)
    requires ValidDateTime(env.pathAt)
    requires Lists(before, files)
    ensures Lists(mid, Appended(files, table, data, botName, env))
    ensures multiset(Gather(Appended(files, table, data, botName, env), mid, table, AllLines))
         == multiset(Gather(files, before, table, AllLines)) + multiset{SavedLine(data, botName, env)}
  {
    var path := DayFile(table, env.pathAt);
    var x := SavedLine(data, botName, env);
    FileNames(table, env.pathAt, env.pathAt);
    if path in files {
      mid := before;
      AppendGathersOneMore(files, before, path, x, table);
      ListsMembers(before, files);
      MembersLists(mid, Appended(files, table, data, botName, env));
    } else {
      mid := before + [path];
      assert LinesAt(files, path) + [x] == [x];
      CreateGathersOneMore(files, before, path, x, table);
    }
  }

  /** A save loses no line: every table file's lines, taken over any
      listing before and after, gain exactly the saved record, provided the
      rotation does not replace an existing file. */
  lemma SaveKeepsEveryLine(files: Files, before: seq<string>, after: seq<string>,
                           table: string, data: Record, botName: string, env: SaveEnv)
    requires ValidDateTime(env.pathAt) && ValidDateTime(env.rotateAt)
    requires Lists(before, files)
    requires SaveToDb(files, table, data, botName, env).Ok?
    requires Lists(after, SaveToDb(files, table, data, botName, env).value)
    requires RotatedFile(table, env.rotateAt) !in files
    ensures multiset(Gather(SaveToDb(files, table, data, botName, env).value, after, table, AllLines))
         == multiset(Gather(files, before, table, AllLines)) + multiset{SavedLine(data, botName, env)}
  {
    var appended := Appended(files, table, data, botName, env);
    var mid := AppendKeepsEveryLine(files, before, table, data, botName, env);
    var r := SaveToDb(files, table, data, botName, env).value;
    if FileSize(env.size) > MaxFileSize {
      assert r == Rotate(appended, table, env.rotateAt, env.renameFails);
      FileNames(table, env.pathAt, env.rotateAt);
      RotateGathersSame(appended, mid, after, table, env.rotateAt, env.renameFails, AllLines);
    } else {
      assert r == appended;
      ListingsGatherSame(appended, mid, after, table, AllLines);
    }
  }

  /** Rotating to a free name, whatever the listings before and after,
      gathers the same. */
  lemma RotateGathersSame<T>(files: Files, before: seq<string>, after: seq<string>, table: string,
                             t: DateTime, renameFails: bool, f: seq<Line> -> seq<T>)
    requires ValidDateTime(t)
    requires Lists(before, files) && Lists(after, Rotate(files, table, t, renameFails))
    requires RotatedFile(table, t) !in files
    ensures multiset(Gather(Rotate(files, table, t, renameFails), after, table, f))
         == multiset(Gather(files, before, table, f))
  {
    var r := Rotate(files, table, t, renameFails);
    var src := DayFile(table, t);
    var dst := RotatedFile(table, t);
    FileNames(table, t, t);
    if src !in files || renameFails {
      ListingsGatherSame(files, before, after, table, f);
    } else {
      ListsMembers(before, files);
      var j :| 0 <= j < |before| && before[j] == src;
      RenameGathersSame(files, before, j, dst, table, f);
      ListingsGatherSame(r, before[j := dst], after, table, f);
    }
  }

  /** When the rotation target already exists, POSIX `rename` replaces it
      and its lines are gone. */
  lemma RotationReplacesExistingTarget(files: Files, table: string, t: DateTime)
    requires ValidDateTime(t)
    requires DayFile(table, t) in files && RotatedFile(table, t) in files
    ensures var r := Rotate(files, table, t, false);
      DayFile(table, t) !in r && r[RotatedFile(table, t)] == files[DayFile(table, t)]
  {
    FileNames(table, t, t);
  }

  // ---------------------------------------------------------------------------
  // read_table
  // ---------------------------------------------------------------------------

  /** The records one file yields: blank lines are skipped; a line that does
      not decode, or a non-object when a bot is given, raises inside the
      `try` and ends the file; with a bot, only its records are kept. */
  function FileRecords(lines: seq<Line>, bot: Option<string>): seq<Value>
    decreases |lines|
  {
    if |lines| == 0 then []
    else
      match lines[0]
      case Blank => FileRecords(lines[1..], bot)
      case Malformed => []
      case Parsed(v) =>
        if bot.None? then [v] + FileRecords(lines[1..], bot)
        else if !v.JObject? then []
        else if GetOr(v.fields, "bot_name") == JStr(bot.value) then [v] + FileRecords(lines[1..], bot)
        else FileRecords(lines[1..], bot)
  }

  function ReadFile(bot: Option<string>): seq<Line> -> seq<Value>
  {
    (lines: seq<Line>) => FileRecords(lines, bot)
  }

  /** The records `read_table` collects before sorting. */
  function Collected(files: Files, listing: seq<string>, table: string, bot: Option<string>): seq<Value>
  {
    Gather(files, listing, table, ReadFile(bot))
  }

  /** `x['timestamp']` as the sort key, for records whose key is a string. */
  function StampKey(v: Value): string
  {
    if v.JObject? && "timestamp" in v.fields && v.fields["timestamp"].JStr? then v.fields["timestamp"].s else ""
  }

  function StampLe(a: Value, b: Value): bool
  {
    StrLe(StampKey(a), StampKey(b))
  }

  lemma StampLeTotalPreorder()
    ensures Total(StampLe) && Transitive(StampLe)
  {
    forall a: Value, b: Value
      ensures StampLe(a, b) || StampLe(b, a)
    {
      StrLeTotal(StampKey(a), StampKey(b));
    }
    forall a: Value, b: Value, c: Value | StampLe(a, b) && StampLe(b, c)
      ensures StampLe(a, c)
    {
      StrLeTransitive(StampKey(a), StampKey(b), StampKey(c));
    }
  }

  predicate HasTimestamp(v: Value)
  {
    v.JObject? && "timestamp" in v.fields
  }

  predicate HasStringTimestamp(v: Value)
  {
    HasTimestamp(v) && v.fields["timestamp"].JStr?
  }

  predicate AllStamped(recs: seq<Value>)
  {
    forall i :: 0 <= i < |recs| ==> HasTimestamp(recs[i])
  }

  predicate AllStringStamped(recs: seq<Value>)
  {
    forall i :: 0 <= i < |recs| ==> HasStringTimestamp(recs[i])
  }

  /** Whether `sorted` gets through the records: each has a timestamp, and
      when there is more than one to compare they are all strings. */
  predicate Sortable(recs: seq<Value>)
  {
    AllStamped(recs) && (|recs| <= 1 || AllStringStamped(recs))
  }

  /** `read_table`: every file of the table in listing order, then
      `sorted(records, key=lambda x: x['timestamp'])`. */
  function ReadTable(files: Files, listing: seq<string>, table: string, bot: Option<string>): Result<seq<Value>, StoreError>
  {
    var recs := Collected(files, listing, table, bot);
    if !AllStamped(recs) then Err(MissingTimestamp)
    else if |recs| > 1 && !AllStringStamped(recs) then Err(IncomparableTimestamps)
    else Ok(Sort(recs, StampLe))
  }

  /** `read_table` fails exactly when some record has no timestamp, or when
      there are several and some timestamp is not a string; a missing key is
      reported first. */
  lemma ReadTableErrors(files: Files, listing: seq<string>, table: string, bot: Option<string>)
    ensures var recs := Collected(files, listing, table, bot);
      && (ReadTable(files, listing, table, bot).Ok? <==>
           (forall v :: v in recs ==> HasTimestamp(v)) && (|recs| <= 1 || forall v :: v in recs ==> HasStringTimestamp(v)))
      && (ReadTable(files, listing, table, bot) == Err(MissingTimestamp) <==> exists v :: v in recs && !HasTimestamp(v))
  {
    StampedMembers(Collected(files, listing, table, bot));
  }

  /** A successful read holds exactly the collected records, ordered by
      timestamp. */
  lemma ReadTableSorted(files: Files, listing: seq<string>, table: string, bot: Option<string>)
    requires ReadTable(files, listing, table, bot).Ok?
    ensures var out := ReadTable(files, listing, table, bot).value;
      multiset(out) == multiset(Collected(files, listing, table, bot)) && Sorted(out, StampLe)
  {
    StampLeTotalPreorder();
    SortSorted(Collected(files, listing, table, bot), StampLe);
  }

  /** With a bot name, every record read is an object of that bot. */
  lemma {:induction false} FileRecordsOfBot(lines: seq<Line>, bot: string)
    ensures forall v :: v in FileRecords(lines, Some(bot)) ==> v.JObject? && GetOr(v.fields, "bot_name") == JStr(bot)
    decreases |lines|
  {
    if |lines| > 0 {
      FileRecordsOfBot(lines[1..], bot);
    }
  }

  lemma {:induction false} GatherOfBot(files: Files, listing: seq<string>, table: string, bot: string)
    ensures forall v :: v in Collected(files, listing, table, Some(bot)) ==>
      v.JObject? && GetOr(v.fields, "bot_name") == JStr(bot)
    decreases |listing|
  {
    if |listing| > 0 {
      var n := listing[0];
      if n in files && TableFile(table, n) {
        FileRecordsOfBot(files[n], bot);
      }
      GatherOfBot(files, listing[1..], table, bot);
    }
  }

  /** `read_table(table, bot_name)` returns only that bot's records. */
  lemma ReadTableOfBot(files: Files, listing: seq<string>, table: string, bot: string)
    requires ReadTable(files, listing, table, Some(bot)).Ok?
    ensures forall v :: v in ReadTable(files, listing, table, Some(bot)).value ==>
      v.JObject? && GetOr(v.fields, "bot_name") == JStr(bot)
  {
    ReadTableSorted(files, listing, table, Some(bot));
    GatherOfBot(files, listing, table, bot);
    var out := ReadTable(files, listing, table, Some(bot)).value;
    forall v | v in out
      ensures v in Collected(files, listing, table, Some(bot))
    {
      assert v in multiset(out);
    }
  }

  /** A line that ends reading the file. */
  predicate Stops(l: Line, bot: Option<string>)
  {
    l.Malformed? || (bot.Some? && l.Parsed? && !l.value.JObject?)
  }

  /** Whether some line of `lines` ends the file. */
  function EndsFile(lines: seq<Line>, bot: Option<string>): bool
    decreases |lines|
  {
    |lines| > 0 && (Stops(lines[0], bot) || EndsFile(lines[1..], bot))
  }

  /** `EndsFile` holds exactly when one of the lines stops the read. */
  lemma {:induction false} EndsFileMeans(lines: seq<Line>, bot: Option<string>)
    ensures EndsFile(lines, bot) <==> exists i :: 0 <= i < |lines| && Stops(lines[i], bot)
    decreases |lines|
  {
    if |lines| > 0 {
      var rest := lines[1..];
      EndsFileMeans(rest, bot);
      if exists i :: 0 <= i < |lines| && Stops(lines[i], bot) {
        var i :| 0 <= i < |lines| && Stops(lines[i], bot);
        if i > 0 {
          assert rest[i - 1] == lines[i];
        }
      }
      if exists i :: 0 <= i < |rest| && Stops(rest[i], bot) {
        var i :| 0 <= i < |rest| && Stops(rest[i], bot);
        assert lines[i + 1] == rest[i];
      }
    }
  }

  /** Reading `a + b` reads `a`, then `b` unless a line of `a` ended the file. */
  lemma {:induction false} FileRecordsAppend(a: seq<Line>, b: seq<Line>, bot: Option<string>)
    ensures FileRecords(a + b, bot)
         == FileRecords(a, bot) + (if exists i :: 0 <= i < |a| && Stops(a[i], bot) then [] else FileRecords(b, bot))
  {
    EndsFileMeans(a, bot);
    ReadAppend(a, b, bot);
  }

  /** `FileRecordsAppend` stated with `EndsFile`. */
  lemma {:induction false} ReadAppend(a: seq<Line>, b: seq<Line>, bot: Option<string>)
    ensures FileRecords(a + b, bot) == FileRecords(a, bot) + (if EndsFile(a, bot) then [] else FileRecords(b, bot))
    decreases |a|
  {
    if |a| == 0 {
      assert a + b == b;
    } else {
      var rest := a[1..];
      ReadAppend(rest, b, bot);
      assert a == [a[0]] + rest;
      assert a + b == [a[0]] + (rest + b);
      ReadAppendCons(a[0], rest, b, bot);
    }
  }

  /** The step of `ReadAppend`: one more line in front of `a`. */
  lemma ReadAppendCons(l: Line, a: seq<Line>, b: seq<Line>, bot: Option<string>)
    requires FileRecords(a + b, bot) == FileRecords(a, bot) + (if EndsFile(a, bot) then [] else FileRecords(b, bot))
    ensures FileRecords([l] + (a + b), bot)
         == FileRecords([l] + a, bot) + (if EndsFile([l] + a, bot) then [] else FileRecords(b, bot))
  {
    FileRecordsCons(l, a, bot);
    FileRecordsCons(l, a + b, bot);
    ConsAppendStep(Stops(l, bot), LineRecords(l, bot), FileRecords(a, bot), FileRecords(a + b, bot), FileRecords(b, bot),
                   FileRecords([l] + (a + b), bot), FileRecords([l] + a, bot), EndsFile(a, bot), EndsFile([l] + a, bot));
  }

  /** The sequence algebra of that step. */
  lemma ConsAppendStep(stops: bool, kept: seq<Value>, ra: seq<Value>, rab: seq<Value>, rb: seq<Value>,
                       rlab: seq<Value>, rla: seq<Value>, ea: bool, ela: bool)
    requires rab == ra + (if ea then [] else rb)
    requires rlab == (if stops then [] else kept + rab)
    requires rla == (if stops then [] else kept + ra)
    requires ela == (stops || ea)
    ensures rlab == rla + (if ela then [] else rb)
  {
    if !stops {
      assert kept + (ra + (if ea then [] else rb)) == kept + ra + (if ea then [] else rb);
    }
  }

  /** The records one line contributes when it does not end the file. */
  function LineRecords(l: Line, bot: Option<string>): seq<Value>
  {
    match l
    case Parsed(v) => if bot.None? || (v.JObject? && GetOr(v.fields, "bot_name") == JStr(bot.value)) then [v] else []
    case _ => []
  }

  /** Reading a file one line at a time. */
  lemma FileRecordsCons(l: Line, rest: seq<Line>, bot: Option<string>)
    ensures FileRecords([l] + rest, bot) == if Stops(l, bot) then [] else LineRecords(l, bot) + FileRecords(rest, bot)
    ensures EndsFile([l] + rest, bot) == (Stops(l, bot) || EndsFile(rest, bot))
  {
    assert ([l] + rest)[0] == l && ([l] + rest)[1..] == rest;
  }

  /** A line that does not decode ends its file: the records before it are
      kept and nothing after it is read. */
  lemma MalformedEndsFile(a: seq<Line>, b: seq<Line>, bot: Option<string>)
    ensures FileRecords(a + [Malformed] + b, bot) == FileRecords(a, bot)
  {
    FileRecordsAppend(a, [Malformed] + b, bot);
    assert a + [Malformed] + b == a + ([Malformed] + b);
  }

  /** Blank lines are skipped. */
  lemma BlankSkipped(a: seq<Line>, b: seq<Line>, bot: Option<string>)
    ensures FileRecords(a + [Blank] + b, bot) == FileRecords(a + b, bot)
  {
    FileRecordsAppend(a, [Blank] + b, bot);
    FileRecordsAppend(a, b, bot);
    assert a + [Blank] + b == a + ([Blank] + b);
    assert ([Blank] + b)[1..] == b;
  }

  /** A broken file hides only its own later records: files other than `n`
      are read as before. */
  lemma BrokenFileStaysLocal(files: Files, listing: seq<string>, table: string, bot: Option<string>,
                             n: string, junk: seq<Line>)
    requires n in files
    ensures var broken := files[n := files[n] + [Malformed] + junk];
      Collected(broken, listing, table, bot) == Gather(files, listing, table, ReadFile(bot))
  {
    var broken := files[n := files[n] + [Malformed] + junk];
    MalformedEndsFile(files[n], junk, bot);
    forall i | 0 <= i < |listing|
      ensures Contrib(broken, listing[i], table, ReadFile(bot)) == Contrib(files, listing[i], table, ReadFile(bot))
    {
    }
    GatherPointwise(broken, listing, files, listing, table, ReadFile(bot));
  }

  /** The two stamp checks, stated over the records rather than their
      positions. */
  lemma StampedMembers(recs: seq<Value>)
    ensures AllStamped(recs) <==> forall v :: v in recs ==> HasTimestamp(v)
    ensures AllStringStamped(recs) <==> forall v :: v in recs ==> HasStringTimestamp(v)
  {
    assert forall i :: 0 <= i < |recs| ==> recs[i] in recs;
  }

  /** Records gathered in the same multiset are sorted the same way. */
  lemma SameRecordsSameSortable(c1: seq<Value>, c2: seq<Value>)
    requires multiset(c1) == multiset(c2)
    ensures Sortable(c1) <==> Sortable(c2)
  {
    assert |c1| == |multiset(c1)| == |multiset(c2)| == |c2|;
    forall v
      ensures v in c1 <==> v in c2
    {
      assert v in c1 <==> v in multiset(c1);
      assert v in c2 <==> v in multiset(c2);
    }
    StampedMembers(c1);
    StampedMembers(c2);
  }

  /** Rotation never hides a record from reads: after renaming the day file
      to a free name, whatever the listing, the same records are read. */
  lemma RotationKeepsReads(files: Files, before: seq<string>, after: seq<string>, table: string,
                           t: DateTime, renameFails: bool, bot: Option<string>)
    requires ValidDateTime(t)
    requires Lists(before, files) && Lists(after, Rotate(files, table, t, renameFails))
    requires RotatedFile(table, t) !in files
    ensures multiset(Collected(Rotate(files, table, t, renameFails), after, table, bot))
         == multiset(Collected(files, before, table, bot))
    ensures ReadTable(Rotate(files, table, t, renameFails), after, table, bot).Ok?
        <==> ReadTable(files, before, table, bot).Ok?
  {
    RotateGathersSame(files, before, after, table, t, renameFails, ReadFile(bot));
    SameRecordsSameSortable(Collected(Rotate(files, table, t, renameFails), after, table, bot),
                            Collected(files, before, table, bot));
  }

  /** With timestamps written as the code does, two records saved one
      microsecond apart, the first on a whole second, are read back in the
      wrong order. */
  lemma AsWrittenReadsOutOfOrder()
    ensures var ra := StampRecord(IsoStampAsWritten(DateTime(2024, 1, 1, 0, 0, 5, 0)));
      var rb := StampRecord(IsoStampAsWritten(DateTime(2024, 1, 1, 0, 0, 5, 1)));
      Sort([ra, rb], StampLe) == [rb, ra]
  {
    var a, b := DateTime(2024, 1, 1, 0, 0, 5, 0), DateTime(2024, 1, 1, 0, 0, 5, 1);
    AsWrittenStampsMisorder();
    var sa, sb := IsoStampAsWritten(a), IsoStampAsWritten(b);
    StampRecordKey(sa);
    StampRecordKey(sb);
    SortPair(StampRecord(sa), StampRecord(sb), StampLe);
  }

  /** A record holding only a timestamp. */
  function StampRecord(stamp: string): Value
  {
    JObject(map["timestamp" := JStr(stamp)])
  }

  lemma StampRecordKey(stamp: string)
    ensures StampKey(StampRecord(stamp)) == stamp
  {
  }

  /** Records saved with the fraction always written are read back in the
      order they were saved. */
  lemma ReadsInSaveOrder(a: DateTime, b: DateTime, ra: Record, rb: Record)
    requires ValidDateTime(a) && ValidDateTime(b) && NoLater(a, b)
    requires ra == map["timestamp" := JStr(IsoStamp(a))] && rb == map["timestamp" := JStr(IsoStamp(b))]
    ensures Sort([JObject(ra), JObject(rb)], StampLe) == [JObject(ra), JObject(rb)]
  {
    IsoStampChronological(a, b);
    assert StampLe(JObject(ra), JObject(rb));
    SortPair(JObject(ra), JObject(rb), StampLe);
  }
}

=== FILE: trades.dfy ===
/**
 * Trades as the `trades` table holds them, and the average-cost realised
 * PnL of `TraderBot.calculate_spot_realized_pnl` (src/trader_bot.py): the
 * average sell price less the average buy price, times the smaller of the
 * quantities bought and sold.
 */
module Trades {
  import opened Common
  import opened Sorting

  /** One row of the `trades` table, with `price` and `quantity` already
      converted by `float(...)`. */
  datatype Trade = Trade(timestamp: string, side: string, price: real, quantity: real)

  /** `trade['side'].lower() == 'buy'`. */
  predicate IsBuy(t: Trade)
  {
    Lower(t.side) == "buy"
  }

  /** `trade['side'].lower() == 'sell'`. */
  predicate IsSell(t: Trade)
  {
    Lower(t.side) == "sell"
  }

  /** `sorted(trades, key=lambda x: x['timestamp'])`: timestamp strings
      compared as Python compares `str`. */
  function TimestampLe(a: Trade, b: Trade): bool
  {
    StrLe(a.timestamp, b.timestamp)
  }

  lemma TimestampLeTotalPreorder()
    ensures Total(TimestampLe) && Transitive(TimestampLe)
  {
    forall a: Trade, b: Trade
      ensures TimestampLe(a, b) || TimestampLe(b, a)
    {
      StrLeTotal(a.timestamp, b.timestamp);
    }
    forall a: Trade, b: Trade, c: Trade | TimestampLe(a, b) && TimestampLe(b, c)
      ensures TimestampLe(a, c)
    {
      StrLeTransitive(a.timestamp, b.timestamp, c.timestamp);
    }
  }

  /** What a trade contracts at its price. */
  function Notional(t: Trade): real
  {
    t.quantity * t.price
  }

  function BuyBaseOf(t: Trade): real
  {
    if IsBuy(t) then t.quantity else 0.0
  }

  function BuyQuoteOf(t: Trade): real
  {
    if IsBuy(t) then Notional(t) else 0.0
  }

  function SellBaseOf(t: Trade): real
  {
    if IsSell(t) then t.quantity else 0.0
  }

  function SellQuoteOf(t: Trade): real
  {
    if IsSell(t) then Notional(t) else 0.0
  }

  /** The four totals of lines 413-417, over any ordering of the trades. */
  datatype Totals = Totals(buyBase: real, buyQuote: real, sellBase: real, sellQuote: real)

  function TotalsOf(trades: seq<Trade>): Totals
  {
    Totals(SumBy(trades, BuyBaseOf), SumBy(trades, BuyQuoteOf),
           SumBy(trades, SellBaseOf), SumBy(trades, SellQuoteOf))
  }

  /** The average-cost formula on given totals: 0 when nothing was bought or
      nothing was sold. */
  function AvgCostOfTotals(s: Totals): real
  {
    if s.buyBase == 0.0 || s.sellBase == 0.0 then 0.0
    else (s.sellQuote / s.sellBase - s.buyQuote / s.buyBase) * MinReal(s.sellBase, s.buyBase)
  }

  /** `calculate_spot_realized_pnl` on the trades read from the table: no
      trades give 0; otherwise the trades are sorted by timestamp and the
      totals taken over the sorted list. */
  function AvgCostPnl(trades: seq<Trade>): real
  {
    if |trades| == 0 then 0.0
    else AvgCostOfTotals(TotalsOf(Sort(trades, TimestampLe)))
  }

  /** The totals do not depend on the order of the trades. */
  lemma TotalsPermutation(a: seq<Trade>, b: seq<Trade>)
    requires multiset(a) == multiset(b)
    ensures TotalsOf(a) == TotalsOf(b)
  {
    SumByPermutation(a, b, BuyBaseOf);
    SumByPermutation(a, b, BuyQuoteOf);
    SumByPermutation(a, b, SellBaseOf);
    SumByPermutation(a, b, SellQuoteOf);
  }

  /** The timestamp sort changes nothing: the PnL is the formula applied to
      the totals of the trades as given. */
  lemma AvgCostUnsorted(trades: seq<Trade>)
    ensures AvgCostPnl(trades) == AvgCostOfTotals(TotalsOf(trades))
  {
    if |trades| > 0 {
      TotalsPermutation(Sort(trades, TimestampLe), trades);
    } else {
      assert TotalsOf(trades) == Totals(0.0, 0.0, 0.0, 0.0);
    }
  }

  /** The result depends only on which trades there are, not their order. */
  lemma AvgCostOrderIndependent(a: seq<Trade>, b: seq<Trade>)
    requires multiset(a) == multiset(b)
    ensures AvgCostPnl(a) == AvgCostPnl(b)
  {
    AvgCostUnsorted(a);
    AvgCostUnsorted(b);
    TotalsPermutation(a, b);
  }

  /** Without a buy or without a sell there is no realised PnL. */
  lemma AvgCostOneSided(trades: seq<Trade>)
    requires (forall i :: 0 <= i < |trades| ==> !IsBuy(trades[i]))
          || (forall i :: 0 <= i < |trades| ==> !IsSell(trades[i]))
    ensures AvgCostPnl(trades) == 0.0
  {
    AvgCostUnsorted(trades);
    if forall i :: 0 <= i < |trades| ==> !IsBuy(trades[i]) {
      ZeroSum(trades, BuyBaseOf);
    } else {
      ZeroSum(trades, SellBaseOf);
    }
  }

  lemma {:induction false} ZeroSum(s: seq<Trade>, f: Trade -> real)
    requires forall i :: 0 <= i < |s| ==> f(s[i]) == 0.0
    ensures SumBy(s, f) == 0.0
  {
    if |s| > 0 {
      ZeroSum(s[1..], f);
    }
  }

  /** When as much was sold as was bought, the average-cost PnL is the sale
      proceeds less the purchase cost. */
  lemma AvgCostBalanced(trades: seq<Trade>)
    requires TotalsOf(trades).buyBase == TotalsOf(trades).sellBase != 0.0
    ensures AvgCostPnl(trades) == TotalsOf(trades).sellQuote - TotalsOf(trades).buyQuote
  {
    AvgCostUnsorted(trades);
    var s := TotalsOf(trades);
    AveragesTimesBase(s.sellQuote, s.buyQuote, s.buyBase);
  }

  lemma AveragesTimesBase(sq: real, bq: real, b: real)
    requires b != 0.0
    ensures (sq / b - bq / b) * MinReal(b, b) == sq - bq
  {
    assert (sq / b - bq / b) * b == (sq / b) * b - (bq / b) * b;
  }

  /** Side names are matched without regard to case: a buy is any spelling
      of "buy" in upper or lower case letters, a sell any spelling of
      "sell", and sides that lower-case alike are classified alike. */
  lemma SideIgnoresCase(t: Trade, u: Trade)
    ensures IsBuy(t) <==> |t.side| == 3 && t.side[0] in "bB" && t.side[1] in "uU" && t.side[2] in "yY"
    ensures IsSell(t) <==>
      |t.side| == 4 && t.side[0] in "sS" && t.side[1] in "eE" && t.side[2] in "lL" && t.side[3] in "lL"
    ensures Lower(t.side) == Lower(u.side) ==> (IsBuy(t) <==> IsBuy(u)) && (IsSell(t) <==> IsSell(u))
  {
    var s, l := t.side, Lower(t.side);
    if |s| == 3 {
      assert l == "buy" <==> l[0] == 'b' && l[1] == 'u' && l[2] == 'y';
      LowerCharIs(s[0], 'b', 'B');
      LowerCharIs(s[1], 'u', 'U');
      LowerCharIs(s[2], 'y', 'Y');
    }
    if |s| == 4 {
      assert l == "sell" <==> l[0] == 's' && l[1] == 'e' && l[2] == 'l' && l[3] == 'l';
      LowerCharIs(s[0], 's', 'S');
      LowerCharIs(s[1], 'e', 'E');
      LowerCharIs(s[2], 'l', 'L');
      LowerCharIs(s[3], 'l', 'L');
    }
  }

  /** Only a letter and its capital lower-case to that letter. */
  lemma LowerCharIs(c: char, lower: char, upper: char)
    requires 'a' <= lower <= 'z' && upper as int == lower as int - 32
    ensures LowerChar(c) == lower <==> c == lower || c == upper
  {
  }

  /** Buying 1 at 100 and at 120 and selling 1 at 130 and at 110 realises
      (120 - 110) * 2 = 20. */
  lemma AvgCostExample()
    ensures AvgCostPnl([Trade("2024-01-01T00:00:01", "BUY", 100.0, 1.0),
                        Trade("2024-01-01T00:00:02", "BUY", 120.0, 1.0),
                        Trade("2024-01-01T00:00:03", "SELL", 130.0, 1.0),
                        Trade("2024-01-01T00:00:04", "SELL", 110.0, 1.0)]) == 20.0
  {
    var t := [Trade("2024-01-01T00:00:01", "BUY", 100.0, 1.0),
              Trade("2024-01-01T00:00:02", "BUY", 120.0, 1.0),
              Trade("2024-01-01T00:00:03", "SELL", 130.0, 1.0),
              Trade("2024-01-01T00:00:04", "SELL", 110.0, 1.0)];
    AvgCostUnsorted(t);
    ExampleTotals(t);
  }

  lemma ExampleTotals(t: seq<Trade>)
    requires t == [Trade("2024-01-01T00:00:01", "BUY", 100.0, 1.0),
                   Trade("2024-01-01T00:00:02", "BUY", 120.0, 1.0),
                   Trade("2024-01-01T00:00:03", "SELL", 130.0, 1.0),
                   Trade("2024-01-01T00:00:04", "SELL", 110.0, 1.0)]
    ensures TotalsOf(t) == Totals(2.0, 220.0, 2.0, 240.0)
  {
    assert Lower("BUY") == "buy" && Lower("SELL") == "sell";
    assert IsBuy(t[0]) && IsBuy(t[1]) && !IsSell(t[0]) && !IsSell(t[1]);
    assert IsSell(t[2]) && IsSell(t[3]) && !IsBuy(t[2]) && !IsBuy(t[3]);
    SumByFour(t, BuyBaseOf);
    SumByFour(t, BuyQuoteOf);
    SumByFour(t, SellBaseOf);
    SumByFour(t, SellQuoteOf);
  }

  lemma SumByFour(s: seq<Trade>, f: Trade -> real)
    requires |s| == 4
    ensures SumBy(s, f) == f(s[0]) + f(s[1]) + f(s[2]) + f(s[3])
  {
    var s1 := s[1..];
    var s2 := s1[1..];
    var s3 := s2[1..];
    assert s1[0] == s[1] && s2[0] == s[2] && s3[0] == s[3];
    assert SumBy(s3, f) == f(s[3]) + SumBy(s3[1..], f);
    assert SumBy(s2, f) == f(s[2]) + SumBy(s3, f);
    assert SumBy(s1, f) == f(s[1]) + SumBy(s2, f);
  }
}
